=== FILE: README.md ===
# EM2-audio trial design and signal-detection analysis, in Dafny

EM2-audio is a set of PsychoPy experiments on subliminal and degraded speech.
In each trial a babbling sound starts, then a first mask, a prime (a spoken
word, possibly compressed, or silence) and a second mask play, and then the
participant answers. This project models the parts of the scripts that
decide what the participant hears and how the answers are scored:

- the trial-list generators of the four experiment scripts. Each draws files
  from asset folders into quotas: per compression level for the yes/no
  detection and typing experiments, per prime valence for the priming and
  two-alternative forced-choice (2AFC) experiments. The lists are then
  shuffled and split into practice and main phases;
- the per-trial rules:
  - the yes/no outcome (Hit, Miss, False Alarm, Correct Rejection);
  - the typing-loop key editor and answer normalisation;
  - the 2AFC left/right placement and accuracy;
  - the quit key;
- the session flow: a practice loop, then a main loop with break points,
  and either loop can be quit;
- the class-based priming script's mask setup, practice sample and
  block/trial-in-block arithmetic;
- the signal-detection summary of the two analysis scripts:
  - hit and false-alarm rates per compression level;
  - the 0/1 edge correction of d′;
  - the 2×2 table passed to the chi-square test;
  - the two significance-marker variants;
  - one result row per level, sorted by level.

Randomness is an input. Every `random.choice` / `random.choices` call reads
an arbitrary natural number from a draw function and takes it modulo the
pool size. `random.shuffle` is Fisher–Yates with arbitrary draws. The model proves that
it keeps the multiset, but not that every permutation can come out. `random.sample` is modelled by
the pool algorithm of CPython's `random.sample`; CPython runs it only for
small populations and otherwise redraws indices already taken, which yields
the same possible samples. The properties proved hold for every
draw stream, so they hold whatever the random generator returns.
`norm.ppf` and `chi2_contingency` are function parameters.

Modules, one per script plus shared ones:

| module | file | models |
|---|---|---|
| `Wrappers` | wrappers.dfy | `Option`, `Result` |
| `Seqs` | seqs.dfy | counting, duplicate-freedom and permutation facts |
| `RandomDraws` | random_draws.dfy | `choice`, `choices`, `shuffle`, `sample` |
| `Filenames` | filenames.dfy | `get_files_from_dir`, `get_word_from_filename`, the `.mp3` filter |
| `Masks` | masks.dfy | the two mask draws and the pool guard |
| `Stratify` | stratify.dfy | shuffle a level folder, then slice practice and main files |
| `Session` | session.dfy | the practice and main loops with quit and breaks |
| `Primes` | primes.dfy | the valence-quota prime list of the priming and 2AFC scripts |
| `Text` | text.dfy | `strip()` and `lower()` |
| `Detection` | detection.dfy | `d-prime_detection.py` |
| `Typing` | typing.dfy | `main_typing_experiment.py` |
| `ForcedChoice` | forced_choice.dfy | `forced_choice.py` |
| `Priming` | priming.dfy | `mainV1.py` |
| `BlockDesign` | block_design.dfy | `gemini_code_v1.py` |
| `SignalDetection` | signal_detection.dfy | `analyse.py` and `dprime_complete.py` |

Notes on the scripts as written:

- Both analysis scripts divide the Hit count and the False Alarm count by
  the size of the whole level stratum, which holds present and absent
  trials alike. `SignalDetection.BalancedStratumHitRateAtMostHalf`
  shows the consequence: on a stratum that is half present and half absent,
  the hit rate never exceeds 1/2.
- The detection and typing generators draw `mask1` and `mask2`
  independently, so the two may be equal. Only the priming, 2AFC and
  class-based scripts exclude `mask1` when drawing `mask2`.
- `d-prime_detection.py` declares `N_PRACTICE_TRIALS = 2`, but nothing uses
  it. The generator builds one present and one absent practice trial per
  level, 14 in all.

## Model

| member | source | states |
|---|---|---|
| Filenames.VisibleFiles | experiment/control_experiment/d-prime_detection.py:222-224 | The folder contents are exactly the listing entries that do not start with `.`, and no entry appears more often than in the listing. |
| Filenames.SplitExtRoot | experiment/control_experiment/d-prime_detection.py:231 | The root is a prefix of the path. Whatever `splitext` drops starts with `.` and holds no further `.` or `/`. |
| Filenames.BeforeFirst | experiment/control_experiment/d-prime_detection.py:233 | `split('_')[0]` is a prefix without `_`, and it stops exactly at the first `_` when it is shorter than the text. |
| Filenames.WordFromFilename | experiment/control_experiment/d-prime_detection.py:226-233 | The word of a file name contains no `_` and is a prefix of the name. |
| Filenames.WordOfStemAndSuffix | experiment/control_experiment/d-prime_detection.py:226-233 | For a stem without `_` or `.` followed by `_` and anything else, the word is the stem. |
| Filenames.CompressedFileWord | experiment/control_experiment/d-prime_detection.py:228 | `bange_compressed.wav` gives `bange`, the example in the helper's documentation. |
| Filenames.WordOfStemAndExtension | experiment/control_experiment/main_typing_experiment.py:224-226 | A plain `ord.wav` name gives its stem `ord`. |
| Filenames.Mp3Files | experiment/gemini_code_v1.py:208-211 | The mask list is exactly the listing entries ending in `.mp3`, without extra copies. |
| RandomDraws.Choice | experiment/control_experiment/d-prime_detection.py:296 | A `random.choice` is a member of its non-empty pool, and every member can be drawn. |
| RandomDraws.Choices | experiment/experiment/mainV1.py:346 | `random.choices(pool, k=n)` gives `n` files, each from the pool. |
| RandomDraws.Shuffle | experiment/control_experiment/d-prime_detection.py:283 | A shuffle keeps the length and the multiset. |
| RandomDraws.ShuffleKeeps | experiment/control_experiment/d-prime_detection.py:335-336 | Shuffling neither adds nor loses members, and it keeps a duplicate-free list duplicate-free. |
| RandomDraws.Without | experiment/gemini_code_v1.py:288 | The comprehension `[f for f in pool if f != mask1]` holds exactly the pool members other than `mask1`. |
| RandomDraws.ChoiceExcluding | experiment/gemini_code_v1.py:287-289 | Drawing from the pool minus `avoid` gives a pool member different from `avoid`. |
| RandomDraws.Sample | experiment/gemini_code_v1.py:385 | `random.sample` succeeds exactly when `k` is at most the population size. It then picks `k` entries, a sub-multiset of the population. |
| RandomDraws.SampleNoRepeats | experiment/gemini_code_v1.py:385 | A sample from a population without repeats repeats nothing. |
| Masks.PickMaskPair | experiment/gemini_code_v1.py:270-289 | From a pool with two different names, the trial's two masks are both from the pool and differ. |
| Masks.EveryMaskPairPossible | experiment/gemini_code_v1.py:270-289 | The exclusion rules out only equal pairs: every ordered pair of different pool masks can be drawn. |
| Masks.RedrawWhileEqual | experiment/experiment/mainV1.py:376-379 | The redraw loop ends on a pool mask different from `mask1`. It is still running exactly when every draw so far repeated `mask1`. |
| Masks.RedrawSameOutcomes | experiment/experiment/mainV1.py:376-379 | A mask can end some run of redraws exactly when some draw from the pool without `mask1` gives it, so the loop and the exclusion draw have the same outcomes in both directions. |
| Masks.SingleMaskPoolRedrawsForever | experiment/experiment/mainV1.py:333 | A mask folder with one file passes the non-emptiness guard, yet no run of redraws ever yields a second mask. |
| Masks.CheckMaskPool | experiment/gemini_code_v1.py:212-213 | The corrected guard accepts a pool exactly when it holds two different names. |
| Masks.CheckedPoolRedrawEnds | experiment/experiment/forced_choice.py:289-292 | Once the corrected guard passes, one more draw can end the redraw loop, whatever `mask1` was. |
| Stratify.SplitFolder | experiment/control_experiment/d-prime_detection.py:283-286 | The practice and main slices of the shuffled folder have the requested sizes and are drawn from the folder, together at most once per copy. When the folder repeats no name they share no file. |
| Session.FirstQuit | experiment/control_experiment/d-prime_detection.py:511-512 | The loop stops at the first trial that returned 'QUIT': no earlier trial quit, and that one did. |
| Session.PracticeLoop | experiment/control_experiment/d-prime_detection.py:504-515 | Practice trial `j` runs exactly when no earlier practice trial quit, and practice shows no break. |
| Session.MainLoop | experiment/control_experiment/d-prime_detection.py:531-551 | Main trial `j` runs exactly when no earlier trial quit. A break follows trial `j` exactly when `j` did not quit and is a break point, and every break comes right after its trial. |
| Session.RunSession | experiment/control_experiment/d-prime_detection.py:504-551 | A practice quit aborts before the main phase. Otherwise a main quit ends the session early, and a session without quits completes. The trials run and the breaks shown are as in the two loops. |
| Session.RunSessionRaising | experiment/experiment/mainV1.py:578-656 | A trial that raises ends its loop where a quit would, with the same trials and breaks, but the session ends crashed and without the end screen. This happens exactly when the stopping trial of practice raised, or of main after a clean practice. |
| Session.NoRaiseIsPlainSession | experiment/experiment/mainV1.py:578-651 | When no trial raises, the session is the plain quit-driven session of the trials' results. |
| Session.RaiseInMainEndsSession | experiment/experiment/mainV1.py:617-656 | If main trial `k` raises after a clean practice and clean earlier trials, the session crashes, runs exactly main trials 0..k, shows only the breaks before `k`, and shows no end screen. |
| Session.Slice | experiment/experiment/forced_choice.py:454-455 | Python slicing: bounds are clamped to the length, and element `k` is `s[a + k]`. |
| Session.SplitPracticeMain | experiment/experiment/forced_choice.py:454-455 | For a full list, practice has `N_PRACTICE_TRIALS` trials, main has the rest, and practice followed by main is the full list. |
| Detection.LevelsDistinct | experiment/control_experiment/d-prime_detection.py:53 | The seven compression levels are distinct. |
| Detection.MakeTrial | experiment/control_experiment/d-prime_detection.py:289-309 | A present trial plays its file and names that file's word. An absent trial plays `SILENCE` with word `NA`. Babbling and masks come from their pools. |
| Detection.TrialsForFiles | experiment/control_experiment/d-prime_detection.py:289-309 | Each selected file gives one present and one absent trial at the level. Present and absent counts both equal the number of files, and present trials play only the selected files. |
| Detection.LevelTrials | experiment/control_experiment/d-prime_detection.py:283-332 | One level gives 1 present and 1 absent practice trial and 7 of each in main, all at that level. Present trials play visible files of the level folder, and no file is in both phases when the folder repeats no name. |
| Detection.LevelsLists | experiment/control_experiment/d-prime_detection.py:266-332 | When every level folder from index `li` on is ready, the loop builds lists with the per-level quotas for each of those levels. Every present trial plays a file of its own level's folder, and, when no folder listing repeats a name, practice and main share no file of a level. |
| Detection.BuildLevels | experiment/control_experiment/d-prime_detection.py:266-280 | The level loop succeeds exactly when every level folder exists and holds at least `1 + 7` visible files. A "not enough files" error reports fewer files found than needed. |
| Detection.GenerateTrialLists | experiment/control_experiment/d-prime_detection.py:235-340 | Generation fails on an empty babbling or mask folder, a missing level folder or one with too few files; otherwise it returns both lists. There are 14 practice and 98 main trials. Each level has 1 present and 1 absent trial in practice and 7 of each in main. Every present trial plays a file of its level's folder, and no file is in both phases. |
| Detection.ShuffledListsKeep | experiment/control_experiment/d-prime_detection.py:335-336 | The final shuffles keep well-formedness, the per-level quotas, the folder of every prime and the practice/main disjointness. |
| Detection.OutcomeLabel | experiment/control_experiment/d-prime_detection.py:426-435 | Every outcome is written as a non-empty `trial_outcome` text. |
| Detection.ParseOutcome | experiment/control_experiment/d-prime_detection.py:426-435 | Reading a `trial_outcome` cell back gives an outcome only if that outcome writes the same text. |
| Detection.OutcomeRoundTrip | experiment/control_experiment/d-prime_detection.py:426-435 | Each outcome's text decodes to that outcome. |
| Detection.Classify | experiment/control_experiment/d-prime_detection.py:424-435 | The outcome is Hit for present+`m`, Miss for present+`z`, False Alarm for absent+`m` and Correct Rejection for absent+`z`. Any other key, escape or none gives `NA`. |
| Detection.ClassifyCorrectIffAnswerMatches | experiment/control_experiment/d-prime_detection.py:424-435 | An answered trial scores Hit or Correct Rejection exactly when "yes" was answered to a present signal or "no" to an absent one. |
| Detection.RunTrial | experiment/control_experiment/d-prime_detection.py:364-459 | A sound-loading failure returns 'QUIT' without a row. Otherwise the row records the key, the time and the classified outcome, with signal type, level, word and file, and the trial returns 'QUIT' exactly on escape. |
| Detection.QuitTrialRecordedAsNA | experiment/control_experiment/d-prime_detection.py:437-457 | An escape press is still recorded, with outcome `NA`, before the trial returns 'QUIT'. |
| Detection.BreaksInFullSession | experiment/control_experiment/d-prime_detection.py:547 | With 98 main trials and no quits, breaks follow main trials 29, 59 and 89 only: break points 119 and 149 are never reached. The session completes. |
| Typing.LevelsDistinct | experiment/control_experiment/main_typing_experiment.py:54 | The eight compression levels are distinct. |
| Typing.TrialsForFiles | experiment/control_experiment/main_typing_experiment.py:281-300 | Each selected file gives one trial at the level that plays that file, with babbling and masks from their pools. |
| Typing.BuildLevels | experiment/control_experiment/main_typing_experiment.py:255-300 | The loop succeeds exactly when every level folder exists with at least 2 visible files. Each level then has one practice and one main trial, each plays a file of its own folder, and no file is in both phases. |
| Typing.GenerateTrialLists | experiment/control_experiment/main_typing_experiment.py:228-308 | Generation fails on an empty babbling or mask folder or an unready level folder; otherwise it returns 8 practice and 8 main trials, one per level in each, with the folder and disjointness properties. |
| Typing.ShuffledListsKeep | experiment/control_experiment/main_typing_experiment.py:303-304 | The final shuffles keep the per-level quotas, folders and disjointness. |
| Typing.ApplyKey | experiment/control_experiment/main_typing_experiment.py:394-399 | Backspace drops the last character (nothing on empty text), `space` appends a blank, a one-character key name is appended, and any other key changes nothing. |
| Typing.BackspaceUndoesKey | experiment/control_experiment/main_typing_experiment.py:394-399 | A typed character or space followed by backspace leaves the text as it was. |
| Typing.FirstEnd | experiment/control_experiment/main_typing_experiment.py:390-393 | The loop stops at the first escape or return key. |
| Typing.ReadTypedResponse | experiment/control_experiment/main_typing_experiment.py:370-402 | The loop quits exactly when escape is the first ending key, and submits exactly when return is. A submission carries the text edited by the keys before it and the time of the very first key press. |
| Typing.ScoreSubmission | experiment/control_experiment/main_typing_experiment.py:405-420 | Accuracy is 1 exactly when the stripped, lower-cased answer equals the stripped, lower-cased correct word, and 0 otherwise. The normalised answer is recorded. |
| Typing.TypedWordScoresOne | experiment/control_experiment/main_typing_experiment.py:407-412 | Typing the correct word with any whitespace around it scores 1. |
| Typing.ResponseWordNormalised | experiment/control_experiment/main_typing_experiment.py:407-414 | The recorded response word is unchanged by a second normalisation. |
| Typing.RunTrial | experiment/control_experiment/main_typing_experiment.py:338-420 | A sound failure or escape quits without a row. A submission records the scored answer of the keys typed before return. |
| Typing.NoBreaks | experiment/control_experiment/main_typing_experiment.py:70 | With an empty break list the typing experiment never shows a break. |
| Text.StripLeft | experiment/control_experiment/main_typing_experiment.py:407 | `lstrip` removes an all-whitespace prefix and leaves text that starts with a non-space. |
| Text.StripRight | experiment/control_experiment/main_typing_experiment.py:407 | `rstrip` removes an all-whitespace suffix and leaves text that ends with a non-space. |
| Text.Strip | experiment/control_experiment/main_typing_experiment.py:407 | The stripped text starts and ends with a non-space, and it is empty exactly when the input is all whitespace. |
| Text.LowerChar | experiment/control_experiment/main_typing_experiment.py:407 | Lower-casing maps `A`–`Z` to `a`–`z`, keeps `a`–`z`, and keeps whitespace whitespace (ASCII and Latin-1 letters only). |
| Text.Lower | experiment/control_experiment/main_typing_experiment.py:407 | `lower()` maps each character through the ASCII/Latin-1 lowering, keeping the length. |
| Text.Normalize | experiment/control_experiment/main_typing_experiment.py:407-408 | The normalised text is no longer than the input and has no surrounding whitespace. |
| Text.NormalizeIdempotent | experiment/control_experiment/main_typing_experiment.py:407-408 | Normalising twice is normalising once. |
| Text.NormalizeIgnoresSurroundingSpace | experiment/control_experiment/main_typing_experiment.py:407-408 | Whitespace around an answer does not change its normal form. |
| Text.StripTrimmed | experiment/control_experiment/main_typing_experiment.py:407 | Text without surrounding whitespace is its own strip. |
| Primes.ValenceLabel | experiment/experiment/mainV1.py:347-362 | Every valence has a non-empty `prime_valence` label. |
| Primes.ValenceLabelInjective | experiment/experiment/mainV1.py:347-362 | Two valences share a label only if they are the same valence. |
| Primes.FolderFor | experiment/experiment/mainV1.py:445-448 | A prime is loaded from the folder named by its valence, except that neutral primes come from `neutrale`. |
| Primes.Folders | experiment/experiment/mainV1.py:324-326 | The prime folders are exactly `positive`, `negative` and `neutrale`. |
| Primes.PrimeList | experiment/experiment/mainV1.py:343-362 | The prime list has the configured number of entries of each valence, and each file comes from its own valence's folder. |
| Primes.ShuffledPrimeList | experiment/experiment/mainV1.py:369 | After the shuffle the prime list still has its valence counts and its folder membership. |
| Primes.ShuffledPrimesKeep | experiment/experiment/forced_choice.py:282 | Any reordering of a prime list keeps folder membership and every valence count. |
| Primes.PrimeSound | experiment/experiment/mainV1.py:441-456 | A `SILENCE` prime plays nothing; any other prime plays its own file. |
| Primes.PlayedPrimeIsInItsFolder | experiment/experiment/mainV1.py:441-456 | Every prime that is played is found in the folder it is loaded from, including the `neutral`/`neutrale` mapping. |
| Priming.MakeTrial | experiment/experiment/mainV1.py:373-398 | Trial `i` is numbered `i + 1` and pairs face `i` with prime `i`. Its babbling comes from the pool, and its two masks are different pool files. |
| Priming.BuildTrials | experiment/experiment/mainV1.py:373-398 | The loop makes one trial per prime, numbered consecutively, with the primes and faces in list order. |
| Priming.BuildTrialsWellFormed | experiment/experiment/mainV1.py:373-398 | Every trial the loop makes uses assets from its folders, with two different masks. |
| Priming.BuildTrialList | experiment/experiment/mainV1.py:367-401 | The shuffled list has ten well-formed trials without repeats, numbered 1..10 in some order. |
| Priming.BuildTrialListShape | experiment/experiment/mainV1.py:373-401 | The generated list has ten distinct well-formed trials numbered with each of 1..10 once. |
| Priming.BuildTrialListPrimes | experiment/experiment/mainV1.py:343-401 | The generated list has 3 positive, 3 negative, 2 neutral and 2 silent primes, each from its folder. |
| Priming.BuildTrialListFacesDistinct | experiment/experiment/mainV1.py:367-387 | Faces taken from the front of a shuffled folder listing are pairwise distinct across the trials. |
| Priming.ShuffledFacesDistinct | experiment/experiment/mainV1.py:401 | Reordering trials built from distinct faces keeps the faces distinct. |
| Priming.TrialsFollowPrimes | experiment/experiment/mainV1.py:369-401 | Trials built one per prime and then shuffled keep the primes' folders and valence counts. |
| Priming.ShuffledTrialsKeep | experiment/experiment/mainV1.py:401 | The final shuffle keeps the trial count, the numbering 1..10 and well-formedness. |
| Priming.GenerateTrialList | experiment/experiment/mainV1.py:286-404 | Generation fails first on fewer than 10 faces, then on an empty sound folder, then on a mask pool without two different files. Otherwise it returns ten numbered well-formed trials with the valence quotas, and with distinct faces. |
| Priming.PracticeMainSplit | experiment/experiment/mainV1.py:544-545 | Practice is the first 2 trials and main the other 8; together they are the full list. |
| Priming.Playback | experiment/experiment/mainV1.py:433-470 | A trial plays babbling, mask 1, the prime (skipped for silence) from its valence folder, then mask 2. |
| Priming.PlayedPrimeFound | experiment/experiment/mainV1.py:441-456 | The prime a trial plays exists in the folder it is loaded from. |
| Priming.RunTrial | experiment/experiment/mainV1.py:503-523 | The recorded key and time are those pressed, or none. The trial returns 'QUIT' exactly on escape. |
| Priming.RunTrialLoading | experiment/experiment/mainV1.py:431-456 | The trial raises exactly when its sounds fail to load, since nothing catches the failure. Otherwise it returns the recorded response and quits exactly on escape. |
| Priming.RatingNeverQuits | experiment/experiment/mainV1.py:520-523 | A rating key is recorded and never quits. |
| Priming.BreaksInFullSession | experiment/experiment/mainV1.py:636 | With 8 main trials and no quits, the single break follows main trial 3 and the session completes. |
| Priming.QuitAtBreakPointSkipsBreak | experiment/experiment/mainV1.py:628-636 | A quit at main trial 3 ends the session before that trial's break, after trials 0..3. |
| ForcedChoice.Words | experiment/experiment/forced_choice.py:257 | Each prime file maps to its word, in order. |
| ForcedChoice.AllWords | experiment/experiment/forced_choice.py:255-257 | `all_prime_words` is exactly the set of words of the prime folders' files: each such word once, and nothing else. |
| ForcedChoice.MakeTrial | experiment/experiment/forced_choice.py:288-313 | Trial `i` is numbered `i + 1` and plays prime `i`, whose word is the correct word. The distractor is a prime word different from it. Babbling comes from the pool, and the two masks are different. |
| ForcedChoice.BuildTrials | experiment/experiment/forced_choice.py:286-314 | The loop makes one trial per prime, in order, numbered consecutively. |
| ForcedChoice.BuildTrialsWellFormed | experiment/experiment/forced_choice.py:286-314 | Every trial the loop makes has its word, a different distractor and two different masks. |
| ForcedChoice.BuildTrialList | experiment/experiment/forced_choice.py:282-318 | The shuffled list has ten well-formed trials without repeats, numbered 1..10 in some order. |
| ForcedChoice.BuildTrialListShape | experiment/experiment/forced_choice.py:286-318 | The generated list has ten distinct well-formed trials numbered with each of 1..10 once. |
| ForcedChoice.BuildTrialListPrimes | experiment/experiment/forced_choice.py:264-318 | The generated list has 4 positive, 3 negative and 3 neutral primes, each from its folder. |
| ForcedChoice.TrialsFollowPrimes | experiment/experiment/forced_choice.py:282-318 | Trials built from the shuffled primes and shuffled again keep the primes' folders and valence counts. |
| ForcedChoice.ShuffledTrialsKeep | experiment/experiment/forced_choice.py:318 | The final shuffle keeps the count, the numbering and well-formedness. |
| ForcedChoice.GenerateTrialList | experiment/experiment/forced_choice.py:222-320 | Generation succeeds exactly when no asset folder is empty, there are at least 2 distinct prime words, and the mask pool holds two different files. A "too few words" error reports fewer than 2. The result has the shape and valence quotas. |
| ForcedChoice.Place | experiment/experiment/forced_choice.py:378-385 | The two words on screen are the correct word and the distractor. The correct key names the side holding the correct word, which is left exactly when the draw exceeds 0.5. |
| ForcedChoice.RunTrial | experiment/experiment/forced_choice.py:407-433 | Accuracy is 1 exactly when the key pressed is the correct key, and 0 for the other arrow, escape or no response. The trial returns 'QUIT' exactly on escape, and the row records the placement. |
| ForcedChoice.RunTrialLoading | experiment/experiment/forced_choice.py:337-357 | The trial raises exactly when its sounds fail to load, since nothing catches the failure. Otherwise it returns the scored row and quits exactly on escape. |
| ForcedChoice.AccuracyIffChoseHeardWord | experiment/experiment/forced_choice.py:407-413 | Pressing an arrow scores 1 exactly when that side shows the heard word. |
| ForcedChoice.PracticeMainSplit | experiment/experiment/forced_choice.py:454-455 | Practice is the first 2 trials and main the other 8; together they are the full list. |
| BlockDesign.SetupMasks | experiment/gemini_code_v1.py:208-213 | Setup succeeds exactly when the mask folder holds at least two `.mp3` files, and then the mask list is those files. |
| BlockDesign.SetupMasksSuffice | experiment/gemini_code_v1.py:208-213 | Two `.mp3` entries of a folder listing are two different names, so the `mask2` exclusion always has a candidate. |
| BlockDesign.TrialMasks | experiment/gemini_code_v1.py:270-289 | `mask1` is a pool file, and `mask2` is a pool file different from it. |
| BlockDesign.TrialMasksAgree | experiment/gemini_code_v1.py:287-289 | The pool-minus-`mask1` draw gives the same pair as the priming scripts' mask pair. A `mask2` can come out of it exactly when the redraw-while-equal loop can end on that mask. |
| BlockDesign.PracticeRows | experiment/gemini_code_v1.py:385 | Sampling practice rows succeeds exactly when the table has at least 10 rows, and gives 10 different row numbers. |
| BlockDesign.PracticeConditions | experiment/gemini_code_v1.py:385 | The practice block is 10 conditions of the table, or an error when the table has fewer than 10. |
| BlockDesign.PracticeNoRepeats | experiment/gemini_code_v1.py:385 | A table without repeated rows gives a practice block without repeats. |
| BlockDesign.RowsNoDups | experiment/gemini_code_v1.py:385 | Different rows of a table without repeats are different conditions. |
| BlockDesign.PositionOf | experiment/gemini_code_v1.py:443-444 | Trial-in-block lies in 1..70, the block is at least 1 and at most 3 for the 210 main trials, and `i = (block-1)*70 + (trial_in_block-1)`. |
| BlockDesign.PositionRoundTrip | experiment/gemini_code_v1.py:443-444 | Every (block, trial-in-block) pair in range is the position of exactly one main index below 210. |
| BlockDesign.IndexOfPosition | experiment/gemini_code_v1.py:443-444 | A main index is recovered from its position. |
| BlockDesign.PositionInjective | experiment/gemini_code_v1.py:443-444 | Different main indices have different positions. |
| BlockDesign.BreakBefore | experiment/gemini_code_v1.py:434-435 | A break comes before main trial `i` exactly when `i` is 70 or 140, and it reports `i // 70` blocks done (1 or 2). |
| BlockDesign.BreakIffBlockStart | experiment/gemini_code_v1.py:434-444 | Among the 210 main trials, a break comes exactly before the first trial of blocks 2 and 3, and it reports the previous block. |
| BlockDesign.Step | experiment/gemini_code_v1.py:428-455 | Each main index runs one trial, and it comes last. A break is shown before it exactly when one is due, and that break reports the blocks done. The break check runs before the trial. |
| BlockDesign.MainSchedule | experiment/gemini_code_v1.py:428-455 | This is the loop when no trial ends the session. From trial `i` on, every remaining condition runs at its (block, trial-in-block) position, every condition run is one of the order, and every break reports 1 or 2 blocks completed. |
| BlockDesign.ScheduleCounts | experiment/gemini_code_v1.py:427-458 | From trial `i` on, the main loop runs every remaining trial once and shows the breaks still due. |
| BlockDesign.FullMainPhase | experiment/gemini_code_v1.py:427-458 | The full main phase runs 210 trials with 2 breaks. |
| BlockDesign.MainRun | experiment/gemini_code_v1.py:428-462 | A trial ends the session if it escapes at the rating, fails to load a sound or its face, or has an escape waiting after it. The loop starts exactly the trials up to and including the first that stops, each at its (block, trial-in-block) position with its own condition. A break is shown only before a trial that starts. The number of trials started is counted. |
| BlockDesign.NoStopRunsSchedule | experiment/gemini_code_v1.py:428-462 | When no trial ends the session, the loop is the full schedule `MainSchedule`. |
| BlockDesign.RunTrial | experiment/gemini_code_v1.py:319-353 | Escape closes the experiment before anything is recorded. Otherwise the row holds the practice flag, block and trial numbers, both masks, and the key and time pressed (or none). |
| BlockDesign.RunTrialLoading | experiment/gemini_code_v1.py:270-331 | A trial whose mask or prime sound, or face image, fails to load ends without a row, before the rating, since nothing in `run_trial` catches it. Escape at the rating otherwise ends the trial without a row. Any other trial records `RunTrial`'s row. |
| BlockDesign.UnrecordedTrialEndsMainPhase | experiment/gemini_code_v1.py:428-462 | Suppose main trial `k` records no row, through escape or a failed load, and every earlier trial recorded one with no escape waiting. Then trial `k` is the last one started, and exactly `k + 1` trials start. |
| BlockDesign.RecordedPositions | experiment/gemini_code_v1.py:394-455 | A rating in practice is recorded. A main trial's recorded block and trial-in-block identify its main index. |
| SignalDetection.Stratum | experiment/control_experiment/data_detection/andet_mystik/personal_data/analyse.py:59 | A level's stratum holds exactly the rows at that level, as many as the data has. |
| SignalDetection.StratumRates | experiment/control_experiment/data_detection/andet_mystik/personal_data/analyse.py:62-63 | The hit and false-alarm rates are the Hit and False Alarm counts over the whole stratum. Both lie in [0, 1], and their sum is at most 1. |
| SignalDetection.BalancedStratumHitRateAtMostHalf | experiment/control_experiment/data_detection/andet_mystik/personal_data/analyse.py:62 | In a stratum that is half present and half absent, where hits occur only on present trials, the hit rate is at most 1/2. |
| SignalDetection.EdgeCorrect | experiment/control_experiment/data_detection/andet_mystik/personal_data/analyse.py:24-29 | A rate of 1 becomes `1 - 1/(2n)` and a rate of 0 becomes `1/(2n)`. Any other rate is unchanged. With `n = 0` a replacement divides by zero. |
| SignalDetection.EdgeCorrectInOpenUnit | experiment/control_experiment/data_detection/andet_mystik/personal_data/analyse.py:24-29 | With at least one trial, a rate in [0, 1] is corrected into the open interval (0, 1). |
| SignalDetection.EdgeCorrectInUnit | find_compression_rate/dprime_complete.py:9-12 | With at least one trial, the corrected rate is the value `dprime` passes on, strictly between 0 and 1. |
| SignalDetection.EdgeCorrectIdempotent | find_compression_rate/dprime_complete.py:9-12 | Correcting a corrected rate changes nothing. |
| SignalDetection.EdgeCorrectOfCount | experiment/control_experiment/data_detection/andet_mystik/personal_data/analyse.py:62-66 | The corrected rate of `k/n` is `k/n` moved to `1/2` trials at 0 and `n - 1/2` trials at `n`. |
| SignalDetection.EdgeCorrectStrictlyMonotone | experiment/control_experiment/data_detection/andet_mystik/personal_data/analyse.py:24-29 | With at least two trials, correction keeps a strictly smaller count's rate strictly smaller. |
| SignalDetection.SingleTrialCorrectionCollapses | experiment/control_experiment/data_detection/andet_mystik/personal_data/analyse.py:24-29 | With one trial, both 0 and 1 are corrected to 1/2. |
| SignalDetection.DPrime | experiment/control_experiment/data_detection/andet_mystik/personal_data/analyse.py:24-30 | d′ is defined exactly when both corrections are, and it is the probit of the corrected hit rate minus the probit of the corrected false-alarm rate. |
| SignalDetection.DPrimeSignFollowsCounts | experiment/control_experiment/data_detection/andet_mystik/personal_data/analyse.py:62-66 | For any strictly increasing probit and at least two trials, d′ is positive exactly when there are more hits than false alarms, and zero exactly when they are equal. |
| SignalDetection.ContingencyTable | experiment/control_experiment/data_detection/andet_mystik/personal_data/analyse.py:32-38 | Each row of the table sums to `n/2`, and a rate in [0, 1] gives non-negative cells. |
| SignalDetection.TableFromStratum | experiment/control_experiment/data_detection/andet_mystik/personal_data/analyse.py:62-67 | Built from a stratum's rates, the table's yes-cells are half the stratum's Hit count and half its False Alarm count. |
| SignalDetection.MarkerThreeTier | experiment/control_experiment/data_detection/andet_mystik/personal_data/analyse.py:42-47 | The marker is empty exactly when `p >= 0.05`, and `***` exactly when `p < 0.001`. |
| SignalDetection.MarkerTwoTier | find_compression_rate/dprime_complete.py:25-29 | The marker is never `***`. It is empty exactly when `p >= 0.05`, and `**` exactly when `p < 0.001`. |
| SignalDetection.MarkersMonotone | experiment/control_experiment/data_detection/andet_mystik/personal_data/analyse.py:42-47 | In both variants a smaller p never earns fewer asterisks. |
| SignalDetection.MarkersDisagreeBelowOnePercent | find_compression_rate/dprime_complete.py:25-29 | The variants agree exactly when `p >= 0.01`. Below that the three-tier marker has one more asterisk. |
| SignalDetection.UniqueLevels | experiment/control_experiment/data_detection/andet_mystik/personal_data/analyse.py:55 | `unique()` lists every level of the data exactly once. |
| SignalDetection.PresentLevelCounted | experiment/control_experiment/data_detection/andet_mystik/personal_data/analyse.py:59-63 | A level that occurs has a non-empty stratum, so the rate divisions are defined. |
| SignalDetection.LevelResult | experiment/control_experiment/data_detection/andet_mystik/personal_data/analyse.py:58-79 | A level's row reports that level, its row count, and its Hit and False Alarm counts over that count. The rates are non-negative with sum at most 1, and the marker matches the row's p. |
| SignalDetection.ZeroMarginIffNoYesAnswers | experiment/control_experiment/data_detection/andet_mystik/personal_data/analyse.py:32-39 | The level's table has a zero margin, so `chi2_contingency` finds a zero expected frequency and raises, exactly when the level has neither a Hit nor a False Alarm. |
| SignalDetection.LevelResults | experiment/control_experiment/data_detection/andet_mystik/personal_data/analyse.py:58-80 | The loop gives one row per listed level, in order, each counting that level's rows. |
| SignalDetection.InsertByLevel | experiment/control_experiment/data_detection/andet_mystik/personal_data/analyse.py:83-84 | Inserting into a sorted result keeps it sorted and adds exactly the new row. |
| SignalDetection.SortByLevel | experiment/control_experiment/data_detection/andet_mystik/personal_data/analyse.py:83-84 | `sort_values` returns a permutation of the rows, ascending by level. |
| SignalDetection.TotalTrialsPermutation | experiment/control_experiment/data_detection/andet_mystik/personal_data/analyse.py:83-84 | Sorting the result keeps the `n_trials` total. |
| SignalDetection.UnsortedResults | experiment/control_experiment/data_detection/andet_mystik/personal_data/analyse.py:55-80 | Before sorting there is one row per distinct level. The rows' levels are the data's levels, and each row counts its level's rows. |
| SignalDetection.SortedDistinctAscending | experiment/control_experiment/data_detection/andet_mystik/personal_data/analyse.py:83-84 | Sorting rows with distinct levels gives strictly ascending levels. |
| SignalDetection.ResultsOnePerLevel | find_compression_rate/dprime_complete.py:33-52 | The result has strictly ascending levels, and they are exactly the levels present in the data: one row per level. |
| SignalDetection.ResultsAreLevelResults | experiment/control_experiment/data_detection/andet_mystik/personal_data/analyse.py:58-84 | Sorting only reorders: every result row is the row its own level's stratum gives, with that stratum's count, rates, d′, test and marker. |
| SignalDetection.ResultsCountEveryRow | experiment/control_experiment/data_detection/andet_mystik/personal_data/analyse.py:55-84 | Each result row's `n_trials` is its level's row count, and the column adds up to the number of rows analysed. |
| SignalDetection.ComputeRateResults | find_compression_rate/dprime_complete.py:34-53 | The result is sorted by level and has one row per distinct level. Each row's level occurs in the data and its `n_trials` counts that level's rows. |
| SignalDetection.FirstNoYesLevel | experiment/control_experiment/data_detection/andet_mystik/personal_data/analyse.py:58-67 | It finds the first level in loop order with no yes-answers, with none before it, or reports that no level lacks them. |
| SignalDetection.SomeTestRaises | experiment/control_experiment/data_detection/andet_mystik/personal_data/analyse.py:58-67 | Some level's test raises exactly when the loop meets a level without yes-answers. |
| SignalDetection.AnalyseRates | experiment/control_experiment/data_detection/andet_mystik/personal_data/analyse.py:53-86 | The analysis fails exactly when there are no rows (the `KeyError` at line 83) or some level's table has a zero margin (the `ValueError` of `chi2_contingency`). A chi-square failure names the first such level in loop order. Otherwise the result is the sorted rows. |
| SignalDetection.SumOverLevels | experiment/control_experiment/data_detection/andet_mystik/personal_data/analyse.py:78 | Summing the per-level row counts over distinct levels that cover the data gives the number of rows. |

## Left out

- PsychoPy plumbing is not modelled: windows, stimuli, `sound.Sound` playback, `core.wait`, `event.waitKeys` polling, dialogs, and `ExperimentHandler`/`TrialHandler` persistence. A key response is an input value, and whether a trial's sounds loaded is a boolean input. The detection and typing scripts catch a failed load and return 'QUIT'. In `mainV1.py`, `forced_choice.py` and `gemini_code_v1.py` the failure raises out of the trial, and the session ends at that trial.
- Random stimulus durations (`random.uniform`), reaction-time values and the probability distributions of the draws are not modelled. Draws are arbitrary numbers, so only membership, exclusion and permutation facts are stated.
- `norm.ppf` and `chi2_contingency` are function parameters. Only the zero-expected-frequency `ValueError` of `chi2_contingency` is modelled, and it is modelled by the table's margins. The f-string formatting of d′, rates, chi² and p is not modelled.
- CSV loading, globbing, `sys.exit`, result saving and printing in `analyse.py`, and the module-level directory scan of `dprime_complete.py`, are file I/O and are not modelled. The analysis starts from a sequence of rows.
- Asset folders are inputs as listings. The `FileNotFoundError` exits for the babbling, mask, prime and face folders are not modelled. A missing compression-level folder is modelled, as an error.
- In `gemini_code_v1.py`, `load_conditions` (CSV import) is not modelled: the conditions table is an input. So are the orders in which the practice and main `random` TrialHandlers present their trials. The escape check in `show_instructions` only ends the process and is not modelled. An escape during or between main trials is modelled by `BlockDesign.MainRun`.
- BlockDesign.RunTrial: assumes the trial's sounds and face image loaded. `BlockDesign.RunTrialLoading` adds the load failure.
- BlockDesign.MainSchedule: runs every remaining trial, so it is the main loop only when no trial ends the session. `BlockDesign.MainRun` is the loop with early endings, and `BlockDesign.NoStopRunsSchedule` ties the two together.
- BlockDesign.MainRun: covers the main phase only. An escape or a failed load in a practice trial ends the script before the main phase starts. The practice loop is not modelled as a sequence of events.
- `project/script.py` and `generate-noise-gif/noise_gif.py` are filesystem and image I/O and are not part of this model.
- SignalDetection: rates, table cells and corrections are exact reals, while the scripts compute them in binary floating point. Equalities such as `signalYes == hits / 2`, `EdgeCorrectOfCount`'s values and `hit + fa <= 1` hold only up to rounding in Python.
- SignalDetection.ComputeRateResults: it is total, and SignalDetection.AnalyseRates adds the two ways `compute_rate_results` raises (no rows, and a level with neither Hit nor False Alarm).
- Text.LowerChar: lowers only `A`–`Z` and the Latin-1 capitals `À`–`Þ` (except `×`). Python's `str.lower()` also lowers every other cased letter, such as `Ā`, Greek and Cyrillic capitals. Answers are Danish words, which these letters cover.
- Text.Lower: maps character by character and keeps the length. Python's `str.lower()` can lengthen text (`'İ'.lower()` is two characters), so the length-keeping clause is not true of Python outside Latin-1.
- Text.Normalize: `|r| <= |s|` holds for the modelled lowering only. For Python on text such as `"İ"` the normalised answer can be longer than the input.
- RandomDraws.Sample: models the pool branch of CPython's `random.sample`. For a population larger than the set-size threshold (85 when `k = 10`, so the 210-row conditions table), CPython instead draws `randbelow(n)` and redraws taken indices. That branch is not modelled step by step, but its possible results (`k` distinct positions of the population) are the ones the contract describes.
- Typing.ReadTypedResponse: a key stream that ends before escape or return gives the outcome `AwaitingKeys`. The script instead waits forever for the next key.
- Detection.GenerateTrialLists: the practice/main disjointness is proved under the hypothesis that no level folder listing repeats a name. This is true of real directory listings, and the listing is an input here.
- Typing.GenerateTrialLists: the same hypothesis applies to the typing experiment's disjointness.
- Priming.GenerateTrialList: the distinct-faces property assumes the face listing repeats no name, as a directory listing never does.
- Priming.GenerateTrialList: it adds the two-different-masks check that the redraw loop needs (see Findings), so a one-file mask folder is an error instead of a hang.
- ForcedChoice.GenerateTrialList: it adds the same two-different-masks check as the priming generator.
- Priming.RunTrial: a trial whose prime is silence and whose valence is not `no-prime` cannot be generated and is not distinguished.
- ForcedChoice.RunTrial: only the keys the script accepts (left, right, escape) are meaningful. The model accepts any key name and scores it as a wrong answer unless it is the correct key.

## Findings

| source | as written | input that shows it | evidently intended | confidence | as-written member | corrected member |
|---|---|---|---|---|---|---|
| experiment/experiment/mainV1.py:333 | Only checks that the mask folder is non-empty before `while mask1 == mask2: mask2 = random.choice(mask_list)` runs (the same guard is at experiment/experiment/forced_choice.py:250) | A `masks/` folder holding one file: the guard passes and every redraw returns the same file, so generation never ends | Reject a mask pool without two different files, as experiment/gemini_code_v1.py:212-213 does | not executed | Masks.SingleMaskPoolRedrawsForever | Masks.CheckMaskPool |

=== FILE: block_design.dfy ===
/** `experiment/gemini_code_v1.py`: the class-based version of the priming
    experiment. Conditions (prime sound, face image) come from a table; ten
    of them, drawn without replacement, form the practice; the main phase
    runs every condition in a random order, numbered in blocks of 70 with a
    break before the first trial of blocks 2 and 3. Masks are drawn per trial,
    the second from the pool with the first removed. */
module BlockDesign {
  import opened Wrappers
  import opened Seqs
  import opened RandomDraws
  import opened Filenames
  import opened Masks

  const PracticeTrialCount: nat := 10
  const TrialsPerBlock: nat := 70
  const BlockCount: nat := 3
  const MainTrialCount: nat := TrialsPerBlock * BlockCount

  const RatingKeys: seq<string> := ["1", "2", "3", "4", "5", "6", "7"]
  const EscapeKey: string := "escape"

  /** One row of the conditions table. */
  datatype Condition = Condition(primeSoundFile: string, faceImageFile: string)

  // ---------------------------------------------------------------------
  // Setup.

  datatype SetupError = NotEnoughMasks(found: nat)

  /** The mask list of `setup_stimuli`: the `.mp3` entries of the mask folder;
      fewer than two is an error. */
  function SetupMasks(listing: seq<string>): (r: Result<seq<string>, SetupError>)
    ensures r.Success? <==> |Mp3Files(listing)| >= 2
    ensures r.Success? ==> r.value == Mp3Files(listing)
    ensures r.Failure? ==> r.error.found < 2
  {
    var masks := Mp3Files(listing);
    if |masks| < 2 then Failure(NotEnoughMasks(|masks|)) else Success(masks)
  }

  /** A folder listing names each file once, so two `.mp3` entries are two
      different masks: the count guard is enough for the second-mask draw. */
  lemma SetupMasksSuffice(listing: seq<string>)
    requires NoDups(listing)
    requires SetupMasks(listing).Success?
    ensures HasTwoDistinct(SetupMasks(listing).value)
  {
    var masks := Mp3Files(listing);
    NoDupsSubMultiset(masks, listing);
    assert masks[0] in masks && masks[1] in masks && masks[0] != masks[1];
  }

  /** `mask1_file = random.choice(masks)`, then `mask2_file` from the masks
      other than `mask1_file`. */
  function TrialMasks(masks: seq<string>, k1: nat, k2: nat): (r: (string, string))
    requires HasTwoDistinct(masks)
    ensures r.0 in masks && r.1 in masks && r.0 != r.1
    ensures r.0 == Choice(masks, k1)
  {
    var m1 := Choice(masks, k1);
    OtherMaskExists(masks, m1);
    (m1, Choice(Without(masks, m1), k2))
  }

  /** The list-comprehension draw agrees with the other scripts' trials: it
      is the exclusion draw of their mask pair, and a `mask2` can come out of
      it exactly when the redraw-while-equal loop can end on that mask. */
  lemma TrialMasksAgree(masks: seq<string>, k1: nat, k2: nat, y: string)
    requires HasTwoDistinct(masks)
    ensures TrialMasks(masks, k1, k2) == PickMaskPair(masks, k1, k2)
    ensures (exists k: nat :: TrialMasks(masks, k1, k).1 == y)
        <==> (exists ds: seq<nat> :: RedrawWhileEqual(masks, Choice(masks, k1), ds) == Some(y))
  {
    var m1 := Choice(masks, k1);
    OtherMaskExists(masks, m1);
    RedrawSameOutcomes(masks, m1, y);
    forall k: nat ensures TrialMasks(masks, k1, k).1 == ChoiceExcluding(masks, m1, k) {
    }
  }

  // ---------------------------------------------------------------------
  // Practice.

  /** The row numbers 0..n-1. */
  function Range(n: nat): (r: seq<nat>)
    ensures |r| == n
    ensures forall k :: 0 <= k < n ==> r[k] == k
  {
    if n == 0 then [] else Range(n - 1) + [n - 1]
  }

  function Rows(conditions: seq<Condition>, rows: seq<nat>): (r: seq<Condition>)
    requires forall k :: 0 <= k < |rows| ==> rows[k] < |conditions|
    ensures |r| == |rows|
    ensures forall k :: 0 <= k < |rows| ==> r[k] == conditions[rows[k]]
  {
    if |rows| == 0 then [] else [conditions[rows[0]]] + Rows(conditions, rows[1..])
  }

  datatype PracticeError = FewerConditionsThanPracticeTrials

  lemma RangeFacts(n: nat)
    ensures NoDups(Range(n))
    ensures forall x: nat :: x in Range(n) <==> x < n
  {
    var r := Range(n);
    forall x: nat ensures x in r <==> x < n {
      if x < n {
        assert r[x] == x;
      }
    }
  }

  /** `random.sample(all_conditions, N_PRACTICE_TRIALS)`, as the table rows
      drawn: ten different rows, a ValueError when the table is shorter. */
  function PracticeRows(n: nat, draw: nat -> nat): (r: Result<seq<nat>, PracticeError>)
    ensures r.Success? <==> n >= PracticeTrialCount
    ensures r.Success? ==> |r.value| == PracticeTrialCount
    ensures r.Success? ==> NoDups(r.value)
    ensures r.Success? ==> forall k :: 0 <= k < |r.value| ==> r.value[k] < n
  {
    match Sample<nat>(Range(n), PracticeTrialCount, draw)
    case Failure(_) => Failure(FewerConditionsThanPracticeTrials)
    case Success(rows) =>
      SampledRows(n, PracticeTrialCount, draw);
      Success(rows)
  }

  /** `k` rows sampled from `n` are `k` different row numbers below `n`. */
  lemma SampledRows(n: nat, k: nat, draw: nat -> nat)
    requires k <= n
    ensures NoDups(Sample<nat>(Range(n), k, draw).value)
    ensures forall i :: 0 <= i < k ==> Sample<nat>(Range(n), k, draw).value[i] < n
  {
    var rows: seq<nat> := Range(n);
    var s: seq<nat> := Sample<nat>(rows, k, draw).value;
    RangeFacts(n);
    SampleNoRepeats<nat>(rows, k, draw);
    forall i | 0 <= i < k ensures s[i] < n {
      assert s[i] in multiset(s);
      assert s[i] in multiset(rows);
      assert s[i] in rows;
    }
  }

  /** The practice conditions: no row of the table is practised twice. */
  function PracticeConditions(conditions: seq<Condition>, draw: nat -> nat): (r: Result<seq<Condition>, PracticeError>)
    ensures r.Success? <==> |conditions| >= PracticeTrialCount
    ensures r.Success? ==> |r.value| == PracticeTrialCount
    ensures r.Success? ==> forall c :: c in r.value ==> c in conditions
  {
    var rows := PracticeRows(|conditions|, draw);
    if rows.Failure? then Failure(rows.error)
    else
      RowsFromTable(conditions, rows.value);
      Success(Rows(conditions, rows.value))
  }

  /** Whatever rows are picked, each picked condition is one of the table's. */
  lemma RowsFromTable(conditions: seq<Condition>, rows: seq<nat>)
    requires forall k :: 0 <= k < |rows| ==> rows[k] < |conditions|
    ensures forall c :: c in Rows(conditions, rows) ==> c in conditions
  {
    var picked := Rows(conditions, rows);
    forall c | c in picked ensures c in conditions {
      var k :| 0 <= k < |picked| && picked[k] == c;
      assert picked[k] == conditions[rows[k]];
    }
  }

  /** A table without repeated rows gives a practice without repeats. */
  lemma PracticeNoRepeats(conditions: seq<Condition>, draw: nat -> nat)
    requires NoDups(conditions)
    requires |conditions| >= PracticeTrialCount
    ensures NoDups(PracticeConditions(conditions, draw).value)
  {
    RowsNoDups(conditions, PracticeRows(|conditions|, draw).value);
  }

  /** Different row numbers of a table without repeated rows pick different
      conditions. */
  lemma RowsNoDups(conditions: seq<Condition>, rows: seq<nat>)
    requires NoDups(conditions) && NoDups(rows)
    requires forall k :: 0 <= k < |rows| ==> rows[k] < |conditions|
    ensures NoDups(Rows(conditions, rows))
  {
    var r := Rows(conditions, rows);
    forall i, j | 0 <= i < j < |r| ensures r[i] != r[j] {
      assert rows[i] != rows[j];
    }
  }

  // ---------------------------------------------------------------------
  // Main phase: blocks and breaks.

  /** `current_block = i // 70 + 1` and `trial_in_block = i % 70 + 1`. */
  datatype Position = Position(block: nat, trialInBlock: nat)

  function PositionOf(i: nat): (p: Position)
    ensures 1 <= p.trialInBlock <= TrialsPerBlock
    ensures p.block >= 1
    ensures i < MainTrialCount ==> p.block <= BlockCount
    ensures i == (p.block - 1) * TrialsPerBlock + (p.trialInBlock - 1)
  {
    Position(i / TrialsPerBlock + 1, i % TrialsPerBlock + 1)
  }

  /** The inverse of `PositionOf`. */
  function IndexOf(p: Position): (i: int)
  {
    (p.block - 1) * TrialsPerBlock + (p.trialInBlock - 1)
  }

  /** Every in-range (block, trial-in-block) pair is the position of exactly
      one main-trial index, and that index is `IndexOf` of it. */
  lemma PositionRoundTrip(p: Position)
    requires 1 <= p.block <= BlockCount && 1 <= p.trialInBlock <= TrialsPerBlock
    ensures 0 <= IndexOf(p) < MainTrialCount
    ensures PositionOf(IndexOf(p) as nat) == p
  {
    var i := IndexOf(p);
    assert i == (p.block - 1) * 70 + (p.trialInBlock - 1);
    DivModUnique(i, p.block - 1, p.trialInBlock - 1);
  }

  lemma DivModUnique(i: int, q: int, m: int)
    requires 0 <= m < TrialsPerBlock && 0 <= q
    requires i == q * TrialsPerBlock + m
    ensures i / TrialsPerBlock == q && i % TrialsPerBlock == m
  {
  }

  lemma IndexOfPosition(i: nat)
    ensures IndexOf(PositionOf(i)) == i
  {
  }

  lemma PositionInjective(i: nat, j: nat)
    requires PositionOf(i) == PositionOf(j)
    ensures i == j
  {
    IndexOfPosition(i);
    IndexOfPosition(j);
  }

  /** `if i in [N_TRIALS_PER_BLOCK, N_TRIALS_PER_BLOCK * 2]`: a break before
      trial `i`, reporting `i // 70` blocks completed. */
  function BreakBefore(i: nat): (r: Option<nat>)
    ensures r.Some? <==> i == TrialsPerBlock || i == 2 * TrialsPerBlock
    ensures r.Some? ==> r.value == i / TrialsPerBlock && 1 <= r.value <= BlockCount - 1
  {
    if i in [TrialsPerBlock, TrialsPerBlock * 2] then Some(i / TrialsPerBlock) else None
  }

  /** Within the 210 main trials, a break comes exactly before the first trial
      of every block but the first, and reports the block just finished. */
  lemma BreakIffBlockStart(i: nat)
    requires i < MainTrialCount
    ensures BreakBefore(i).Some? <==> PositionOf(i).trialInBlock == 1 && PositionOf(i).block > 1
    ensures BreakBefore(i).Some? ==> BreakBefore(i).value == PositionOf(i).block - 1
  {
  }

  /** One step of the main loop as the session sees it. */
  datatype Event = Break(blocksCompleted: nat) | RanTrial(position: Position, condition: Condition)

  /** What the loop shows for trial `i`: the break, if one is due, then the
      trial. */
  function Step(order: seq<Condition>, i: nat): (r: seq<Event>)
    requires i < |order|
    ensures Count(r, IsTrial) == 1
    ensures Count(r, IsBreak) == if BreakBefore(i).Some? then 1 else 0
    ensures |r| == if BreakBefore(i).Some? then 2 else 1
    ensures r[|r| - 1] == RanTrial(PositionOf(i), order[i])
    ensures BreakBefore(i).Some? ==> r[0] == Break(BreakBefore(i).value)
    ensures forall e :: e in r && e.Break? ==> TrialsPerBlock * e.blocksCompleted == i
  {
    var trial := [RanTrial(PositionOf(i), order[i])];
    match BreakBefore(i)
    case Some(b) =>
      CountAppend([Break(b)], trial, IsTrial);
      CountAppend([Break(b)], trial, IsBreak);
      [Break(b)] + trial
    case None => trial
  }

  predicate IsTrial(e: Event)
  {
    e.RanTrial?
  }

  predicate IsBreak(e: Event)
  {
    e.Break?
  }

  /** The main loop from trial `i` on, over the conditions in the order the
      trial handler runs them, when no trial ends the session early
      (`MainRun` is the loop with early endings). */
  function MainSchedule(order: seq<Condition>, i: nat): (r: seq<Event>)
    requires i <= |order|
    ensures forall k :: i <= k < |order| ==> RanTrial(PositionOf(k), order[k]) in r
    ensures forall e :: e in r && e.RanTrial? ==> e.condition in order
    ensures forall e :: e in r && e.Break? ==> 1 <= e.blocksCompleted <= BlockCount - 1
    decreases |order| - i
  {
    if i == |order| then []
    else
      var head := Step(order, i);
      var rest := MainSchedule(order, i + 1);
      assert RanTrial(PositionOf(i), order[i]) in head;
      head + rest
  }

  /** The breaks still ahead of trial `i` out of `n`. */
  function BreaksAhead(i: nat, n: nat): nat
  {
    (if i <= TrialsPerBlock < n then 1 else 0) + (if i <= 2 * TrialsPerBlock < n then 1 else 0)
  }

  /** Trial `i` either has its break or leaves the count to trial `i + 1`. */
  lemma BreaksAheadStep(i: nat, n: nat)
    requires i < n
    ensures BreaksAhead(i, n) == (if BreakBefore(i).Some? then 1 else 0) + BreaksAhead(i + 1, n)
  {
  }

  /** The counts of the schedule from `i` are those of step `i` plus those of
      the schedule from `i + 1`. */
  lemma ScheduleStep(order: seq<Condition>, i: nat)
    requires i < |order|
    ensures Count(MainSchedule(order, i), IsTrial) == 1 + Count(MainSchedule(order, i + 1), IsTrial)
    ensures Count(MainSchedule(order, i), IsBreak) ==
      (if BreakBefore(i).Some? then 1 else 0) + Count(MainSchedule(order, i + 1), IsBreak)
  {
    var head := Step(order, i);
    var rest := MainSchedule(order, i + 1);
    assert MainSchedule(order, i) == head + rest;
    CountAppend(head, rest, IsTrial);
    CountAppend(head, rest, IsBreak);
  }

  /** From trial `i` on, the schedule runs each remaining trial once and shows
      one break per break index still ahead. */
  lemma {:induction false} ScheduleCounts(order: seq<Condition>, i: nat)
    requires i <= |order|
    ensures Count(MainSchedule(order, i), IsTrial) == |order| - i
    ensures Count(MainSchedule(order, i), IsBreak) == BreaksAhead(i, |order|)
    decreases |order| - i
  {
    if i < |order| {
      ScheduleCounts(order, i + 1);
      ScheduleStep(order, i);
      BreaksAheadStep(i, |order|);
    }
  }

  /** The full main phase of 210 conditions: 210 trials and two breaks. */
  lemma FullMainPhase(order: seq<Condition>)
    requires |order| == MainTrialCount
    ensures Count(MainSchedule(order, 0), IsTrial) == MainTrialCount
    ensures Count(MainSchedule(order, 0), IsBreak) == BlockCount - 1
  {
    ScheduleCounts(order, 0);
  }

  /** The main loop from trial `i` on, where `stops[k]` says whether trial
      `k` ends the session: an escape at its rating, a sound or face image
      that fails to load, or an escape waiting once it is recorded. The loop
      starts every trial up to and including the first that stops. */
  function MainRun(order: seq<Condition>, stops: seq<bool>, i: nat): (r: seq<Event>)
    requires i <= |order| == |stops|
    ensures forall e :: e in r && e.RanTrial? ==>
      i <= IndexOf(e.position) < |order| && IndexOf(e.position) <= FirstStop(stops, i)
      && e.condition == order[IndexOf(e.position)]
    ensures forall k :: i <= k < |order| ==>
      (RanTrial(PositionOf(k), order[k]) in r <==> k <= FirstStop(stops, i))
    ensures forall e :: e in r && e.Break? ==>
      i <= TrialsPerBlock * e.blocksCompleted <= FirstStop(stops, i)
    ensures Count(r, IsTrial) == Started(stops, i) - i
    decreases |order| - i
  {
    if i == |order| then []
    else
      var head := Step(order, i);
      assert RanTrial(PositionOf(i), order[i]) in head;
      if stops[i] then
        assert FirstStop(stops, i) == i;
        head
      else
        var rest := MainRun(order, stops, i + 1);
        assert FirstStop(stops, i) == FirstStop(stops, i + 1);
        CountAppend(head, rest, IsTrial);
        head + rest
  }

  /** The first trial from `i` on that stops, or `|stops|` when none does. */
  function FirstStop(stops: seq<bool>, i: nat): (q: nat)
    requires i <= |stops|
    ensures i <= q <= |stops|
    ensures q < |stops| ==> stops[q]
    ensures forall k :: i <= k < q ==> !stops[k]
    decreases |stops| - i
  {
    if i == |stops| || stops[i] then i else FirstStop(stops, i + 1)
  }

  /** How many main trials start from `i` on: up to and including the first
      that stops. */
  function Started(stops: seq<bool>, i: nat): nat
    requires i <= |stops|
  {
    var q := FirstStop(stops, i);
    if q < |stops| then q + 1 else |stops|
  }

  /** When no trial stops, the loop is the full schedule. */
  lemma {:induction false} NoStopRunsSchedule(order: seq<Condition>, stops: seq<bool>, i: nat)
    requires i <= |order| == |stops|
    requires forall k :: 0 <= k < |stops| ==> !stops[k]
    ensures MainRun(order, stops, i) == MainSchedule(order, i)
    decreases |order| - i
  {
    if i == |order| {
      assert MainRun(order, stops, i) == [] == MainSchedule(order, i);
    } else {
      NoStopRunsSchedule(order, stops, i + 1);
      NoStopStep(order, stops, i);
    }
  }

  /** The step of `NoStopRunsSchedule`: equal loops from `i + 1` on stay
      equal from `i` on. */
  lemma NoStopStep(order: seq<Condition>, stops: seq<bool>, i: nat)
    requires i < |order| == |stops|
    requires forall k :: 0 <= k < |stops| ==> !stops[k]
    requires MainRun(order, stops, i + 1) == MainSchedule(order, i + 1)
    ensures MainRun(order, stops, i) == MainSchedule(order, i)
  {
    RunUnfold(order, stops, i);
    ScheduleUnfold(order, i);
  }

  lemma RunUnfold(order: seq<Condition>, stops: seq<bool>, i: nat)
    requires i < |order| == |stops| && !stops[i]
    ensures MainRun(order, stops, i) == Step(order, i) + MainRun(order, stops, i + 1)
  {
  }

  lemma ScheduleUnfold(order: seq<Condition>, i: nat)
    requires i < |order|
    ensures MainSchedule(order, i) == Step(order, i) + MainSchedule(order, i + 1)
  {
  }

  // ---------------------------------------------------------------------
  // One trial.

  datatype Response = NoResponse | Pressed(key: string, rt: real)

  datatype TrialRecord = TrialRecord(
    isPractice: bool, blockN: nat, trialNInBlock: nat,
    mask1File: string, mask2File: string,
    valenceRating: Option<string>, ratingRt: Option<real>)

  /** `run_trial`: escape closes the experiment before anything is recorded;
      otherwise the rating (or its absence) is recorded with the trial's
      position and masks. */
  function RunTrial(masks: (string, string), isPractice: bool, trialN: nat, blockN: nat, response: Response): (r: Option<TrialRecord>)
    ensures r.None? <==> response.Pressed? && response.key == EscapeKey
    ensures r.Some? ==> r.value.blockN == blockN && r.value.trialNInBlock == trialN && r.value.isPractice == isPractice
    ensures r.Some? ==> (r.value.mask1File, r.value.mask2File) == masks
    ensures r.Some? ==> (r.value.valenceRating.Some? <==> response.Pressed?)
    ensures r.Some? && response.Pressed? ==> r.value.valenceRating == Some(response.key) && r.value.ratingRt == Some(response.rt)
  {
    match response
    case NoResponse => Some(TrialRecord(isPractice, blockN, trialN, masks.0, masks.1, None, None))
    case Pressed(key, rt) =>
      if key == EscapeKey then None
      else Some(TrialRecord(isPractice, blockN, trialN, masks.0, masks.1, Some(key), Some(rt)))
  }

  /** How a trial of `run_trial` ends. `Escaped` is escape at the rating:
      `close()` quits at once. `LoadFailed` is a mask or prime sound, or the
      face image, that fails to load: nothing in `run_trial` catches it, so it
      reaches the top-level `except Exception`. Neither records a row. */
  datatype TrialEnd = Recorded(record: TrialRecord) | Escaped | LoadFailed

  /** `run_trial` with its loads: the sounds and the face image load before
      the rating is read. */
  function RunTrialLoading(masks: (string, string), isPractice: bool, trialN: nat, blockN: nat, loaded: bool, response: Response): (r: TrialEnd)
    ensures r.LoadFailed? <==> !loaded
    ensures r.Escaped? <==> loaded && response.Pressed? && response.key == EscapeKey
    ensures r.Recorded? ==> RunTrial(masks, isPractice, trialN, blockN, response) == Some(r.record)
  {
    if !loaded then LoadFailed
    else
      match RunTrial(masks, isPractice, trialN, blockN, response)
      case None => Escaped
      case Some(rec) => Recorded(rec)
  }

  /** Whether each main trial ends the session, given how it ended and whether
      an escape was waiting after it (`event.getKeys` between trials). */
  function Stopping(ends: seq<TrialEnd>, escapeAfter: seq<bool>): (r: seq<bool>)
    requires |ends| == |escapeAfter|
    ensures |r| == |ends|
    ensures forall k :: 0 <= k < |r| ==> (r[k] <==> !ends[k].Recorded? || escapeAfter[k])
  {
    seq(|ends|, k requires 0 <= k < |ends| => !ends[k].Recorded? || escapeAfter[k])
  }

  /** A main trial that records no row is the last one the loop starts. */
  lemma UnrecordedTrialEndsMainPhase(order: seq<Condition>, ends: seq<TrialEnd>, escapeAfter: seq<bool>, k: nat)
    requires |order| == |ends| == |escapeAfter|
    requires k < |order| && !ends[k].Recorded?
    requires forall j :: 0 <= j < k ==> ends[j].Recorded? && !escapeAfter[j]
    ensures Count(MainRun(order, Stopping(ends, escapeAfter), 0), IsTrial) == k + 1
    ensures forall j :: 0 <= j < |order| ==>
      (RanTrial(PositionOf(j), order[j]) in MainRun(order, Stopping(ends, escapeAfter), 0) <==> j <= k)
  {
    FirstStopAt(Stopping(ends, escapeAfter), 0, k);
  }

  /** The first stop from `i` on is the stopping trial `k` when none between
      them stops. */
  lemma {:induction false} FirstStopAt(stops: seq<bool>, i: nat, k: nat)
    requires i <= k < |stops| && stops[k]
    requires forall j :: i <= j < k ==> !stops[j]
    ensures FirstStop(stops, i) == k
    decreases k - i
  {
    if i < k {
      FirstStopAt(stops, i + 1, k);
    }
  }

  /** Practice trial `i` is logged as block 0, trial `i + 1`; main trial `i`
      at its block position. */
  lemma RecordedPositions(masks: (string, string), i: nat, key: string, rt: real)
    requires key in RatingKeys
    ensures RunTrial(masks, true, i + 1, 0, Pressed(key, rt)).Some?
    ensures var p := PositionOf(i);
      var r := RunTrial(masks, false, p.trialInBlock, p.block, Pressed(key, rt));
      r.Some? && r.value.blockN >= 1 && IndexOf(Position(r.value.blockN, r.value.trialNInBlock)) == i
  {
  }
}

=== FILE: detection.dfy ===
/** `experiment/control_experiment/d-prime_detection.py`: the yes/no detection
    experiment. Per compression level, one word file per repetition gives a
    signal-present trial and a matching signal-absent (silence) trial. */
module Detection {
  import opened Wrappers
  import opened Seqs
  import opened RandomDraws
  import opened Filenames
  import opened Stratify
  import opened Session

  const CompressionLevels: seq<string> := ["0.1", "0.2", "0.3", "0.4", "0.5", "0.6", "0.7"]
  const PracticeRepsPerLevel: nat := 1
  const MainRepsPerLevel: nat := 7
  const FilesNeededPerFolder: nat := PracticeRepsPerLevel + MainRepsPerLevel
  const PracticeTrialCount: nat := |CompressionLevels| * PracticeRepsPerLevel * 2
  const MainTrialCount: nat := |CompressionLevels| * MainRepsPerLevel * 2

  const QuitKey: string := "escape"
  const YesKey: string := "m"
  const NoKey: string := "z"
  const MainBreakPoints: seq<nat> := [29, 59, 89, 119, 149]

  const Silence: string := "SILENCE"
  const NotApplicable: string := "NA"

  datatype Signal = Present | Absent

  datatype Trial = Trial(
    signal: Signal,
    level: string,
    primeFile: string,
    correctWord: string,
    babblingFile: string,
    mask1File: string,
    mask2File: string)

  datatype GenerationError =
    | EmptyAssetPool
    | MissingLevelFolder(level: string)
    | NotEnoughFiles(level: string, found: nat, needed: nat)

  /** One `random.choice` call: the phase, level index, file index, trial kind
      and asset it draws. */
  datatype Slot = Babbling | Mask1 | Mask2
  datatype Site = Site(phase: Phase, level: nat, file: nat, signal: Signal, slot: Slot)

  /** The random draws of one generation run. */
  datatype Draws = Draws(
    folderShuffle: nat -> (nat -> nat),
    choice: Site -> nat,
    practiceShuffle: nat -> nat,
    mainShuffle: nat -> nat)

  /** Babbling and mask files after the hidden-file filter. */
  datatype Pools = Pools(babbling: seq<string>, masks: seq<string>)

  predicate PoolsReady(pools: Pools)
  {
    |pools.babbling| > 0 && |pools.masks| > 0
  }

  /** What every generated trial satisfies. */
  predicate WellFormed(t: Trial, pools: Pools)
  {
    && t.babblingFile in pools.babbling
    && t.mask1File in pools.masks
    && t.mask2File in pools.masks
    && (t.signal == Present ==> t.correctWord == WordFromFilename(t.primeFile))
    && (t.signal == Absent ==> t.primeFile == Silence && t.correctWord == NotApplicable)
  }

  function IsLevelSignal(level: string, signal: Signal): Trial -> bool
  {
    (t: Trial) => t.level == level && t.signal == signal
  }

  /** Present trials of one level never share a prime file across the phases. */
  predicate PrimeFilesDisjoint(practice: seq<Trial>, main: seq<Trial>)
  {
    forall p, m :: p in practice && m in main && p.signal == Present && m.signal == Present && p.level == m.level
      ==> p.primeFile != m.primeFile
  }

  function MakeTrial(signal: Signal, level: string, file: string, site: Site, pools: Pools, draws: Draws): (t: Trial)
    requires PoolsReady(pools)
    ensures WellFormed(t, pools) && t.level == level && t.signal == signal
    ensures signal == Present ==> t.primeFile == file
  {
    var babbling := Choice(pools.babbling, draws.choice(site.(slot := Babbling)));
    var mask1 := Choice(pools.masks, draws.choice(site.(slot := Mask1)));
    var mask2 := Choice(pools.masks, draws.choice(site.(slot := Mask2)));
    match signal
    case Present => Trial(Present, level, file, WordFromFilename(file), babbling, mask1, mask2)
    case Absent => Trial(Absent, level, Silence, NotApplicable, babbling, mask1, mask2)
  }

  /** For each selected file, a present trial followed by an absent trial. */
  function TrialsForFiles(level: string, files: seq<string>, phase: Phase, li: nat, fi: nat, pools: Pools, draws: Draws): (r: seq<Trial>)
    requires PoolsReady(pools)
    ensures |r| == 2 * |files|
    ensures forall t :: t in r ==> t.level == level && WellFormed(t, pools)
    ensures forall t :: t in r && t.signal == Present ==> t.primeFile in files
    ensures Count(r, IsLevelSignal(level, Present)) == |files|
    ensures Count(r, IsLevelSignal(level, Absent)) == |files|
    decreases |files|
  {
    if |files| == 0 then []
    else
      var present := MakeTrial(Present, level, files[0], Site(phase, li, fi, Present, Babbling), pools, draws);
      var absent := MakeTrial(Absent, level, files[0], Site(phase, li, fi, Absent, Babbling), pools, draws);
      var rest := TrialsForFiles(level, files[1..], phase, li, fi + 1, pools, draws);
      PairCounts(present, absent, rest, level);
      var r := [present, absent] + rest;
      assert forall t :: t in r <==> t == present || t == absent || t in rest;
      r
  }

  /** Counting over one present/absent pair put in front of `rest`. */
  lemma PairCounts(present: Trial, absent: Trial, rest: seq<Trial>, level: string)
    requires present.level == level && present.signal == Present
    requires absent.level == level && absent.signal == Absent
    ensures Count([present, absent] + rest, IsLevelSignal(level, Present)) == Count(rest, IsLevelSignal(level, Present)) + 1
    ensures Count([present, absent] + rest, IsLevelSignal(level, Absent)) == Count(rest, IsLevelSignal(level, Absent)) + 1
  {
    var pair := [present, absent];
    assert pair[1..] == [absent] && [absent][1..] == [];
    CountAppend(pair, rest, IsLevelSignal(level, Present));
    CountAppend(pair, rest, IsLevelSignal(level, Absent));
  }

  /** The level folder exists and holds enough visible files. */
  predicate LevelReady(audio: map<string, seq<string>>, level: string)
  {
    level in audio && |VisibleFiles(audio[level])| >= FilesNeededPerFolder
  }

  lemma LevelsDistinct()
    ensures NoDups(CompressionLevels)
  {
  }

  /** Every trial is well formed and belongs to one of `levels`. */
  predicate TrialsWithin(ts: seq<Trial>, pools: Pools, levels: seq<string>)
  {
    forall t :: t in ts ==> WellFormed(t, pools) && t.level in levels
  }

  /** Every present trial plays a visible file of its own level's folder. */
  predicate PrimesFromFolders(ts: seq<Trial>, audio: map<string, seq<string>>)
  {
    forall t :: t in ts && t.signal == Present ==> t.level in audio && t.primeFile in VisibleFiles(audio[t.level])
  }

  /** Practice and main hold the design's number of trials of each kind for
      every level from index `li` on. */
  predicate CountsFrom(practice: seq<Trial>, main: seq<Trial>, li: nat)
  {
    forall j :: li <= j < |CompressionLevels| ==>
      && Count(practice, IsLevelSignal(CompressionLevels[j], Present)) == PracticeRepsPerLevel
      && Count(practice, IsLevelSignal(CompressionLevels[j], Absent)) == PracticeRepsPerLevel
      && Count(main, IsLevelSignal(CompressionLevels[j], Present)) == MainRepsPerLevel
      && Count(main, IsLevelSignal(CompressionLevels[j], Absent)) == MainRepsPerLevel
  }

  predicate FoldersDuplicateFree(audio: map<string, seq<string>>)
  {
    forall lv :: lv in audio ==> NoDups(audio[lv])
  }

  /** The level loop from level index `li` on. */
  function BuildLevels(audio: map<string, seq<string>>, li: nat, pools: Pools, draws: Draws): (r: Result<(seq<Trial>, seq<Trial>), GenerationError>)
    requires li <= |CompressionLevels|
    requires PoolsReady(pools)
    ensures r.Success? <==> ReadyFrom(audio, li)
    ensures r.Failure? && r.error.NotEnoughFiles? ==> r.error.found < r.error.needed
    ensures r.Success? ==> r.value == LevelsLists(audio, li, pools, draws)
    decreases |CompressionLevels| - li
  {
    if li == |CompressionLevels| then Success(([], []))
    else
      ReadyStep(audio, li);
      var level := CompressionLevels[li];
      if level !in audio then Failure(MissingLevelFolder(level))
      else
        var files := VisibleFiles(audio[level]);
        if |files| < FilesNeededPerFolder then Failure(NotEnoughFiles(level, |files|, FilesNeededPerFolder))
        else
          var rest :- BuildLevels(audio, li + 1, pools, draws);
          var here := LevelTrials(audio, li, pools, draws);
          Success((here.0 + rest.0, here.1 + rest.1))
  }

  /** The lists the level loop builds when every folder from `li` on is
      ready. */
  function LevelsLists(audio: map<string, seq<string>>, li: nat, pools: Pools, draws: Draws): (r: (seq<Trial>, seq<Trial>))
    requires li <= |CompressionLevels| && ReadyFrom(audio, li)
    requires PoolsReady(pools)
    ensures LevelsBuilt(audio, li, pools, r.0, r.1)
    decreases |CompressionLevels| - li
  {
    if li == |CompressionLevels| then ([], [])
    else
      ReadyStep(audio, li);
      var here := LevelTrials(audio, li, pools, draws);
      var rest := LevelsLists(audio, li + 1, pools, draws);
      StepBuilt(audio, li, pools, here.0, here.1, rest.0, rest.1);
      (here.0 + rest.0, here.1 + rest.1)
  }

  /** Every level folder from index `li` on is ready. */
  predicate ReadyFrom(audio: map<string, seq<string>>, li: nat)
  {
    forall j :: li <= j < |CompressionLevels| ==> LevelReady(audio, CompressionLevels[j])
  }

  /** Ready from the first level on means every level is ready. */
  lemma ReadyFromStart(audio: map<string, seq<string>>)
    ensures ReadyFrom(audio, 0) <==> forall lv :: lv in CompressionLevels ==> LevelReady(audio, lv)
  {
    if ReadyFrom(audio, 0) {
      forall lv | lv in CompressionLevels ensures LevelReady(audio, lv) {
        var j :| 0 <= j < |CompressionLevels| && CompressionLevels[j] == lv;
      }
    }
  }

  lemma ReadyStep(audio: map<string, seq<string>>, li: nat)
    requires li < |CompressionLevels|
    ensures ReadyFrom(audio, li) <==> LevelReady(audio, CompressionLevels[li]) && ReadyFrom(audio, li + 1)
  {
  }

  /** The trials of level index `li`: its folder shuffled and cut into
      practice and main files, each file giving a present and an absent
      trial. */
  function LevelTrials(audio: map<string, seq<string>>, li: nat, pools: Pools, draws: Draws): (r: (seq<Trial>, seq<Trial>))
    requires li < |CompressionLevels| && LevelReady(audio, CompressionLevels[li])
    requires PoolsReady(pools)
    ensures LevelPart(audio, li, pools, r.0, r.1)
  {
    var level := CompressionLevels[li];
    var files := VisibleFiles(audio[level]);
    var split := SplitFolder(files, PracticeRepsPerLevel, MainRepsPerLevel, draws.folderShuffle(li));
    var practice := TrialsForFiles(level, split.0, Practice, li, 0, pools, draws);
    var main := TrialsForFiles(level, split.1, Main, li, 0, pools, draws);
    (practice, main)
  }

  /** What one level contributes: the design's number of trials of each
      kind, all at that level, present trials playing files of its folder,
      and no file heard in both phases when the folder has no duplicates. */
  predicate LevelPart(audio: map<string, seq<string>>, li: nat, pools: Pools, practice: seq<Trial>, main: seq<Trial>)
    requires li < |CompressionLevels|
  {
    var level := CompressionLevels[li];
    && level in audio
    && |practice| == 2 * PracticeRepsPerLevel && |main| == 2 * MainRepsPerLevel
    && (forall t :: t in practice ==> t.level == level && WellFormed(t, pools))
    && (forall t :: t in main ==> t.level == level && WellFormed(t, pools))
    && (forall t :: t in practice && t.signal == Present ==> t.primeFile in VisibleFiles(audio[level]))
    && (forall t :: t in main && t.signal == Present ==> t.primeFile in VisibleFiles(audio[level]))
    && Count(practice, IsLevelSignal(level, Present)) == PracticeRepsPerLevel
    && Count(practice, IsLevelSignal(level, Absent)) == PracticeRepsPerLevel
    && Count(main, IsLevelSignal(level, Present)) == MainRepsPerLevel
    && Count(main, IsLevelSignal(level, Absent)) == MainRepsPerLevel
    && (NoDups(VisibleFiles(audio[level])) ==> PrimeFilesDisjoint(practice, main))
  }

  /** What the level loop from index `li` on delivers. */
  predicate LevelsBuilt(audio: map<string, seq<string>>, li: nat, pools: Pools, practice: seq<Trial>, main: seq<Trial>)
    requires li <= |CompressionLevels|
  {
    && |practice| == (|CompressionLevels| - li) * PracticeRepsPerLevel * 2
    && |main| == (|CompressionLevels| - li) * MainRepsPerLevel * 2
    && TrialsWithin(practice, pools, CompressionLevels[li..])
    && TrialsWithin(main, pools, CompressionLevels[li..])
    && PrimesFromFolders(practice, audio)
    && PrimesFromFolders(main, audio)
    && CountsFrom(practice, main, li)
    && (FoldersDuplicateFree(audio) ==> PrimeFilesDisjoint(practice, main))
  }

  /** One level's trials put in front of the later levels' keep everything
      the loop promises. */
  lemma StepBuilt(
    audio: map<string, seq<string>>, li: nat, pools: Pools,
    practice: seq<Trial>, main: seq<Trial>, restP: seq<Trial>, restM: seq<Trial>)
    requires li < |CompressionLevels|
    requires LevelPart(audio, li, pools, practice, main)
    requires LevelsBuilt(audio, li + 1, pools, restP, restM)
    ensures LevelsBuilt(audio, li, pools, practice + restP, main + restM)
  {
    var level := CompressionLevels[li];
    StepWithin(li, pools, practice, restP);
    StepWithin(li, pools, main, restM);
    StepFolders(audio, level, VisibleFiles(audio[level]), practice, restP);
    StepFolders(audio, level, VisibleFiles(audio[level]), main, restM);
    StepCounts(li, practice, main, restP, restM);
    StepDisjoint(audio, li, practice, main, restP, restM);
  }

  lemma StepWithin(li: nat, pools: Pools, here: seq<Trial>, rest: seq<Trial>)
    requires li < |CompressionLevels|
    requires forall t :: t in here ==> t.level == CompressionLevels[li] && WellFormed(t, pools)
    requires TrialsWithin(rest, pools, CompressionLevels[li + 1..])
    ensures TrialsWithin(here + rest, pools, CompressionLevels[li..])
  {
    assert CompressionLevels[li..] == [CompressionLevels[li]] + CompressionLevels[li + 1..];
  }

  lemma StepFolders(audio: map<string, seq<string>>, level: string, files: seq<string>, here: seq<Trial>, rest: seq<Trial>)
    requires level in audio
    requires forall f :: f in files ==> f in VisibleFiles(audio[level])
    requires forall t :: t in here ==> t.level == level
    requires forall t :: t in here && t.signal == Present ==> t.primeFile in files
    requires PrimesFromFolders(rest, audio)
    ensures PrimesFromFolders(here + rest, audio)
  {
  }

  lemma StepCounts(li: nat, practice: seq<Trial>, main: seq<Trial>, restP: seq<Trial>, restM: seq<Trial>)
    requires li < |CompressionLevels|
    requires forall t :: t in practice ==> t.level == CompressionLevels[li]
    requires forall t :: t in main ==> t.level == CompressionLevels[li]
    requires forall t :: t in restP ==> t.level in CompressionLevels[li + 1..]
    requires forall t :: t in restM ==> t.level in CompressionLevels[li + 1..]
    requires Count(practice, IsLevelSignal(CompressionLevels[li], Present)) == PracticeRepsPerLevel
    requires Count(practice, IsLevelSignal(CompressionLevels[li], Absent)) == PracticeRepsPerLevel
    requires Count(main, IsLevelSignal(CompressionLevels[li], Present)) == MainRepsPerLevel
    requires Count(main, IsLevelSignal(CompressionLevels[li], Absent)) == MainRepsPerLevel
    requires CountsFrom(restP, restM, li + 1)
    ensures CountsFrom(practice + restP, main + restM, li)
  {
    LevelsDistinct();
    forall j | li <= j < |CompressionLevels|
      ensures Count(practice + restP, IsLevelSignal(CompressionLevels[j], Present)) == PracticeRepsPerLevel
      ensures Count(practice + restP, IsLevelSignal(CompressionLevels[j], Absent)) == PracticeRepsPerLevel
      ensures Count(main + restM, IsLevelSignal(CompressionLevels[j], Present)) == MainRepsPerLevel
      ensures Count(main + restM, IsLevelSignal(CompressionLevels[j], Absent)) == MainRepsPerLevel
    {
      LevelCountSplit(li, j, practice, restP, Present, PracticeRepsPerLevel);
      LevelCountSplit(li, j, practice, restP, Absent, PracticeRepsPerLevel);
      LevelCountSplit(li, j, main, restM, Present, MainRepsPerLevel);
      LevelCountSplit(li, j, main, restM, Absent, MainRepsPerLevel);
    }
  }

  /** One level's trials followed by later levels' trials: counting at level
      index `j` sees only the part that belongs to it. */
  lemma LevelCountSplit(li: nat, j: nat, here: seq<Trial>, rest: seq<Trial>, s: Signal, reps: nat)
    requires li <= j < |CompressionLevels|
    requires NoDups(CompressionLevels)
    requires forall t :: t in here ==> t.level == CompressionLevels[li]
    requires forall t :: t in rest ==> t.level in CompressionLevels[li + 1..]
    requires Count(here, IsLevelSignal(CompressionLevels[li], s)) == reps
    requires j > li ==> Count(rest, IsLevelSignal(CompressionLevels[j], s)) == reps
    ensures Count(here + rest, IsLevelSignal(CompressionLevels[j], s)) == reps
  {
    var lv := CompressionLevels[j];
    CountAppend(here, rest, IsLevelSignal(lv, s));
    if j == li {
      forall t | t in rest ensures !IsLevelSignal(lv, s)(t) {
        var k :| li + 1 <= k < |CompressionLevels| && t.level == CompressionLevels[k];
      }
      CountNone(rest, IsLevelSignal(lv, s));
    } else {
      CountNone(here, IsLevelSignal(lv, s));
    }
  }

  lemma StepDisjoint(
    audio: map<string, seq<string>>, li: nat,
    practice: seq<Trial>, main: seq<Trial>, restP: seq<Trial>, restM: seq<Trial>)
    requires li < |CompressionLevels| && CompressionLevels[li] in audio
    requires NoDups(VisibleFiles(audio[CompressionLevels[li]])) ==> PrimeFilesDisjoint(practice, main)
    requires forall t :: t in practice ==> t.level == CompressionLevels[li]
    requires forall t :: t in main ==> t.level == CompressionLevels[li]
    requires forall t :: t in restP ==> t.level in CompressionLevels[li + 1..]
    requires forall t :: t in restM ==> t.level in CompressionLevels[li + 1..]
    requires FoldersDuplicateFree(audio) ==> PrimeFilesDisjoint(restP, restM)
    ensures FoldersDuplicateFree(audio) ==> PrimeFilesDisjoint(practice + restP, main + restM)
  {
    LevelsDistinct();
    var level := CompressionLevels[li];
    if FoldersDuplicateFree(audio) {
      NoDupsSubMultiset(VisibleFiles(audio[level]), audio[level]);
      forall t | t in restP || t in restM ensures t.level != level {
        var k :| li + 1 <= k < |CompressionLevels| && t.level == CompressionLevels[k];
      }
    }
  }

  /** `generate_trial_lists`: both lists, each shuffled, or the fatal error. */
  function GenerateTrialLists(
    audio: map<string, seq<string>>, babblingListing: seq<string>, maskListing: seq<string>, draws: Draws)
    : (r: Result<(seq<Trial>, seq<Trial>), GenerationError>)
    ensures r.Success? <==>
      && |VisibleFiles(babblingListing)| > 0 && |VisibleFiles(maskListing)| > 0
      && forall lv :: lv in CompressionLevels ==> LevelReady(audio, lv)
    ensures r.Failure? && r.error.NotEnoughFiles? ==> r.error.found < r.error.needed
    ensures r.Success? ==>
      ListsAsPromised(audio, Pools(VisibleFiles(babblingListing), VisibleFiles(maskListing)), r.value.0, r.value.1)
  {
    ReadyFromStart(audio);
    GenerateFromPools(audio, Pools(VisibleFiles(babblingListing), VisibleFiles(maskListing)), draws)
  }

  /** The generator once the babbling and mask folders are listed. */
  function GenerateFromPools(audio: map<string, seq<string>>, pools: Pools, draws: Draws)
    : (r: Result<(seq<Trial>, seq<Trial>), GenerationError>)
    ensures r.Success? <==> PoolsReady(pools) && ReadyFrom(audio, 0)
    ensures r.Failure? && r.error.NotEnoughFiles? ==> r.error.found < r.error.needed
    ensures r.Success? ==> ListsAsPromised(audio, pools, r.value.0, r.value.1)
  {
    if !PoolsReady(pools) then Failure(EmptyAssetPool)
    else
      match BuildLevels(audio, 0, pools, draws)
      case Failure(e) => Failure(e)
      case Success(lists) =>
        ShuffledLevelsKeep(audio, pools, draws);
        Success((Shuffle(lists.0, draws.practiceShuffle), Shuffle(lists.1, draws.mainShuffle)))
  }

  /** What the generator promises of its practice and main lists: their
      sizes, that every trial is well formed at one of the levels, that every
      prime comes from its level's folder, the per-level counts, and (for
      duplicate-free folders) no prime file in both lists. */
  predicate ListsAsPromised(audio: map<string, seq<string>>, pools: Pools, practice: seq<Trial>, main: seq<Trial>)
  {
    && |practice| == PracticeTrialCount
    && |main| == MainTrialCount
    && TrialsWithin(practice, pools, CompressionLevels)
    && TrialsWithin(main, pools, CompressionLevels)
    && PrimesFromFolders(practice, audio)
    && PrimesFromFolders(main, audio)
    && CountsFrom(practice, main, 0)
    && (FoldersDuplicateFree(audio) ==> PrimeFilesDisjoint(practice, main))
  }

  /** The shuffled lists of all levels keep what the generator promises. */
  lemma ShuffledLevelsKeep(audio: map<string, seq<string>>, pools: Pools, draws: Draws)
    requires ReadyFrom(audio, 0) && PoolsReady(pools)
    ensures var lists := LevelsLists(audio, 0, pools, draws);
      ListsAsPromised(audio, pools, Shuffle(lists.0, draws.practiceShuffle), Shuffle(lists.1, draws.mainShuffle))
  {
    var lists := LevelsLists(audio, 0, pools, draws);
    var practice := Shuffle(lists.0, draws.practiceShuffle);
    var main := Shuffle(lists.1, draws.mainShuffle);
    assert CompressionLevels[0..] == CompressionLevels;
    ShuffledListsKeep(audio, pools, lists.0, lists.1, practice, main);
  }

  /** The final shuffles keep every property of the lists built level by level. */
  lemma ShuffledListsKeep(
    audio: map<string, seq<string>>, pools: Pools,
    p: seq<Trial>, m: seq<Trial>, p': seq<Trial>, m': seq<Trial>)
    requires multiset(p') == multiset(p) && multiset(m') == multiset(m)
    requires TrialsWithin(p, pools, CompressionLevels) && TrialsWithin(m, pools, CompressionLevels)
    requires PrimesFromFolders(p, audio) && PrimesFromFolders(m, audio)
    requires CountsFrom(p, m, 0)
    requires FoldersDuplicateFree(audio) ==> PrimeFilesDisjoint(p, m)
    ensures TrialsWithin(p', pools, CompressionLevels) && TrialsWithin(m', pools, CompressionLevels)
    ensures PrimesFromFolders(p', audio) && PrimesFromFolders(m', audio)
    ensures CountsFrom(p', m', 0)
    ensures FoldersDuplicateFree(audio) ==> PrimeFilesDisjoint(p', m')
  {
    forall t | t in p' ensures t in p {
      assert t in multiset(p');
    }
    forall t | t in m' ensures t in m {
      assert t in multiset(m');
    }
    forall j | 0 <= j < |CompressionLevels|
      ensures Count(p', IsLevelSignal(CompressionLevels[j], Present)) == PracticeRepsPerLevel
      ensures Count(p', IsLevelSignal(CompressionLevels[j], Absent)) == PracticeRepsPerLevel
      ensures Count(m', IsLevelSignal(CompressionLevels[j], Present)) == MainRepsPerLevel
      ensures Count(m', IsLevelSignal(CompressionLevels[j], Absent)) == MainRepsPerLevel
    {
      CountPermutation(p', p, IsLevelSignal(CompressionLevels[j], Present));
      CountPermutation(p', p, IsLevelSignal(CompressionLevels[j], Absent));
      CountPermutation(m', m, IsLevelSignal(CompressionLevels[j], Present));
      CountPermutation(m', m, IsLevelSignal(CompressionLevels[j], Absent));
    }
  }

  // ---------------------------------------------------------------------
  // Scoring one trial and the session around it.

  datatype Outcome = Hit | Miss | FalseAlarm | CorrectRejection | NoOutcome

  /** The `trial_outcome` column text. */
  function OutcomeLabel(o: Outcome): (s: string)
    ensures |s| > 0
  {
    match o
    case Hit => "Hit"
    case Miss => "Miss"
    case FalseAlarm => "False Alarm"
    case CorrectRejection => "Correct Rejection"
    case NoOutcome => NotApplicable
  }

  /** Reads a `trial_outcome` cell back. */
  function ParseOutcome(s: string): (o: Option<Outcome>)
    ensures o.Some? ==> OutcomeLabel(o.value) == s
  {
    if s == "Hit" then Some(Hit)
    else if s == "Miss" then Some(Miss)
    else if s == "False Alarm" then Some(FalseAlarm)
    else if s == "Correct Rejection" then Some(CorrectRejection)
    else if s == NotApplicable then Some(NoOutcome)
    else None
  }

  /** The outcome column decodes to the outcome that wrote it. */
  lemma OutcomeRoundTrip(o: Outcome)
    ensures ParseOutcome(OutcomeLabel(o)) == Some(o)
  {
  }

  /** The `signal_type` column text. */
  function SignalLabel(s: Signal): (l: string)
    ensures l == "present" || l == "absent"
  {
    if s == Present then "present" else "absent"
  }

  /** The Hit/Miss/False Alarm/Correct Rejection rule; any other key (only
      the quit key can arrive) or no key gives no outcome. */
  function Classify(signal: Signal, key: Option<string>): (o: Outcome)
    ensures o == Hit <==> signal == Present && key == Some(YesKey)
    ensures o == Miss <==> signal == Present && key == Some(NoKey)
    ensures o == FalseAlarm <==> signal == Absent && key == Some(YesKey)
    ensures o == CorrectRejection <==> signal == Absent && key == Some(NoKey)
    ensures o == NoOutcome <==> key != Some(YesKey) && key != Some(NoKey)
  {
    match signal
    case Present => if key == Some(YesKey) then Hit else if key == Some(NoKey) then Miss else NoOutcome
    case Absent => if key == Some(YesKey) then FalseAlarm else if key == Some(NoKey) then CorrectRejection else NoOutcome
  }

  /** An answered trial is scored as correct (Hit or Correct Rejection)
      exactly when the yes/no answer matches whether a word was played. */
  lemma ClassifyCorrectIffAnswerMatches(signal: Signal, key: Option<string>)
    requires key == Some(YesKey) || key == Some(NoKey)
    ensures Classify(signal, key) in {Hit, CorrectRejection} <==> ((key == Some(YesKey)) <==> signal == Present)
  {
  }

  /** One row written by `run_trial`. */
  datatype TrialRecord = TrialRecord(
    responseKey: Option<string>, rt: Option<real>, outcome: string,
    signalType: string, level: string, correctWord: string, primeFile: string)

  /** The response `event.waitKeys` returned: the first key and its time. */
  datatype Response = NoResponse | Pressed(key: string, rt: real)

  /** `run_trial`: the recorded row (none when a sound file failed to load)
      and whether the trial returned 'QUIT'. */
  function RunTrial(t: Trial, soundsLoaded: bool, response: Response): (r: (Option<TrialRecord>, bool))
    ensures !soundsLoaded ==> r.0 == None && r.1
    ensures soundsLoaded ==> r.0.Some? && (r.1 <==> response.Pressed? && response.key == QuitKey)
    ensures r.0.Some? ==>
      && r.0.value.outcome == OutcomeLabel(Classify(t.signal, r.0.value.responseKey))
      && (r.0.value.responseKey.Some? <==> response.Pressed?)
      && (response.Pressed? ==> r.0.value.responseKey == Some(response.key) && r.0.value.rt == Some(response.rt))
      && r.0.value.signalType == SignalLabel(t.signal)
      && r.0.value.level == t.level && r.0.value.correctWord == t.correctWord && r.0.value.primeFile == t.primeFile
  {
    if !soundsLoaded then (None, true)
    else
      var key := if response.Pressed? then Some(response.key) else None;
      var rt := if response.Pressed? then Some(response.rt) else None;
      var outcome := OutcomeLabel(Classify(t.signal, key));
      (Some(TrialRecord(key, rt, outcome, SignalLabel(t.signal), t.level, t.correctWord, t.primeFile)),
       key == Some(QuitKey))
  }

  /** A quitting key press is still recorded, with no outcome. */
  lemma QuitTrialRecordedAsNA(t: Trial, rt: real)
    ensures RunTrial(t, true, Pressed(QuitKey, rt)).0.Some?
    ensures RunTrial(t, true, Pressed(QuitKey, rt)).0.value.outcome == NotApplicable
    ensures RunTrial(t, true, Pressed(QuitKey, rt)).1
  {
  }

  /** With 98 main trials and no quits, the breaks come after trials 29, 59
      and 89 only: break points 119 and 149 are never reached. */
  lemma BreaksInFullSession(practiceQuits: seq<bool>, mainQuits: seq<bool>)
    requires |mainQuits| == MainTrialCount
    requires true !in practiceQuits && true !in mainQuits
    ensures forall j: nat :: BreakShown(j) in RunSession(practiceQuits, mainQuits, MainBreakPoints).events <==> j in {29, 59, 89}
    ensures RunSession(practiceQuits, mainQuits, MainBreakPoints).end == Completed
  {
    QuitIffFirstQuit(mainQuits);
    assert FirstQuit(mainQuits) == 98;
  }
}

=== FILE: filenames.dfy ===
/** File-name handling shared by the experiment scripts: the directory-listing
    filters and the word a prime file encodes. POSIX path rules (`/` separator,
    `.` extension separator) are modelled. */
module Filenames {
  import opened Seqs

  /** Index of the last occurrence of `c` in `s`, or -1 (`str.rfind`). */
  function LastIndexOf(s: string, c: char): (r: int)
    ensures -1 <= r < |s|
    ensures r == -1 ==> c !in s
    ensures r >= 0 ==> s[r] == c && c !in s[r + 1..]
  {
    if |s| == 0 then -1
    else if s[|s| - 1] == c then |s| - 1
    else
      var r := LastIndexOf(s[..|s| - 1], c);
      if r == -1 then
        LastIndexNone(s, c);
        r
      else
        LastIndexSome(s, c, r);
        r
  }

  /** A last character other than `c` after text without `c`. */
  lemma {:induction false} LastIndexNone(s: string, c: char)
    requires |s| > 0 && s[|s| - 1] != c
    requires c !in s[..|s| - 1]
    ensures c !in s
  {
    forall k | 0 <= k < |s| ensures s[k] != c {
      if k < |s| - 1 {
        assert s[..|s| - 1][k] == s[k];
      }
    }
  }

  /** A last character other than `c` keeps the last `c` of the rest. */
  lemma {:induction false} LastIndexSome(s: string, c: char, r: nat)
    requires r < |s| - 1 && s[|s| - 1] != c
    requires s[..|s| - 1][r] == c && c !in s[..|s| - 1][r + 1..]
    ensures s[r] == c && c !in s[r + 1..]
  {
    forall k | r + 1 <= k < |s| ensures s[k] != c {
      if k < |s| - 1 {
        assert s[..|s| - 1][r + 1..][k - r - 1] == s[k];
      }
    }
  }

  /** The text before the first occurrence of `c` (`s.split(c)[0]`). */
  function BeforeFirst(s: string, c: char): (r: string)
    ensures c !in r
    ensures r <= s
    ensures |r| < |s| ==> s[|r|] == c
  {
    if |s| == 0 then ""
    else if s[0] == c then ""
    else [s[0]] + BeforeFirst(s[1..], c)
  }

  /** The root of `os.path.splitext(p)`: the path without its extension. The
      extension starts at the last `.` after the last `/`, unless only dots
      precede it in the final component (so `.hidden` has no extension). */
  function SplitExtRoot(p: string): (r: string)
    ensures r <= p
    ensures r != p ==> p[|r|] == '.' && '.' !in p[|r| + 1..] && '/' !in p[|r| + 1..]
  {
    var sep := LastIndexOf(p, '/');
    var dot := LastIndexOf(p, '.');
    if dot > sep && exists k :: sep + 1 <= k < dot && p[k] != '.' then
      SuffixExcludes(p, sep + 1, dot + 1, '/');
      p[..dot]
    else p
  }

  lemma SuffixExcludes(s: string, i: nat, j: nat, c: char)
    requires i <= j <= |s| && c !in s[i..]
    ensures c !in s[j..]
  {
    forall k | 0 <= k < |s[j..]| ensures s[j..][k] != c {
      assert s[j..][k] == s[i..][k + j - i];
    }
  }

  /** `LastIndexOf` is determined by the last position holding `c`. */
  lemma LastIndexAt(s: string, c: char, i: nat)
    requires i < |s| && s[i] == c && c !in s[i + 1..]
    ensures LastIndexOf(s, c) == i
  {
    assert forall k :: i < k < |s| ==> s[k] == s[i + 1..][k - i - 1];
  }

  /** `get_word_from_filename`: the extension-less name up to its first `_`. */
  function WordFromFilename(filename: string): (w: string)
    ensures '_' !in w
    ensures w <= filename
  {
    BeforeFirst(SplitExtRoot(filename), '_')
  }

  /** A stem without `_` or `.` followed by `_` and anything: the word is the stem. */
  lemma WordOfStemAndSuffix(stem: string, suffix: string)
    requires '_' !in stem && '.' !in stem
    requires |suffix| > 0 && suffix[0] == '_'
    ensures WordFromFilename(stem + suffix) == stem
  {
    var f := stem + suffix;
    var root := SplitExtRoot(f);
    if root != f {
      assert f[|root|] == '.';
      assert |root| > |stem|;
    }
    assert root[..|stem|] == stem;
    assert root[|stem|] == '_';
    BeforeFirstAt(root, stem, '_');
  }

  /** A plain stem with one extension: the word is the stem. */
  lemma WordOfStemAndExtension(stem: string, ext: string)
    requires |stem| > 0 && stem[|stem| - 1] != '/'
    requires '_' !in stem && '.' !in stem
    requires '.' !in ext && '/' !in ext
    ensures WordFromFilename(stem + "." + ext) == stem
  {
    ExtRootOfStem(stem, ext);
    BeforeFirstAll(stem, '_');
  }

  /** `splitext` of `stem.ext` drops exactly `.ext`. */
  lemma ExtRootOfStem(stem: string, ext: string)
    requires |stem| > 0 && stem[|stem| - 1] != '/'
    requires '.' !in stem
    requires '.' !in ext && '/' !in ext
    ensures SplitExtRoot(stem + "." + ext) == stem
  {
    var f := stem + "." + ext;
    var n := |stem|;
    StemDotExt(stem, ext);
    LastIndexAt(f, '.', n);
    SlashBefore(f, n);
    var sep := LastIndexOf(f, '/');
    assert sep + 1 <= n - 1 < n && f[n - 1] != '.';
  }

  lemma StemDotExt(stem: string, ext: string)
    requires |stem| > 0
    ensures var f := stem + "." + ext;
      |f| == |stem| + 1 + |ext| && f[..|stem|] == stem && f[|stem|] == '.'
      && f[|stem| - 1] == stem[|stem| - 1] && f[|stem| + 1..] == ext
  {
  }

  /** No `/` at or after position `n - 1` puts the last `/` before it. */
  lemma SlashBefore(f: string, n: nat)
    requires 1 <= n < |f|
    requires f[n - 1] != '/' && f[n] != '/' && '/' !in f[n + 1..]
    ensures LastIndexOf(f, '/') < n - 1
  {
  }

  lemma {:induction false} BeforeFirstAt(s: string, prefix: string, c: char)
    requires prefix <= s && c !in prefix
    requires |prefix| < |s| && s[|prefix|] == c
    ensures BeforeFirst(s, c) == prefix
  {
    if |prefix| > 0 {
      assert s[0] == prefix[0];
      BeforeFirstAt(s[1..], prefix[1..], c);
    }
  }

  lemma {:induction false} BeforeFirstAll(s: string, c: char)
    requires c !in s
    ensures BeforeFirst(s, c) == s
  {
    if |s| > 0 {
      BeforeFirstAll(s[1..], c);
    }
  }

  /** The file that `d-prime_detection.py` names in its own documentation. */
  lemma CompressedFileWord()
    ensures WordFromFilename("bange_compressed.wav") == "bange"
  {
    assert "bange" + "_compressed.wav" == "bange_compressed.wav";
    WordOfStemAndSuffix("bange", "_compressed.wav");
  }

  predicate IsHidden(name: string)
  {
    |name| > 0 && name[0] == '.'
  }

  /** `get_files_from_dir`: the directory listing without hidden entries. */
  function VisibleFiles(listing: seq<string>): (r: seq<string>)
    ensures forall f :: f in r ==> f in listing && !IsHidden(f)
    ensures forall f :: f in listing && !IsHidden(f) ==> f in r
    ensures multiset(r) <= multiset(listing)
  {
    if |listing| == 0 then []
    else
      assert listing == [listing[0]] + listing[1..];
      if IsHidden(listing[0]) then VisibleFiles(listing[1..])
      else [listing[0]] + VisibleFiles(listing[1..])
  }

  predicate EndsWith(s: string, suffix: string)
  {
    |suffix| <= |s| && s[|s| - |suffix|..] == suffix
  }

  /** The mask filter of `gemini_code_v1.py`: listing entries ending in `.mp3`. */
  function Mp3Files(listing: seq<string>): (r: seq<string>)
    ensures forall f :: f in r ==> f in listing && EndsWith(f, ".mp3")
    ensures forall f :: f in listing && EndsWith(f, ".mp3") ==> f in r
    ensures multiset(r) <= multiset(listing)
  {
    if |listing| == 0 then []
    else
      assert listing == [listing[0]] + listing[1..];
      if EndsWith(listing[0], ".mp3") then [listing[0]] + Mp3Files(listing[1..])
      else Mp3Files(listing[1..])
  }
}

=== FILE: forced_choice.dfy ===
/** `experiment/experiment/forced_choice.py`: the two-alternative
    forced-choice control experiment. Ten primes (4 positive, 3 negative,
    3 neutral, drawn with replacement) are each paired with a distractor word
    different from the prime's word; after the sounds the participant picks
    the heard word with the left or right arrow key. */
module ForcedChoice {
  import opened Wrappers
  import opened Seqs
  import opened RandomDraws
  import opened Filenames
  import opened Masks
  import opened Primes
  import opened Session

  const PracticeTrialCount: nat := 2
  const MainTrialCount: nat := 8
  const TotalTrialCount: nat := PracticeTrialCount + MainTrialCount
  const Counts: PrimeCounts := PrimeCounts(4, 3, 3, 0)

  const QuitKey: string := "escape"
  const LeftKey: string := "left"
  const RightKey: string := "right"
  const MainBreakPoints: seq<nat> := []

  datatype Trial = Trial(
    trialIndex: nat,
    primeFile: string,
    valence: Valence,
    correctWord: string,
    distractorWord: string,
    babblingFile: string,
    mask1File: string,
    mask2File: string)

  datatype GenerationError =
    | EmptyAssetPool
    | TooFewDistinctWords(found: nat)
    | MaskPool(e: MaskPoolError)

  /** The visible files of every asset folder. */
  datatype Assets = Assets(primes: PrimePools, babbling: seq<string>, masks: seq<string>)

  predicate AssetsNonEmpty(a: Assets)
  {
    PoolsNonEmpty(a.primes) && |a.babbling| > 0 && |a.masks| > 0
  }

  /** The words of a list of prime files. */
  function Words(files: seq<string>): (r: seq<string>)
    ensures |r| == |files|
    ensures forall k :: 0 <= k < |r| ==> r[k] == WordFromFilename(files[k])
  {
    seq(|files|, k requires 0 <= k < |files| => WordFromFilename(files[k]))
  }

  /** `all_prime_words`: every distinct word of the three prime folders. */
  function AllWords(p: PrimePools): (r: seq<string>)
    ensures NoDups(r)
    ensures forall f :: f in p.positive + p.negative + p.neutral ==> WordFromFilename(f) in r
    ensures forall w :: w in r ==> exists f :: f in p.positive + p.negative + p.neutral && WordFromFilename(f) == w
  {
    var files := p.positive + p.negative + p.neutral;
    var words := Words(files);
    var r := Dedup(words);
    forall f | f in files ensures WordFromFilename(f) in r {
      var k :| 0 <= k < |files| && files[k] == f;
      assert words[k] == WordFromFilename(f);
    }
    forall w | w in r ensures exists f :: f in files && WordFromFilename(f) == w {
      var i :| 0 <= i < |r| && r[i] == w;
      var k :| 0 <= k < |words| && words[k] == w;
      assert files[k] in files;
    }
    r
  }

  /** Which draw of trial `i` a number feeds. */
  datatype Slot = Mask1 | Mask2 | Distractor | Babbling

  datatype Draws = Draws(
    prime: Valence -> (nat -> nat),
    primeShuffle: nat -> nat,
    pick: (nat, Slot) -> nat,
    trialShuffle: nat -> nat)

  /** What every generated trial satisfies. */
  predicate WellFormed(t: Trial, a: Assets, words: seq<string>)
  {
    && t.correctWord == WordFromFilename(t.primeFile)
    && t.distractorWord in words && t.distractorWord != t.correctWord
    && t.babblingFile in a.babbling
    && t.mask1File in a.masks && t.mask2File in a.masks && t.mask1File != t.mask2File
  }

  function TrialValence(v: Valence): Trial -> bool
  {
    (t: Trial) => t.valence == v
  }

  /** Trial numbers lie in 1..`n` and no two trials share one (so `n`
      trials carry each number once). */
  predicate NumberedOneTo(ts: seq<Trial>, n: nat)
  {
    && (forall t :: t in ts ==> 1 <= t.trialIndex <= n)
    && (forall t, u :: t in ts && u in ts && t.trialIndex == u.trialIndex ==> t == u)
  }

  /** Trial `i` of the loop, built around prime `e`. */
  function MakeTrial(e: PrimeEntry, i: nat, a: Assets, words: seq<string>, draws: Draws): (t: Trial)
    requires AssetsNonEmpty(a) && HasTwoDistinct(a.masks)
    requires NoDups(words) && |words| >= 2
    ensures WellFormed(t, a, words)
    ensures t.trialIndex == i + 1 && t.primeFile == e.file && t.valence == e.valence
  {
    var masks := PickMaskPair(a.masks, draws.pick(i, Mask1), draws.pick(i, Mask2));
    var correct := WordFromFilename(e.file);
    OtherThan(words, correct);
    var distractor := ChoiceExcluding(words, correct, draws.pick(i, Distractor));
    Trial(i + 1, e.file, e.valence, correct, distractor,
      Choice(a.babbling, draws.pick(i, Babbling)), masks.0, masks.1)
  }

  /** The prime a trial plays. */
  function EntryOf(t: Trial): PrimeEntry
  {
    PrimeEntry(t.primeFile, t.valence)
  }

  /** The `k`-th trial carries number `i + k + 1`. */
  predicate NumberedFrom(ts: seq<Trial>, i: nat)
  {
    forall k :: 0 <= k < |ts| ==> ts[k].trialIndex == i + k + 1
  }

  predicate AllWellFormed(ts: seq<Trial>, a: Assets, words: seq<string>)
  {
    forall t :: t in ts ==> WellFormed(t, a, words)
  }

  /** The loop `for i in range(N_TOTAL_TRIALS)` from trial `i` on. */
  function BuildTrials(primes: seq<PrimeEntry>, i: nat, a: Assets, words: seq<string>, draws: Draws): (r: seq<Trial>)
    requires i <= |primes|
    requires AssetsNonEmpty(a) && HasTwoDistinct(a.masks)
    requires NoDups(words) && |words| >= 2
    ensures |r| == |primes| - i
    ensures EntriesOf(r, EntryOf) == primes[i..]
    ensures NumberedFrom(r, i)
    decreases |primes| - i
  {
    if i == |primes| then []
    else
      var t := MakeTrial(primes[i], i, a, words, draws);
      var rest := BuildTrials(primes, i + 1, a, words, draws);
      var r := [t] + rest;
      assert r[1..] == rest;
      assert EntryOf(t) == primes[i];
      assert EntriesOf(r, EntryOf) == [EntryOf(t)] + EntriesOf(rest, EntryOf);
      NumberedCons(t, rest, i);
      SuffixCons(primes, i);
      r
  }

  lemma NumberedCons(t: Trial, rest: seq<Trial>, i: nat)
    requires t.trialIndex == i + 1 && NumberedFrom(rest, i + 1)
    ensures NumberedFrom([t] + rest, i)
  {
    var r := [t] + rest;
    assert forall k :: 1 <= k < |r| ==> r[k] == rest[k - 1];
  }

  lemma {:induction false} BuildTrialsWellFormed(primes: seq<PrimeEntry>, i: nat, a: Assets, words: seq<string>, draws: Draws)
    requires i <= |primes|
    requires AssetsNonEmpty(a) && HasTwoDistinct(a.masks)
    requires NoDups(words) && |words| >= 2
    ensures AllWellFormed(BuildTrials(primes, i, a, words, draws), a, words)
    decreases |primes| - i
  {
    if i < |primes| {
      BuildTrialsWellFormed(primes, i + 1, a, words, draws);
    }
  }

  /** Ten trials numbered 1..10, each well-formed. */
  predicate ListShape(ts: seq<Trial>, a: Assets, words: seq<string>)
  {
    && |ts| == TotalTrialCount
    && NoDups(ts)
    && NumberedOneTo(ts, TotalTrialCount)
    && AllWellFormed(ts, a, words)
  }

  /** Every trial plays a prime of its folder, with the configured number of
      primes of each valence. */
  predicate ListPrimes(ts: seq<Trial>, p: PrimePools)
  {
    && (forall t :: t in ts ==> FromPools(EntryOf(t), p))
    && (forall v :: Count(ts, TrialValence(v)) == CountFor(Counts, v))
  }

  /** The primes of `generate_trial_list`, drawn and shuffled. */
  function DrawnPrimes(p: PrimePools, draws: Draws): seq<PrimeEntry>
    requires PoolsNonEmpty(p)
  {
    ShuffledPrimeList(p, Counts, draws.prime, draws.primeShuffle)
  }

  /** The body of `generate_trial_list` once every check has passed: build
      trial `i` around prime `i`, then shuffle the trials. */
  function BuildTrialList(a: Assets, words: seq<string>, draws: Draws): (r: seq<Trial>)
    requires AssetsNonEmpty(a) && HasTwoDistinct(a.masks)
    requires NoDups(words) && |words| >= 2
    ensures ListShape(r, a, words)
  {
    var primes := DrawnPrimes(a.primes, draws);
    assert |primes| == TotalTrialCount;
    var built := BuildTrials(primes, 0, a, words, draws);
    BuildTrialsWellFormed(primes, 0, a, words, draws);
    ShuffledTrialsKeep(built, Shuffle(built, draws.trialShuffle), a, words);
    Shuffle(built, draws.trialShuffle)
  }

  lemma BuildTrialListShape(a: Assets, words: seq<string>, draws: Draws)
    requires AssetsNonEmpty(a) && HasTwoDistinct(a.masks)
    requires NoDups(words) && |words| >= 2
    ensures ListShape(BuildTrialList(a, words, draws), a, words)
  {
    var primes := DrawnPrimes(a.primes, draws);
    assert |primes| == TotalTrialCount;
    var built := BuildTrials(primes, 0, a, words, draws);
    BuildTrialsWellFormed(primes, 0, a, words, draws);
    var trials := Shuffle(built, draws.trialShuffle);
    ShuffledTrialsKeep(built, trials, a, words);
  }

  lemma BuildTrialListPrimes(a: Assets, words: seq<string>, draws: Draws)
    requires AssetsNonEmpty(a) && HasTwoDistinct(a.masks)
    requires NoDups(words) && |words| >= 2
    ensures ListPrimes(BuildTrialList(a, words, draws), a.primes)
  {
    var primes := DrawnPrimes(a.primes, draws);
    var built := BuildTrials(primes, 0, a, words, draws);
    assert primes[0..] == primes;
    TrialsFollowPrimes(primes, built, Shuffle(built, draws.trialShuffle), a.primes);
  }

  /** `generate_trial_list`, with the mask-pool check the redraw loop needs
      (see `Masks.CheckMaskPool`). */
  function GenerateTrialList(a: Assets, draws: Draws): (r: Result<seq<Trial>, GenerationError>)
    ensures r.Success? <==> AssetsNonEmpty(a) && |AllWords(a.primes)| >= 2 && HasTwoDistinct(a.masks)
    ensures r.Failure? && r.error.TooFewDistinctWords? ==> r.error.found < 2
    ensures r.Success? ==> ListShape(r.value, a, AllWords(a.primes)) && ListPrimes(r.value, a.primes)
  {
    if !AssetsNonEmpty(a) then Failure(EmptyAssetPool)
    else
      var words := AllWords(a.primes);
      if |words| < 2 then Failure(TooFewDistinctWords(|words|))
      else
        var checked := CheckMaskPool(a.masks);
        if checked.Failure? then Failure(MaskPool(checked.error))
        else
          BuildTrialListShape(a, words, draws);
          BuildTrialListPrimes(a, words, draws);
          Success(BuildTrialList(a, words, draws))
  }

  /** Trials built one per prime and then shuffled carry the primes' pool
      membership and valence counts. */
  lemma TrialsFollowPrimes(primes: seq<PrimeEntry>, built: seq<Trial>, trials: seq<Trial>, p: PrimePools)
    requires EntriesOf(built, EntryOf) == primes
    requires multiset(trials) == multiset(built)
    requires forall e :: e in primes ==> FromPools(e, p)
    requires forall v :: Count(primes, HasValence(v)) == CountFor(Counts, v)
    ensures forall t :: t in trials ==> FromPools(EntryOf(t), p)
    ensures forall v :: Count(trials, TrialValence(v)) == CountFor(Counts, v)
  {
    EntriesOfMembers(built, EntryOf);
    forall t | t in trials ensures FromPools(EntryOf(t), p) {
      assert t in multiset(trials);
      var k :| 0 <= k < |built| && built[k] == t;
      assert EntriesOf(built, EntryOf)[k] in primes;
    }
    forall v ensures Count(trials, TrialValence(v)) == CountFor(Counts, v) {
      EntryValences(built, EntryOf, TrialValence(v), v);
      CountPermutation(built, trials, TrialValence(v));
    }
  }

  /** The final shuffle keeps numbering, distinctness and well-formedness. */
  lemma ShuffledTrialsKeep(built: seq<Trial>, trials: seq<Trial>, a: Assets, words: seq<string>)
    requires |built| == TotalTrialCount
    requires NumberedFrom(built, 0)
    requires AllWellFormed(built, a, words)
    requires multiset(trials) == multiset(built)
    ensures ListShape(trials, a, words)
  {
    assert NoDups(built);
    NoDupsPermutation(built, trials);
    assert |trials| == |multiset(trials)| == |multiset(built)| == |built|;
    forall t | t in trials ensures t in built {
      assert t in multiset(trials);
    }
    NumberedFromZero(built);
    NumberedSubset(built, trials, TotalTrialCount);
  }

  /** The loop numbers its trials 1 to n, each number once. */
  lemma NumberedFromZero(built: seq<Trial>)
    requires NumberedFrom(built, 0)
    ensures NumberedOneTo(built, |built|)
  {
    forall t, u | t in built && u in built && t.trialIndex == u.trialIndex ensures t == u {
      var i :| 0 <= i < |built| && built[i] == t;
      var j :| 0 <= j < |built| && built[j] == u;
    }
  }

  /** Numbering 1 to n without repeats survives taking fewer trials. */
  lemma NumberedSubset(built: seq<Trial>, trials: seq<Trial>, n: nat)
    requires NumberedOneTo(built, n)
    requires forall t :: t in trials ==> t in built
    ensures NumberedOneTo(trials, n)
  {
  }

  // ---------------------------------------------------------------------
  // Running one trial.

  /** The two words on screen and the key that names the correct one. */
  datatype Display = Display(leftWord: string, rightWord: string, correctKey: string)

  /** `random.random() > 0.5` puts the correct word on the left. */
  function Place(t: Trial, u: real): (d: Display)
    ensures d.correctKey == LeftKey || d.correctKey == RightKey
    ensures d.correctKey == LeftKey <==> u > 0.5
    ensures multiset{d.leftWord, d.rightWord} == multiset{t.correctWord, t.distractorWord}
    ensures d.correctKey == LeftKey ==> d.leftWord == t.correctWord
    ensures d.correctKey == RightKey ==> d.rightWord == t.correctWord
  {
    if u > 0.5 then Display(t.correctWord, t.distractorWord, LeftKey)
    else Display(t.distractorWord, t.correctWord, RightKey)
  }

  datatype TrialRecord = TrialRecord(
    responseKey: Option<string>, rt: Option<real>, correctKey: string,
    accuracy: nat, leftWord: string, rightWord: string)

  /** The key pressed (one of left, right and escape) and its time. */
  datatype Response = NoResponse | Pressed(key: string, rt: real)

  /** `run_trial`: the recorded row and whether it returned 'QUIT'. */
  function RunTrial(t: Trial, u: real, response: Response): (r: (TrialRecord, bool))
    ensures r.0.accuracy == 1 <==> response.Pressed? && response.key == r.0.correctKey
    ensures r.0.accuracy == 0 <==> !(response.Pressed? && response.key == r.0.correctKey)
    ensures r.1 <==> response.Pressed? && response.key == QuitKey
    ensures r.0.responseKey.Some? <==> response.Pressed?
    ensures (r.0.leftWord, r.0.rightWord, r.0.correctKey) == (Place(t, u).leftWord, Place(t, u).rightWord, Place(t, u).correctKey)
  {
    var d := Place(t, u);
    var key := if response.Pressed? then Some(response.key) else None;
    var rt := if response.Pressed? then Some(response.rt) else None;
    var accuracy := if response.Pressed? && response.key == d.correctKey then 1 else 0;
    (TrialRecord(key, rt, d.correctKey, accuracy, d.leftWord, d.rightWord), key == Some(QuitKey))
  }

  /** `run_trial` with its `sound.Sound` loads in front: nothing catches a
      failed load, so the trial raises (`None`) instead of returning. */
  function RunTrialLoading(t: Trial, soundsLoaded: bool, u: real, response: Response): (r: Option<(TrialRecord, bool)>)
    ensures r.None? <==> !soundsLoaded
    ensures r.Some? ==> (r.value.1 <==> response.Pressed? && response.key == QuitKey)
    ensures r.Some? ==> r.value == RunTrial(t, u, response)
  {
    if soundsLoaded then Some(RunTrial(t, u, response)) else None
  }

  /** On a well-formed trial, accuracy is 1 exactly when the arrow pressed
      points at the word that was played, whichever side it was put on. */
  lemma AccuracyIffChoseHeardWord(t: Trial, u: real, side: string, rt: real)
    requires t.correctWord != t.distractorWord
    requires side == LeftKey || side == RightKey
    ensures var d := Place(t, u);
      RunTrial(t, u, Pressed(side, rt)).0.accuracy == 1 <==>
      (if side == LeftKey then d.leftWord else d.rightWord) == t.correctWord
  {
  }

  /** `practice = full[0:2]`, `main = full[2:10]`. */
  lemma PracticeMainSplit(full: seq<Trial>)
    requires |full| == TotalTrialCount
    ensures var s := SplitPracticeMain(full, PracticeTrialCount, TotalTrialCount);
      |s.0| == PracticeTrialCount && |s.1| == MainTrialCount && s.0 + s.1 == full
  {
  }
}

=== FILE: masks.dfy ===
/** Drawing the two masks of a trial. `mainV1.py` and `forced_choice.py` draw
    `mask2` and redraw while it equals `mask1`; `gemini_code_v1.py` draws `mask2`
    from the pool with `mask1` removed. Both end on the same outcomes, and both
    need a pool holding two different file names. */
module Masks {
  import opened Wrappers
  import opened RandomDraws

  /** The pool offers a second mask whatever the first one was. */
  predicate HasTwoDistinct(pool: seq<string>)
  {
    exists a, b :: a in pool && b in pool && a != b
  }

  lemma OtherMaskExists(pool: seq<string>, m1: string)
    requires HasTwoDistinct(pool)
    ensures exists y :: y in pool && y != m1
  {
    var a, b :| a in pool && b in pool && a != b;
    if a == m1 {
      assert b in pool && b != m1;
    } else {
      assert a in pool && a != m1;
    }
  }

  /** The first and second mask of one trial. */
  function PickMaskPair(pool: seq<string>, k1: nat, k2: nat): (r: (string, string))
    requires HasTwoDistinct(pool)
    ensures r.0 in pool && r.1 in pool
    ensures r.0 != r.1
  {
    var m1 := Choice(pool, k1);
    OtherMaskExists(pool, m1);
    (m1, ChoiceExcluding(pool, m1, k2))
  }

  /** Every ordered pair of different masks of the pool is a possible draw. */
  lemma EveryMaskPairPossible(pool: seq<string>, a: string, b: string)
    requires a in pool && b in pool && a != b
    ensures HasTwoDistinct(pool)
    ensures exists k1: nat, k2: nat :: PickMaskPair(pool, k1, k2) == (a, b)
  {
    var i :| 0 <= i < |pool| && pool[i] == a;
    assert Choice(pool, i) == a;
    var rest := Without(pool, a);
    assert b in rest;
    var j :| 0 <= j < |rest| && rest[j] == b;
    assert ChoiceExcluding(pool, a, j) == Choice(rest, j);
    assert PickMaskPair(pool, i, j) == (a, b);
  }

  /** The redraw loop `while mask1 == mask2: mask2 = random.choice(pool)` over a
      finite run of draws: the first drawn mask that differs from `m1`, or
      `None` while every draw so far repeated `m1`. */
  function RedrawWhileEqual(pool: seq<string>, m1: string, draws: seq<nat>): (r: Option<string>)
    requires |pool| > 0
    ensures r.Some? ==> r.value in pool && r.value != m1
    ensures r.None? <==> forall i :: 0 <= i < |draws| ==> Choice(pool, draws[i]) == m1
  {
    if |draws| == 0 then None
    else if Choice(pool, draws[0]) != m1 then Some(Choice(pool, draws[0]))
    else
      var r := RedrawWhileEqual(pool, m1, draws[1..]);
      assert forall i :: 1 <= i < |draws| ==> draws[i] == draws[1..][i - 1];
      r
  }

  /** The redraw loop and the exclusion draw have the same outcomes: a mask
      is the end of some run of redraws exactly when some draw from the pool
      without `m1` gives it. */
  lemma {:induction false} RedrawSameOutcomes(pool: seq<string>, m1: string, y: string)
    requires |pool| > 0
    requires exists x :: x in pool && x != m1
    ensures (exists k: nat :: ChoiceExcluding(pool, m1, k) == y)
        <==> (exists ds: seq<nat> :: RedrawWhileEqual(pool, m1, ds) == Some(y))
  {
    if k: nat :| ChoiceExcluding(pool, m1, k) == y {
      var i :| 0 <= i < |pool| && pool[i] == y;
      assert Choice(pool, i) == y;
      assert RedrawWhileEqual(pool, m1, [i]) == Some(y);
    }
    if ds: seq<nat> :| RedrawWhileEqual(pool, m1, ds) == Some(y) {
      var rest := Without(pool, m1);
      assert y in rest;
      var j :| 0 <= j < |rest| && rest[j] == y;
      assert Choice(rest, j) == y;
      assert ChoiceExcluding(pool, m1, j) == y;
    }
  }

  /** The emptiness guard of `mainV1.py` and `forced_choice.py`, as written. */
  predicate NonEmptyMaskGuard(pool: seq<string>)
  {
    |pool| > 0
  }

  /** A mask folder holding one file passes that guard, and the redraw loop then
      never ends: no run of draws, however long, yields a second mask. */
  lemma SingleMaskPoolRedrawsForever(pool: seq<string>, draws: seq<nat>)
    requires |pool| == 1
    ensures NonEmptyMaskGuard(pool)
    ensures RedrawWhileEqual(pool, pool[0], draws) == None
  {
    forall i | 0 <= i < |draws| ensures Choice(pool, draws[i]) == pool[0] {
      assert draws[i] % 1 == 0;
    }
  }

  datatype MaskPoolError = NeedTwoDistinctMasks(found: nat)

  /** The guard the redraw loop needs (what `gemini_code_v1.py` checks): it
      admits exactly the pools in which one more draw can end the loop. */
  function CheckMaskPool(pool: seq<string>): (r: Result<seq<string>, MaskPoolError>)
    ensures r.Success? <==> HasTwoDistinct(pool)
    ensures r.Success? ==> r.value == pool
  {
    if exists a, b :: a in pool && b in pool && a != b then Success(pool)
    else Failure(NeedTwoDistinctMasks(|pool|))
  }

  /** Once the corrected guard passes, whatever `mask1` was, a single further
      draw can end the redraw loop. */
  lemma CheckedPoolRedrawEnds(pool: seq<string>, m1: string)
    requires CheckMaskPool(pool).Success?
    ensures exists k: nat :: RedrawWhileEqual(pool, m1, [k]).Some?
  {
    OtherMaskExists(pool, m1);
    var y :| y in pool && y != m1;
    var k :| 0 <= k < |pool| && pool[k] == y;
    assert Choice(pool, k) == y;
    assert RedrawWhileEqual(pool, m1, [k]).Some?;
  }
}

=== FILE: primes.dfy ===
/** The prime list shared by `mainV1.py` and `forced_choice.py`: a fixed number
    of files drawn with replacement from each valence folder, plus (in
    `mainV1.py`) silent no-prime entries, and the folder a prime is played
    from. */
module Primes {
  import opened Seqs
  import opened RandomDraws
  import opened Wrappers

  datatype Valence = Positive | Negative | Neutral | NoPrime

  const Silence: string := "SILENCE"

  /** The `prime_valence` text. */
  function ValenceLabel(v: Valence): (s: string)
    ensures |s| > 0
  {
    match v
    case Positive => "positive"
    case Negative => "negative"
    case Neutral => "neutral"
    case NoPrime => "no-prime"
  }

  lemma ValenceLabelInjective(v: Valence, w: Valence)
    ensures ValenceLabel(v) == ValenceLabel(w) <==> v == w
  {
  }

  /** The sub-folder of `primes/` that `run_trial` loads a prime from: the
      valence text, except that 'neutral' files live in 'neutrale'. */
  function FolderFor(v: Valence): (folder: string)
    ensures v == Neutral ==> folder == "neutrale"
    ensures v != Neutral ==> folder == ValenceLabel(v)
  {
    var name := ValenceLabel(v);
    if name == "neutral" then "neutrale" else name
  }

  datatype PrimeEntry = PrimeEntry(file: string, valence: Valence)

  /** The visible files of the three prime folders. */
  datatype PrimePools = PrimePools(positive: seq<string>, negative: seq<string>, neutral: seq<string>)

  predicate PoolsNonEmpty(p: PrimePools)
  {
    |p.positive| > 0 && |p.negative| > 0 && |p.neutral| > 0
  }

  /** The prime folders by name, as `run_trial` finds them on disk. */
  function Folders(p: PrimePools): (m: map<string, seq<string>>)
    ensures m.Keys == {"positive", "negative", "neutrale"}
  {
    map["positive" := p.positive, "negative" := p.negative, "neutrale" := p.neutral]
  }

  /** The entry's file was drawn from the pool of its valence; a no-prime
      entry is silence. */
  predicate FromPools(e: PrimeEntry, p: PrimePools)
  {
    match e.valence
    case Positive => e.file in p.positive
    case Negative => e.file in p.negative
    case Neutral => e.file in p.neutral
    case NoPrime => e.file == Silence
  }

  function HasValence(v: Valence): PrimeEntry -> bool
  {
    (e: PrimeEntry) => e.valence == v
  }

  /** The primes of a list of trials, given how a trial names its prime. */
  function EntriesOf<T>(ts: seq<T>, entry: T -> PrimeEntry): (r: seq<PrimeEntry>)
    ensures |r| == |ts|
  {
    if |ts| == 0 then [] else [entry(ts[0])] + EntriesOf(ts[1..], entry)
  }

  lemma {:induction false} EntriesOfMembers<T>(ts: seq<T>, entry: T -> PrimeEntry)
    ensures forall k :: 0 <= k < |ts| ==> EntriesOf(ts, entry)[k] == entry(ts[k])
  {
    if |ts| > 0 {
      EntriesOfMembers(ts[1..], entry);
      assert forall k :: 1 <= k < |ts| ==> EntriesOf(ts, entry)[k] == EntriesOf(ts[1..], entry)[k - 1];
    }
  }

  /** Counting a valence over trials is counting it over their primes. */
  lemma {:induction false} EntryValences<T>(ts: seq<T>, entry: T -> PrimeEntry, p: T -> bool, v: Valence)
    requires forall t :: p(t) == HasValence(v)(entry(t))
    ensures Count(ts, p) == Count(EntriesOf(ts, entry), HasValence(v))
  {
    if |ts| > 0 {
      EntryValences(ts[1..], entry, p, v);
    }
  }

  /** One entry of valence `v` per file. */
  function Entries(files: seq<string>, v: Valence): (r: seq<PrimeEntry>)
    ensures |r| == |files|
    ensures forall k :: 0 <= k < |r| ==> r[k] == PrimeEntry(files[k], v)
  {
    if |files| == 0 then [] else [PrimeEntry(files[0], v)] + Entries(files[1..], v)
  }

  /** How many entries of each valence the list holds. */
  datatype PrimeCounts = PrimeCounts(positive: nat, negative: nat, neutral: nat, none: nat)

  function CountFor(c: PrimeCounts, v: Valence): nat
  {
    match v
    case Positive => c.positive
    case Negative => c.negative
    case Neutral => c.neutral
    case NoPrime => c.none
  }

  function Total(c: PrimeCounts): nat
  {
    c.positive + c.negative + c.neutral + c.none
  }

  /** The prime list before its shuffle: `random.choices` from each valence
      folder, then the silent entries. */
  function PrimeList(p: PrimePools, c: PrimeCounts, draw: Valence -> (nat -> nat)): (r: seq<PrimeEntry>)
    requires PoolsNonEmpty(p)
    ensures |r| == Total(c)
    ensures forall e :: e in r ==> FromPools(e, p)
    ensures forall v :: Count(r, HasValence(v)) == CountFor(c, v)
  {
    var pos := Entries(Choices(p.positive, c.positive, draw(Positive)), Positive);
    var neg := Entries(Choices(p.negative, c.negative, draw(Negative)), Negative);
    var neu := Entries(Choices(p.neutral, c.neutral, draw(Neutral)), Neutral);
    var none := Entries(Repeat(Silence, c.none), NoPrime);
    forall v ensures Count(pos + neg + neu + none, HasValence(v)) == CountFor(c, v) {
      CountAppend(pos + neg + neu, none, HasValence(v));
      CountAppend(pos + neg, neu, HasValence(v));
      CountAppend(pos, neg, HasValence(v));
      EntriesCount(Choices(p.positive, c.positive, draw(Positive)), Positive, v);
      EntriesCount(Choices(p.negative, c.negative, draw(Negative)), Negative, v);
      EntriesCount(Choices(p.neutral, c.neutral, draw(Neutral)), Neutral, v);
      EntriesCount(Repeat(Silence, c.none), NoPrime, v);
    }
    pos + neg + neu + none
  }

  /** `[x] * n`. */
  function Repeat<T>(x: T, n: nat): (r: seq<T>)
    ensures |r| == n
    ensures forall k :: 0 <= k < n ==> r[k] == x
  {
    if n == 0 then [] else [x] + Repeat(x, n - 1)
  }

  lemma EntriesCount(files: seq<string>, v: Valence, w: Valence)
    ensures Count(Entries(files, v), HasValence(w)) == if v == w then |files| else 0
  {
    var r := Entries(files, v);
    if v == w {
      CountAll(r, HasValence(w));
    } else {
      CountNone(r, HasValence(w));
    }
  }

  /** Where `run_trial` plays a prime from: nothing for the SILENCE file,
      otherwise the file in the folder of its valence. */
  function PrimeSound(e: PrimeEntry): (r: Option<(string, string)>)
    ensures r.None? <==> e.file == Silence
    ensures r.Some? ==> r.value.1 == e.file
  {
    if e.file == Silence then None else Some((FolderFor(e.valence), e.file))
  }

  /** Every prime that is played is found in the folder it is loaded from:
      the 'neutral' to 'neutrale' renaming matches the folder the neutral
      primes were listed from. */
  lemma PlayedPrimeIsInItsFolder(e: PrimeEntry, p: PrimePools)
    requires FromPools(e, p)
    requires PrimeSound(e).Some?
    ensures PrimeSound(e).value.0 in Folders(p)
    ensures e.file in Folders(p)[PrimeSound(e).value.0]
  {
  }

  /** The prime list after `random.shuffle(prime_list)`. */
  function ShuffledPrimeList(p: PrimePools, c: PrimeCounts, draw: Valence -> (nat -> nat), shuffle: nat -> nat): (r: seq<PrimeEntry>)
    requires PoolsNonEmpty(p)
    ensures |r| == Total(c)
    ensures forall e :: e in r ==> FromPools(e, p)
    ensures forall v :: Count(r, HasValence(v)) == CountFor(c, v)
  {
    var listed := PrimeList(p, c, draw);
    var r := Shuffle(listed, shuffle);
    ShuffledPrimesKeep(listed, r, p);
    r
  }

  /** Shuffling the prime list keeps its pool membership and valence counts. */
  lemma ShuffledPrimesKeep(a: seq<PrimeEntry>, b: seq<PrimeEntry>, p: PrimePools)
    requires multiset(a) == multiset(b)
    requires forall e :: e in a ==> FromPools(e, p)
    ensures forall e :: e in b ==> FromPools(e, p)
    ensures forall v :: Count(b, HasValence(v)) == Count(a, HasValence(v))
  {
    forall e | e in b ensures FromPools(e, p) {
      assert e in multiset(b);
    }
    forall v ensures Count(b, HasValence(v)) == Count(a, HasValence(v)) {
      CountPermutation(a, b, HasValence(v));
    }
  }
}

=== FILE: priming.dfy ===
/** `experiment/experiment/mainV1.py`: the affective-priming experiment. Ten
    primes (3 positive, 3 negative, 2 neutral drawn with replacement, and 2
    silent no-prime entries) are paired with ten different faces; after the
    sounds the participant rates the face on a 1-7 scale. */
module Priming {
  import opened Wrappers
  import opened Seqs
  import opened RandomDraws
  import opened Masks
  import opened Primes
  import opened Session

  const PracticeTrialCount: nat := 2
  const MainTrialCount: nat := 8
  const TotalTrialCount: nat := PracticeTrialCount + MainTrialCount
  const Counts: PrimeCounts := PrimeCounts(3, 3, 2, 2)

  const RatingKeys: seq<string> := ["1", "2", "3", "4", "5", "6", "7"]
  const QuitKey: string := "escape"
  const ValidKeys: seq<string> := RatingKeys + [QuitKey]
  /** 0-based main-trial indices after which a break message is shown. */
  const MainBreakPoints: seq<nat> := [3]

  datatype Trial = Trial(
    trialIndex: nat,
    faceFile: string,
    primeFile: string,
    valence: Valence,
    babblingFile: string,
    mask1File: string,
    mask2File: string)

  datatype GenerationError =
    | NotEnoughFaces(found: nat)
    | EmptyAssetPool
    | MaskPool(e: MaskPoolError)

  /** The visible files of every asset folder. */
  datatype Assets = Assets(faces: seq<string>, primes: PrimePools, babbling: seq<string>, masks: seq<string>)

  /** The sound folders checked by the `all([...])` guard. */
  predicate SoundsNonEmpty(a: Assets)
  {
    PoolsNonEmpty(a.primes) && |a.babbling| > 0 && |a.masks| > 0
  }

  /** Which draw of trial `i` a number feeds. */
  datatype Slot = Mask1 | Mask2 | Babbling

  datatype Draws = Draws(
    prime: Valence -> (nat -> nat),
    primeShuffle: nat -> nat,
    faceShuffle: nat -> nat,
    pick: (nat, Slot) -> nat,
    trialShuffle: nat -> nat)

  /** What every generated trial satisfies. */
  predicate WellFormed(t: Trial, a: Assets)
  {
    && t.faceFile in a.faces
    && t.babblingFile in a.babbling
    && t.mask1File in a.masks && t.mask2File in a.masks && t.mask1File != t.mask2File
  }

  predicate AllWellFormed(ts: seq<Trial>, a: Assets)
  {
    forall t :: t in ts ==> WellFormed(t, a)
  }

  function TrialValence(v: Valence): Trial -> bool
  {
    (t: Trial) => t.valence == v
  }

  /** The `k`-th trial carries number `i + k + 1`. */
  predicate NumberedFrom(ts: seq<Trial>, i: nat)
  {
    forall k :: 0 <= k < |ts| ==> ts[k].trialIndex == i + k + 1
  }

  /** Trial numbers lie in 1..`n` and no two trials share one: for `n`
      trials, the numbers are a permutation of 1..`n`. */
  predicate NumberedOneTo(ts: seq<Trial>, n: nat)
  {
    && (forall t :: t in ts ==> 1 <= t.trialIndex <= n)
    && (forall t, u :: t in ts && u in ts && t.trialIndex == u.trialIndex ==> t == u)
  }

  /** No face is shown in two trials. */
  predicate FacesDistinct(ts: seq<Trial>)
  {
    forall t, u :: t in ts && u in ts && t != u ==> t.faceFile != u.faceFile
  }

  /** Trial `i` of the loop: face `i` and prime `i` of the shuffled lists. */
  function MakeTrial(face: string, e: PrimeEntry, i: nat, a: Assets, draws: Draws): (t: Trial)
    requires SoundsNonEmpty(a) && HasTwoDistinct(a.masks)
    requires face in a.faces
    ensures WellFormed(t, a)
    ensures t.trialIndex == i + 1 && t.faceFile == face
    ensures t.primeFile == e.file && t.valence == e.valence
  {
    var masks := PickMaskPair(a.masks, draws.pick(i, Mask1), draws.pick(i, Mask2));
    Trial(i + 1, face, e.file, e.valence, Choice(a.babbling, draws.pick(i, Babbling)), masks.0, masks.1)
  }

  /** The prime a trial plays. */
  function EntryOf(t: Trial): PrimeEntry
  {
    PrimeEntry(t.primeFile, t.valence)
  }

  function FacesOf(ts: seq<Trial>): (r: seq<string>)
    ensures |r| == |ts|
  {
    if |ts| == 0 then [] else [ts[0].faceFile] + FacesOf(ts[1..])
  }

  /** The loop `for i in range(N_TOTAL_TRIALS)` from trial `i` on. */
  function BuildTrials(faces: seq<string>, primes: seq<PrimeEntry>, i: nat, a: Assets, draws: Draws): (r: seq<Trial>)
    requires i <= |primes| <= |faces|
    requires SoundsNonEmpty(a) && HasTwoDistinct(a.masks)
    requires forall f :: f in faces ==> f in a.faces
    ensures |r| == |primes| - i
    ensures EntriesOf(r, EntryOf) == primes[i..]
    ensures FacesOf(r) == faces[i..|primes|]
    ensures NumberedFrom(r, i)
    decreases |primes| - i
  {
    if i == |primes| then []
    else
      var t := MakeTrial(faces[i], primes[i], i, a, draws);
      var rest := BuildTrials(faces, primes, i + 1, a, draws);
      var r := [t] + rest;
      assert r[1..] == rest;
      assert EntryOf(t) == primes[i];
      assert EntriesOf(r, EntryOf) == [EntryOf(t)] + EntriesOf(rest, EntryOf);
      SuffixCons(primes, i);
      SuffixCons(faces[..|primes|], i);
      assert faces[..|primes|][i..] == faces[i..|primes|];
      assert faces[..|primes|][i + 1..] == faces[i + 1..|primes|];
      r
  }

  lemma {:induction false} BuildTrialsWellFormed(faces: seq<string>, primes: seq<PrimeEntry>, i: nat, a: Assets, draws: Draws)
    requires i <= |primes| <= |faces|
    requires SoundsNonEmpty(a) && HasTwoDistinct(a.masks)
    requires forall f :: f in faces ==> f in a.faces
    ensures AllWellFormed(BuildTrials(faces, primes, i, a, draws), a)
    decreases |primes| - i
  {
    if i < |primes| {
      BuildTrialsWellFormed(faces, primes, i + 1, a, draws);
    }
  }

  lemma {:induction false} FacesOfMembers(ts: seq<Trial>)
    ensures forall k :: 0 <= k < |ts| ==> FacesOf(ts)[k] == ts[k].faceFile
  {
    if |ts| > 0 {
      FacesOfMembers(ts[1..]);
      assert forall k :: 1 <= k < |ts| ==> FacesOf(ts)[k] == FacesOf(ts[1..])[k - 1];
    }
  }

  /** Ten trials numbered 1..10, each well-formed. */
  predicate ListShape(ts: seq<Trial>, a: Assets)
  {
    && |ts| == TotalTrialCount
    && NoDups(ts)
    && NumberedOneTo(ts, TotalTrialCount)
    && AllWellFormed(ts, a)
  }

  /** Every trial plays a prime of its folder (or silence), with the configured
      number of each valence. */
  predicate ListPrimes(ts: seq<Trial>, p: PrimePools)
  {
    && (forall t :: t in ts ==> FromPools(EntryOf(t), p))
    && (forall v :: Count(ts, TrialValence(v)) == CountFor(Counts, v))
  }

  function DrawnPrimes(p: PrimePools, draws: Draws): seq<PrimeEntry>
    requires PoolsNonEmpty(p)
  {
    ShuffledPrimeList(p, Counts, draws.prime, draws.primeShuffle)
  }

  /** The body of `generate_trial_list` once every check has passed: shuffle
      the faces and the primes, pair them position by position, shuffle the
      trials. */
  function BuildTrialList(a: Assets, draws: Draws): (r: seq<Trial>)
    requires |a.faces| >= TotalTrialCount
    requires SoundsNonEmpty(a) && HasTwoDistinct(a.masks)
    ensures ListShape(r, a)
  {
    var faces := Shuffle(a.faces, draws.faceShuffle);
    ShuffleKeeps(a.faces, draws.faceShuffle);
    var primes := DrawnPrimes(a.primes, draws);
    assert |primes| == TotalTrialCount;
    var built := BuildTrials(faces, primes, 0, a, draws);
    BuildTrialsWellFormed(faces, primes, 0, a, draws);
    ShuffledTrialsKeep(built, Shuffle(built, draws.trialShuffle), a);
    Shuffle(built, draws.trialShuffle)
  }

  lemma BuildTrialListShape(a: Assets, draws: Draws)
    requires |a.faces| >= TotalTrialCount
    requires SoundsNonEmpty(a) && HasTwoDistinct(a.masks)
    ensures ListShape(BuildTrialList(a, draws), a)
  {
    var faces := Shuffle(a.faces, draws.faceShuffle);
    ShuffleKeeps(a.faces, draws.faceShuffle);
    var primes := DrawnPrimes(a.primes, draws);
    assert |primes| == TotalTrialCount;
    var built := BuildTrials(faces, primes, 0, a, draws);
    BuildTrialsWellFormed(faces, primes, 0, a, draws);
    ShuffledTrialsKeep(built, Shuffle(built, draws.trialShuffle), a);
  }

  lemma BuildTrialListPrimes(a: Assets, draws: Draws)
    requires |a.faces| >= TotalTrialCount
    requires SoundsNonEmpty(a) && HasTwoDistinct(a.masks)
    ensures ListPrimes(BuildTrialList(a, draws), a.primes)
  {
    var faces := Shuffle(a.faces, draws.faceShuffle);
    ShuffleKeeps(a.faces, draws.faceShuffle);
    var primes := DrawnPrimes(a.primes, draws);
    var built := BuildTrials(faces, primes, 0, a, draws);
    assert primes[0..] == primes;
    TrialsFollowPrimes(primes, built, Shuffle(built, draws.trialShuffle), a.primes);
  }

  /** The faces of a folder listing (which never names a file twice) are
      shown at most once each: they are the first ten of a shuffled list. */
  lemma BuildTrialListFacesDistinct(a: Assets, draws: Draws)
    requires |a.faces| >= TotalTrialCount
    requires SoundsNonEmpty(a) && HasTwoDistinct(a.masks)
    requires NoDups(a.faces)
    ensures FacesDistinct(BuildTrialList(a, draws))
  {
    var faces := Shuffle(a.faces, draws.faceShuffle);
    ShuffleKeeps(a.faces, draws.faceShuffle);
    var primes := DrawnPrimes(a.primes, draws);
    var built := BuildTrials(faces, primes, 0, a, draws);
    ShuffledFacesDistinct(faces, built, Shuffle(built, draws.trialShuffle));
  }

  lemma ShuffledFacesDistinct(faces: seq<string>, built: seq<Trial>, trials: seq<Trial>)
    requires NoDups(faces)
    requires |built| <= |faces|
    requires FacesOf(built) == faces[0..|built|]
    requires multiset(trials) == multiset(built)
    ensures FacesDistinct(trials)
  {
    FacesOfMembers(built);
    forall t, u | t in trials && u in trials && t != u ensures t.faceFile != u.faceFile {
      assert t in multiset(trials) && u in multiset(trials);
      var i :| 0 <= i < |built| && built[i] == t;
      var j :| 0 <= j < |built| && built[j] == u;
      assert i != j;
    }
  }

  /** Trials built one per prime and then shuffled carry the primes' pool
      membership and valence counts. */
  lemma TrialsFollowPrimes(primes: seq<PrimeEntry>, built: seq<Trial>, trials: seq<Trial>, p: PrimePools)
    requires EntriesOf(built, EntryOf) == primes
    requires multiset(trials) == multiset(built)
    requires forall e :: e in primes ==> FromPools(e, p)
    requires forall v :: Count(primes, HasValence(v)) == CountFor(Counts, v)
    ensures ListPrimes(trials, p)
  {
    EntriesOfMembers(built, EntryOf);
    forall t | t in trials ensures FromPools(EntryOf(t), p) {
      assert t in multiset(trials);
      var k :| 0 <= k < |built| && built[k] == t;
      assert EntriesOf(built, EntryOf)[k] in primes;
    }
    forall v ensures Count(trials, TrialValence(v)) == CountFor(Counts, v) {
      EntryValences(built, EntryOf, TrialValence(v), v);
      CountPermutation(built, trials, TrialValence(v));
    }
  }

  /** The final shuffle keeps numbering, distinctness and well-formedness. */
  lemma ShuffledTrialsKeep(built: seq<Trial>, trials: seq<Trial>, a: Assets)
    requires |built| == TotalTrialCount
    requires NumberedFrom(built, 0)
    requires AllWellFormed(built, a)
    requires multiset(trials) == multiset(built)
    ensures ListShape(trials, a)
  {
    assert NoDups(built);
    NoDupsPermutation(built, trials);
    assert |trials| == |multiset(trials)| == |multiset(built)| == |built|;
    forall t | t in trials ensures t in built {
      assert t in multiset(trials);
    }
    forall t, u | t in trials && u in trials && t.trialIndex == u.trialIndex ensures t == u {
      var i :| 0 <= i < |built| && built[i] == t;
      var j :| 0 <= j < |built| && built[j] == u;
    }
  }

  /** `generate_trial_list`: too few faces is reported first, then an empty
      sound folder; the mask-pool check the redraw loop needs (see
      `Masks.CheckMaskPool`) comes last. */
  function GenerateTrialList(a: Assets, draws: Draws): (r: Result<seq<Trial>, GenerationError>)
    ensures r.Success? <==> |a.faces| >= TotalTrialCount && SoundsNonEmpty(a) && HasTwoDistinct(a.masks)
    ensures r == Failure(NotEnoughFaces(|a.faces|)) <==> |a.faces| < TotalTrialCount
    ensures r == Failure(EmptyAssetPool) <==> |a.faces| >= TotalTrialCount && !SoundsNonEmpty(a)
    ensures r.Success? ==> ListShape(r.value, a) && ListPrimes(r.value, a.primes)
    ensures r.Success? && NoDups(a.faces) ==> FacesDistinct(r.value)
  {
    if |a.faces| < TotalTrialCount then Failure(NotEnoughFaces(|a.faces|))
    else if !SoundsNonEmpty(a) then Failure(EmptyAssetPool)
    else
      var checked := CheckMaskPool(a.masks);
      if checked.Failure? then Failure(MaskPool(checked.error))
      else
        BuildTrialListShape(a, draws);
        BuildTrialListPrimes(a, draws);
        if NoDups(a.faces) then BuildTrialListFacesDistinct(a, draws); Success(BuildTrialList(a, draws))
        else Success(BuildTrialList(a, draws))
  }

  /** `practice = full[0:2]`, `main = full[2:10]`. */
  lemma PracticeMainSplit(full: seq<Trial>)
    requires |full| == TotalTrialCount
    ensures var s := SplitPracticeMain(full, PracticeTrialCount, TotalTrialCount);
      |s.0| == PracticeTrialCount && |s.1| == MainTrialCount && s.0 + s.1 == full
  {
  }

  // ---------------------------------------------------------------------
  // Running one trial.

  /** The order `run_trial` plays sounds in: the babbling starts, then mask 1,
      the prime unless it is silence, and mask 2. Each is a (folder, file)
      pair below the experiment directory. */
  function Playback(t: Trial): (r: seq<(string, string)>)
    ensures |r| == (if t.primeFile == Silence then 3 else 4)
    ensures r[0] == ("babbling", t.babblingFile) && r[1] == ("masks", t.mask1File)
    ensures r[|r| - 1] == ("masks", t.mask2File)
    ensures t.primeFile != Silence ==> r[2] == ("primes/" + FolderFor(t.valence), t.primeFile)
  {
    var prime := match PrimeSound(EntryOf(t))
      case None => []
      case Some(place) => [("primes/" + place.0, place.1)];
    [("babbling", t.babblingFile), ("masks", t.mask1File)] + prime + [("masks", t.mask2File)]
  }

  /** A played prime's folder is the one it was listed from. */
  lemma PlayedPrimeFound(t: Trial, p: PrimePools)
    requires FromPools(EntryOf(t), p)
    requires t.primeFile != Silence
    ensures Playback(t)[2].0 == "primes/" + PrimeSound(EntryOf(t)).value.0
    ensures PrimeSound(EntryOf(t)).value.0 in Folders(p)
    ensures Playback(t)[2].1 in Folders(p)[PrimeSound(EntryOf(t)).value.0]
  {
    PlayedPrimeIsInItsFolder(EntryOf(t), p);
  }

  /** The rating screen waits for one of `ValidKeys`. */
  datatype Response = NoResponse | Pressed(key: string, rt: real)

  datatype TrialRecord = TrialRecord(responseKey: Option<string>, rt: Option<real>)

  /** `run_trial`'s recorded response and whether it returned 'QUIT'. */
  function RunTrial(t: Trial, response: Response): (r: (TrialRecord, bool))
    ensures r.1 <==> response.Pressed? && response.key == QuitKey
    ensures r.0.responseKey.Some? <==> response.Pressed?
    ensures response.Pressed? ==> r.0 == TrialRecord(Some(response.key), Some(response.rt))
    ensures response.NoResponse? ==> r.0 == TrialRecord(None, None)
  {
    match response
    case NoResponse => (TrialRecord(None, None), false)
    case Pressed(key, rt) => (TrialRecord(Some(key), Some(rt)), key == QuitKey)
  }

  /** `run_trial` with its `sound.Sound` loads in front: nothing catches a
      failed load, so the trial raises (`None`) instead of returning. */
  function RunTrialLoading(t: Trial, soundsLoaded: bool, response: Response): (r: Option<(TrialRecord, bool)>)
    ensures r.None? <==> !soundsLoaded
    ensures r.Some? ==> (r.value.1 <==> response.Pressed? && response.key == QuitKey)
    ensures r.Some? ==> r.value == RunTrial(t, response)
  {
    if soundsLoaded then Some(RunTrial(t, response)) else None
  }

  /** A rating is never a quit: only the escape key ends the session. */
  lemma RatingNeverQuits(t: Trial, key: string, rt: real)
    requires key in RatingKeys
    ensures !RunTrial(t, Pressed(key, rt)).1
    ensures RunTrial(t, Pressed(key, rt)).0.responseKey == Some(key)
  {
  }

  /** With eight main trials and no quits, the only break comes after the
      fourth main trial (index 3), and the session completes. */
  lemma BreaksInFullSession(practiceQuits: seq<bool>, mainQuits: seq<bool>)
    requires |mainQuits| == MainTrialCount
    requires true !in practiceQuits && true !in mainQuits
    ensures forall j: nat :: BreakShown(j) in RunSession(practiceQuits, mainQuits, MainBreakPoints).events <==> j == 3
    ensures RunSession(practiceQuits, mainQuits, MainBreakPoints).end == Completed
  {
    QuitIffFirstQuit(mainQuits);
    assert FirstQuit(mainQuits) == 8;
  }

  /** A quit at main trial 3 stops the session before the break that trial
      would have earned: breaks follow only trials that did not quit. */
  lemma QuitAtBreakPointSkipsBreak(practiceQuits: seq<bool>, mainQuits: seq<bool>)
    requires true !in practiceQuits
    requires |mainQuits| == MainTrialCount
    requires forall k :: 0 <= k < 3 ==> !mainQuits[k]
    requires mainQuits[3]
    ensures RunSession(practiceQuits, mainQuits, MainBreakPoints).end == QuitInMain
    ensures forall j: nat :: BreakShown(j) !in RunSession(practiceQuits, mainQuits, MainBreakPoints).events
    ensures forall j: nat :: Ran(Main, j) in RunSession(practiceQuits, mainQuits, MainBreakPoints).events <==> j <= 3
  {
    assert mainQuits[3] == true && true in mainQuits;
    assert FirstQuit(mainQuits) == 3;
  }
}

=== FILE: random_draws.dfy ===
/** The scripts' uses of Python's `random` module, with the randomness made an
    input. A draw is an arbitrary natural number supplied by the caller; a
    `nat -> nat` stream supplies the n-th draw of one call site. Only which
    outcomes are possible is modelled, never how likely they are. */
module RandomDraws {
  import opened Seqs
  import opened Wrappers

  /** `random.choice(pool)`: some element of the pool. Draw `k` selects index
      `k mod |pool|`, so every element is reachable. */
  function Choice<T>(pool: seq<T>, k: nat): (x: T)
    requires |pool| > 0
    ensures x in pool
    ensures k < |pool| ==> x == pool[k]
  {
    pool[k % |pool|]
  }

  /** `random.choices(pool, k=n)`: `n` draws with replacement. */
  function Choices<T>(pool: seq<T>, n: nat, draw: nat -> nat): (r: seq<T>)
    requires |pool| > 0
    ensures |r| == n
    ensures forall i :: 0 <= i < n ==> r[i] in pool
  {
    if n == 0 then [] else Choices(pool, n - 1, draw) + [Choice(pool, draw(n - 1))]
  }

  /** The pool with every copy of `avoid` removed, order kept. */
  function Without<T(==)>(pool: seq<T>, avoid: T): (r: seq<T>)
    ensures forall x :: x in r ==> x in pool && x != avoid
    ensures forall x :: x in pool && x != avoid ==> x in r
  {
    if |pool| == 0 then []
    else if pool[0] == avoid then Without(pool[1..], avoid)
    else [pool[0]] + Without(pool[1..], avoid)
  }

  /** A choice constrained to differ from `avoid`: both the list-comprehension
      draw `random.choice([f for f in pool if f != avoid])` and the
      redraw-while-equal loop end on exactly these outcomes. */
  function ChoiceExcluding<T(==)>(pool: seq<T>, avoid: T, k: nat): (x: T)
    requires exists y :: y in pool && y != avoid
    ensures x in pool && x != avoid
  {
    var rest := Without(pool, avoid);
    var y :| y in pool && y != avoid;
    assert y in rest;
    Choice(rest, k)
  }

  /** Exchanges positions `i` and `j`. */
  function Swap<T>(s: seq<T>, i: nat, j: nat): (r: seq<T>)
    requires i < |s| && j < |s|
    ensures |r| == |s| && multiset(r) == multiset(s)
    ensures r[i] == s[j] && r[j] == s[i]
  {
    s[i := s[j]][j := s[i]]
  }

  /** Fisher-Yates steps for positions `m-1` down to `1`, as `random.shuffle` runs
      them: step `i` swaps position `i` with a position drawn below `i + 1`. */
  function ShuffleSteps<T>(s: seq<T>, m: nat, draw: nat -> nat): (r: seq<T>)
    requires m <= |s|
    ensures |r| == |s| && multiset(r) == multiset(s)
    decreases m
  {
    if m <= 1 then s
    else ShuffleSteps(Swap(s, m - 1, draw(m - 1) % m), m - 1, draw)
  }

  /** `random.shuffle(s)`: a rearrangement of `s`. */
  function Shuffle<T>(s: seq<T>, draw: nat -> nat): (r: seq<T>)
    ensures |r| == |s|
    ensures multiset(r) == multiset(s)
  {
    ShuffleSteps(s, |s|, draw)
  }

  /** Shuffling keeps membership and duplicate-freedom. */
  lemma ShuffleKeeps<T>(s: seq<T>, draw: nat -> nat)
    ensures forall x :: x in Shuffle(s, draw) ==> x in s
    ensures forall x :: x in s ==> x in Shuffle(s, draw)
    ensures NoDups(s) ==> NoDups(Shuffle(s, draw))
  {
    var r := Shuffle(s, draw);
    forall x | x in r ensures x in s {
      assert x in multiset(r);
    }
    forall x | x in s ensures x in r {
      assert x in multiset(s);
    }
    if NoDups(s) {
      NoDupsPermutation(s, r);
    }
  }

  /** Removes position `j` by moving the last element into it, as the pool
      variant of `random.sample` does. */
  function RemoveByLast<T>(pool: seq<T>, j: nat): (r: seq<T>)
    requires j < |pool|
    ensures |r| == |pool| - 1
    ensures multiset(r) + multiset{pool[j]} == multiset(pool)
  {
    var last := |pool| - 1;
    var moved := pool[j := pool[last]];
    assert moved == moved[..last] + [moved[last]];
    assert moved[last] == pool[last];
    assert multiset(moved) == multiset(pool) - multiset{pool[j]} + multiset{pool[last]};
    assert pool == pool[..last] + [pool[last]];
    moved[..last]
  }

  /** The pool loop of `random.sample`: draw `i` picks among the not yet chosen. */
  function SampleSteps<T>(pool: seq<T>, k: nat, i: nat, draw: nat -> nat): (r: seq<T>)
    requires k <= |pool|
    ensures |r| == k
    ensures multiset(r) <= multiset(pool)
    decreases k
  {
    if k == 0 then []
    else
      var j := draw(i) % |pool|;
      var rest := SampleSteps(RemoveByLast(pool, j), k - 1, i + 1, draw);
      [pool[j]] + rest
  }

  datatype SampleError = SampleLargerThanPopulation

  /** `random.sample(population, k)`: `k` picks without replacement; a
      ValueError when `k` exceeds the population. */
  function Sample<T>(population: seq<T>, k: nat, draw: nat -> nat): (r: Result<seq<T>, SampleError>)
    ensures r.Success? <==> k <= |population|
    ensures r.Success? ==> |r.value| == k && multiset(r.value) <= multiset(population)
  {
    if k > |population| then Failure(SampleLargerThanPopulation)
    else Success(SampleSteps(population, k, 0, draw))
  }

  /** A sample from a population without repeated entries repeats nothing. */
  lemma SampleNoRepeats<T>(population: seq<T>, k: nat, draw: nat -> nat)
    requires NoDups(population) && k <= |population|
    ensures NoDups(Sample(population, k, draw).value)
  {
    NoDupsSubMultiset(Sample(population, k, draw).value, population);
  }
}

=== FILE: seqs.dfy ===
/** Counting, duplicate-freedom and permutation facts about sequences, shared by
    the trial-list generators and the analysis. */
module Seqs {

  /** Number of elements of `s` satisfying `p`. */
  function Count<T>(s: seq<T>, p: T -> bool): nat
  {
    if |s| == 0 then 0 else (if p(s[0]) then 1 else 0) + Count(s[1..], p)
  }

  /** No element occurs twice. */
  predicate NoDups<T(==)>(s: seq<T>)
  {
    forall i, j :: 0 <= i < j < |s| ==> s[i] != s[j]
  }

  /** Sum of a sequence of naturals. */
  function Sum(s: seq<nat>): nat
  {
    if |s| == 0 then 0 else s[0] + Sum(s[1..])
  }

  lemma {:induction false} CountAppend<T>(a: seq<T>, b: seq<T>, p: T -> bool)
    ensures Count(a + b, p) == Count(a, p) + Count(b, p)
  {
    if |a| == 0 {
      assert a + b == b;
    } else {
      assert (a + b)[1..] == a[1..] + b;
      CountAppend(a[1..], b, p);
    }
  }

  lemma {:induction false} CountBound<T>(s: seq<T>, p: T -> bool)
    ensures Count(s, p) <= |s|
  {
    if |s| > 0 {
      CountBound(s[1..], p);
    }
  }

  /** Two predicates that never hold together count at most the whole sequence. */
  lemma {:induction false} CountDisjoint<T>(s: seq<T>, p: T -> bool, q: T -> bool)
    requires forall x :: x in s ==> !(p(x) && q(x))
    ensures Count(s, p) + Count(s, q) <= |s|
  {
    if |s| > 0 {
      assert s[0] in s;
      forall x | x in s[1..] ensures !(p(x) && q(x)) {
        assert x in s;
      }
      CountDisjoint(s[1..], p, q);
    }
  }

  /** If no element satisfies `p`, the count is zero. */
  lemma {:induction false} CountNone<T>(s: seq<T>, p: T -> bool)
    requires forall x :: x in s ==> !p(x)
    ensures Count(s, p) == 0
  {
    if |s| > 0 {
      assert s[0] in s;
      forall x | x in s[1..] ensures !p(x) {
        assert x in s;
      }
      CountNone(s[1..], p);
    }
  }

  /** If every element satisfies `p`, the count is the length. */
  lemma {:induction false} CountAll<T>(s: seq<T>, p: T -> bool)
    requires forall x :: x in s ==> p(x)
    ensures Count(s, p) == |s|
  {
    if |s| > 0 {
      assert s[0] in s;
      forall x | x in s[1..] ensures p(x) {
        assert x in s;
      }
      CountAll(s[1..], p);
    }
  }

  /** Locates the first element of `a` in its permutation `b`, and what remains. */
  lemma PermutationHead<T>(a: seq<T>, b: seq<T>) returns (k: nat)
    requires multiset(a) == multiset(b) && |a| > 0
    ensures k < |b| && b[k] == a[0]
    ensures b == b[..k] + [a[0]] + b[k+1..]
    ensures multiset(a[1..]) == multiset(b[..k] + b[k+1..])
  {
    var x := a[0];
    assert x in multiset(b);
    k :| 0 <= k < |b| && b[k] == x;
    var b' := b[..k] + b[k+1..];
    assert b == b[..k] + [x] + b[k+1..];
    assert a == [x] + a[1..];
    assert multiset(b) == multiset(b[..k]) + multiset{x} + multiset(b[k+1..]);
    assert multiset(a) == multiset{x} + multiset(a[1..]);
    assert multiset(b') == multiset(b[..k]) + multiset(b[k+1..]);
    assert multiset(a[1..]) == multiset(a) - multiset{x};
    assert multiset(b') == multiset(b) - multiset{x};
  }

  /** Counting depends only on the multiset of elements: shuffling keeps every count. */
  lemma {:induction false} CountPermutation<T>(a: seq<T>, b: seq<T>, p: T -> bool)
    requires multiset(a) == multiset(b)
    ensures Count(a, p) == Count(b, p)
  {
    if |a| == 0 {
      assert |b| == |multiset(b)| == 0;
    } else {
      var k := PermutationHead(a, b);
      CountPermutation(a[1..], b[..k] + b[k+1..], p);
      CountAppend(b[..k] + [a[0]], b[k+1..], p);
      CountAppend(b[..k], [a[0]], p);
      CountAppend(b[..k], b[k+1..], p);
    }
  }

  /** The sum depends only on the multiset of summands. */
  lemma {:induction false} SumPermutation(a: seq<nat>, b: seq<nat>)
    requires multiset(a) == multiset(b)
    ensures Sum(a) == Sum(b)
  {
    if |a| == 0 {
      assert |b| == |multiset(b)| == 0;
    } else {
      var k := PermutationHead(a, b);
      SumPermutation(a[1..], b[..k] + b[k+1..]);
      SumAppend(b[..k] + [a[0]], b[k+1..]);
      SumAppend(b[..k], [a[0]]);
      SumAppend(b[..k], b[k+1..]);
    }
  }

  lemma {:induction false} SumAppend(a: seq<nat>, b: seq<nat>)
    ensures Sum(a + b) == Sum(a) + Sum(b)
  {
    if |a| == 0 {
      assert a + b == b;
    } else {
      assert (a + b)[1..] == a[1..] + b;
      SumAppend(a[1..], b);
    }
  }

  /** Duplicate-freedom is a property of the multiset: every multiplicity is at most one. */
  lemma NoDupsMultiplicity<T>(s: seq<T>)
    ensures NoDups(s) <==> (forall x :: multiset(s)[x] <= 1)
  {
    if NoDups(s) {
      forall x ensures multiset(s)[x] <= 1 {
        NoDupsCount(s, x);
      }
    } else {
      var i, j :| 0 <= i < j < |s| && s[i] == s[j];
      TwoOccurrences(s, i, j);
    }
  }

  lemma {:induction false} NoDupsCount<T>(s: seq<T>, x: T)
    requires NoDups(s)
    ensures multiset(s)[x] <= 1
  {
    if |s| > 0 {
      assert s == [s[0]] + s[1..];
      assert NoDups(s[1..]) by {
        forall i, j | 0 <= i < j < |s[1..]| ensures s[1..][i] != s[1..][j] {
          assert s[1..][i] == s[i+1] && s[1..][j] == s[j+1];
        }
      }
      NoDupsCount(s[1..], x);
      if s[0] == x {
        assert x !in s[1..] by {
          forall k | 0 <= k < |s[1..]| ensures s[1..][k] != x {
            assert s[1..][k] == s[k+1];
          }
        }
      }
    }
  }

  lemma TwoOccurrences<T>(s: seq<T>, i: nat, j: nat)
    requires i < j < |s| && s[i] == s[j]
    ensures multiset(s)[s[i]] >= 2
  {
    assert s == s[..i] + [s[i]] + s[i+1..j] + [s[j]] + s[j+1..];
  }

  /** Permuting a duplicate-free sequence keeps it duplicate-free. */
  lemma NoDupsPermutation<T>(a: seq<T>, b: seq<T>)
    requires multiset(a) == multiset(b)
    requires NoDups(a)
    ensures NoDups(b)
  {
    NoDupsMultiplicity(a);
    NoDupsMultiplicity(b);
  }

  /** A duplicate-free sub-multiset. */
  lemma NoDupsSubMultiset<T>(a: seq<T>, b: seq<T>)
    requires multiset(a) <= multiset(b)
    requires NoDups(b)
    ensures NoDups(a)
  {
    NoDupsMultiplicity(b);
    forall x ensures multiset(a)[x] <= 1 {
      assert multiset(a)[x] <= multiset(b)[x];
    }
    NoDupsMultiplicity(a);
  }

  /** Two disjoint slices of a duplicate-free sequence share no element. */
  lemma NoDupsSlicesDisjoint<T>(s: seq<T>, i: nat, j: nat, k: nat)
    requires i <= j <= k <= |s|
    requires NoDups(s)
    ensures forall x :: x in s[i..j] ==> x !in s[j..k]
  {
    forall x | x in s[i..j] ensures x !in s[j..k] {
      var a :| 0 <= a < |s[i..j]| && s[i..j][a] == x;
      forall b | 0 <= b < |s[j..k]| ensures s[j..k][b] != x {
        assert s[j..k][b] == s[j + b] && x == s[i + a];
      }
    }
  }

  /** `list(set(s))`: the distinct elements of `s`, each once. Python leaves
      the order unspecified; this keeps the last occurrence of each. */
  function Dedup<T(==)>(s: seq<T>): (r: seq<T>)
    ensures NoDups(r)
    ensures forall i :: 0 <= i < |r| ==> r[i] in s
    ensures forall i :: 0 <= i < |s| ==> s[i] in r
    ensures |r| <= |s|
  {
    if |s| == 0 then []
    else
      var rest := Dedup(s[1..]);
      assert forall i :: 1 <= i < |s| ==> s[i] == s[1..][i - 1];
      if s[0] in rest then rest
      else
        var r := [s[0]] + rest;
        assert forall i :: 1 <= i < |r| ==> r[i] == rest[i - 1];
        r
  }

  /** A duplicate-free sequence of two or more elements holds something other
      than any given value. */
  lemma OtherThan<T>(s: seq<T>, x: T)
    requires NoDups(s) && |s| >= 2
    ensures exists y :: y in s && y != x
  {
    if s[0] == x {
      assert s[1] in s && s[1] != x;
    } else {
      assert s[0] in s && s[0] != x;
    }
  }

  /** A suffix is its first element followed by the next suffix. */
  lemma SuffixCons<T>(s: seq<T>, i: nat)
    requires i < |s|
    ensures s[i..] == [s[i]] + s[i + 1..]
  {
  }
}

=== FILE: session.dfy ===
/** The practice/main flow shared by `d-prime_detection.py`,
    `main_typing_experiment.py`, `forced_choice.py` and `mainV1.py`: trials run
    in list order; a quit during practice aborts before the main phase; a quit in
    the main phase ends the loop; after a main trial that did not quit, a break
    message follows when its 0-based index is a break point. Practice never
    breaks. */
module Session {
  import opened Wrappers

  datatype Phase = Practice | Main

  datatype Event = Ran(phase: Phase, index: nat) | BreakShown(index: nat)

  /** How `main()` ends. `Crashed` is an exception out of a trial that
      `main()`'s `except Exception` swallows: no further trial runs and no end
      screen is shown. */
  datatype End = AbortedInPractice | QuitInMain | Completed | Crashed

  datatype Run = Run(events: seq<Event>, end: End)

  /** Index of the first `true`, or the length when there is none. */
  function FirstQuit(quits: seq<bool>): (q: nat)
    ensures q <= |quits|
    ensures q < |quits| ==> quits[q]
    ensures forall k :: 0 <= k < q ==> !quits[k]
  {
    if |quits| == 0 then 0
    else if quits[0] then 0
    else
      var q := FirstQuit(quits[1..]);
      assert forall k :: 1 <= k < q + 1 ==> quits[k] == quits[1..][k - 1];
      q + 1
  }

  /** The practice loop from trial `i` on: run, stop after a quitting trial. */
  function PracticeLoop(quits: seq<bool>, i: nat): (r: seq<Event>)
    requires i <= |quits|
    requires forall k :: 0 <= k < i ==> !quits[k]
    ensures forall e :: e in r ==> e.Ran? && e.phase == Practice
    ensures forall j :: i <= j ==> (Ran(Practice, j) in r <==> j < |quits| && j <= FirstQuit(quits))
    decreases |quits| - i
  {
    if i == |quits| then []
    else if quits[i] then
      assert FirstQuit(quits) == i;
      [Ran(Practice, i)]
    else
      [Ran(Practice, i)] + PracticeLoop(quits, i + 1)
  }

  /** The main loop from trial `i` on. */
  function MainLoop(quits: seq<bool>, breakPoints: seq<nat>, i: nat): (r: seq<Event>)
    requires i <= |quits|
    requires forall k :: 0 <= k < i ==> !quits[k]
    ensures forall e :: e in r ==> e == Ran(Main, e.index) || e == BreakShown(e.index)
    ensures forall j :: i <= j ==> (Ran(Main, j) in r <==> j < |quits| && j <= FirstQuit(quits))
    ensures forall j :: i <= j ==> (BreakShown(j) in r <==> j < FirstQuit(quits) && j in breakPoints)
    ensures forall e :: e in r ==> e.index >= i
    ensures forall k :: 0 <= k < |r| && r[k].BreakShown? ==> k > 0 && r[k - 1] == Ran(Main, r[k].index)
    decreases |quits| - i
  {
    if i == |quits| then []
    else if quits[i] then
      assert FirstQuit(quits) == i;
      [Ran(Main, i)]
    else
      var rest := MainLoop(quits, breakPoints, i + 1);
      var head := if i in breakPoints then [Ran(Main, i), BreakShown(i)] else [Ran(Main, i)];
      HeadBeforeRest(head, rest, i);
      head + rest
  }

  /** A main trial, possibly with its break, in front of the later trials
      keeps every break right after its trial. */
  lemma HeadBeforeRest(head: seq<Event>, rest: seq<Event>, i: nat)
    requires head == [Ran(Main, i), BreakShown(i)] || head == [Ran(Main, i)]
    requires forall e :: e in rest ==> e.index > i
    requires forall k :: 0 <= k < |rest| && rest[k].BreakShown? ==> k > 0 && rest[k - 1] == Ran(Main, rest[k].index)
    ensures forall k :: 0 <= k < |head + rest| && (head + rest)[k].BreakShown? ==>
      k > 0 && (head + rest)[k - 1] == Ran(Main, (head + rest)[k].index)
  {
    var r := head + rest;
    forall k | 0 <= k < |r| && r[k].BreakShown? ensures k > 0 && r[k - 1] == Ran(Main, r[k].index) {
      if k >= |head| {
        assert r[k] == rest[k - |head|];
        if k > |head| {
          assert r[k - 1] == rest[k - 1 - |head|];
        }
      }
    }
  }

  /** `main()`: practice, then (unless practice quit) main with its breaks.
      `practiceQuits[i]` and `mainQuits[i]` say whether trial `i` returned
      'QUIT'. */
  function RunSession(practiceQuits: seq<bool>, mainQuits: seq<bool>, breakPoints: seq<nat>): (r: Run)
    ensures r.end == AbortedInPractice <==> true in practiceQuits
    ensures r.end == QuitInMain <==> true !in practiceQuits && true in mainQuits
    ensures r.end == Completed <==> true !in practiceQuits && true !in mainQuits
    ensures forall j: nat :: Ran(Practice, j) in r.events <==> j < |practiceQuits| && j <= FirstQuit(practiceQuits)
    ensures forall j: nat :: Ran(Main, j) in r.events <==>
      true !in practiceQuits && j < |mainQuits| && j <= FirstQuit(mainQuits)
    ensures forall j: nat :: BreakShown(j) in r.events <==>
      true !in practiceQuits && j < FirstQuit(mainQuits) && j in breakPoints
    ensures forall k :: 0 <= k < |r.events| && r.events[k].BreakShown? ==>
      k > 0 && r.events[k - 1] == Ran(Main, r.events[k].index)
  {
    var practice := PracticeLoop(practiceQuits, 0);
    QuitIffFirstQuit(practiceQuits);
    QuitIffFirstQuit(mainQuits);
    assert forall j: nat :: Ran(Practice, j) in practice <==> j < |practiceQuits| && j <= FirstQuit(practiceQuits);
    if true in practiceQuits then
      Run(practice, AbortedInPractice)
    else
      var main := MainLoop(mainQuits, breakPoints, 0);
      var events := practice + main;
      assert forall j: nat :: Ran(Main, j) in main <==> j < |mainQuits| && j <= FirstQuit(mainQuits);
      assert forall j: nat :: BreakShown(j) in main <==> j < FirstQuit(mainQuits) && j in breakPoints;
      assert forall j: nat :: Ran(Practice, j) !in main;
      assert forall j: nat :: Ran(Main, j) !in practice && BreakShown(j) !in practice;
      BreaksFollowTrials(practice, main);
      Run(events, if true in mainQuits then QuitInMain else Completed)
  }

  /** Putting practice trials before the main loop keeps every break right
      after the main trial it follows. */
  lemma BreaksFollowTrials(practice: seq<Event>, main: seq<Event>)
    requires forall e :: e in practice ==> e.Ran? && e.phase == Practice
    requires forall k :: 0 <= k < |main| && main[k].BreakShown? ==> k > 0 && main[k - 1] == Ran(Main, main[k].index)
    ensures forall k :: 0 <= k < |practice + main| && (practice + main)[k].BreakShown? ==>
      k > 0 && (practice + main)[k - 1] == Ran(Main, (practice + main)[k].index)
  {
    var events := practice + main;
    assert forall k :: |practice| <= k < |events| ==> events[k] == main[k - |practice|];
    assert forall k :: 0 <= k < |practice| ==> events[k] == practice[k] && practice[k] in practice;
  }

  lemma QuitIffFirstQuit(quits: seq<bool>)
    ensures true in quits <==> FirstQuit(quits) < |quits|
  {
  }

  // ---------------------------------------------------------------------
  // Trials that raise.

  /** What each trial hands back to its loop: `Some(quit)` when it returns,
      `None` when it raises. Either a quit or a raise ends the loop there. */
  function Stops(outcomes: seq<Option<bool>>): (r: seq<bool>)
    ensures |r| == |outcomes|
    ensures forall k :: 0 <= k < |outcomes| ==> (r[k] <==> outcomes[k] != Some(false))
  {
    seq(|outcomes|, k requires 0 <= k < |outcomes| => outcomes[k] != Some(false))
  }

  /** The loop over `outcomes` ended because its stopping trial raised. */
  predicate RaisedIn(outcomes: seq<Option<bool>>)
  {
    var q := FirstQuit(Stops(outcomes));
    q < |outcomes| && outcomes[q].None?
  }

  /** `main()` of `mainV1.py` and `forced_choice.py`, whose trials may raise:
      the same trials and breaks as a quit at that point, but the session
      ends `Crashed` instead. */
  function RunSessionRaising(practice: seq<Option<bool>>, main: seq<Option<bool>>, breakPoints: seq<nat>): (r: Run)
    ensures r.events == RunSession(Stops(practice), Stops(main), breakPoints).events
    ensures r.end == Crashed <==> RaisedIn(practice) || (true !in Stops(practice) && RaisedIn(main))
    ensures r.end != Crashed ==> r == RunSession(Stops(practice), Stops(main), breakPoints)
  {
    var base := RunSession(Stops(practice), Stops(main), breakPoints);
    if RaisedIn(practice) || (true !in Stops(practice) && RaisedIn(main)) then Run(base.events, Crashed)
    else base
  }

  /** Trials that never raise give the plain session of their quits. */
  lemma NoRaiseIsPlainSession(practice: seq<Option<bool>>, main: seq<Option<bool>>, breakPoints: seq<nat>)
    requires forall k :: 0 <= k < |practice| ==> practice[k].Some?
    requires forall k :: 0 <= k < |main| ==> main[k].Some?
    ensures RunSessionRaising(practice, main, breakPoints) ==
      RunSession(seq(|practice|, k requires 0 <= k < |practice| => practice[k].value),
                 seq(|main|, k requires 0 <= k < |main| => main[k].value), breakPoints)
  {
    var pq := seq(|practice|, k requires 0 <= k < |practice| => practice[k].value);
    var mq := seq(|main|, k requires 0 <= k < |main| => main[k].value);
    forall k | 0 <= k < |practice| ensures Stops(practice)[k] == pq[k] {
      assert practice[k] == Some(practice[k].value);
    }
    forall k | 0 <= k < |main| ensures Stops(main)[k] == mq[k] {
      assert main[k] == Some(main[k].value);
    }
    assert Stops(practice) == pq;
    assert Stops(main) == mq;
  }

  /** A main trial `k` that raises after a clean practice ends the session
      there: trials up to `k` ran, only the breaks before `k` were shown,
      and there is no end screen. */
  lemma RaiseInMainEndsSession(practice: seq<Option<bool>>, main: seq<Option<bool>>, breakPoints: seq<nat>, k: nat)
    requires forall j :: 0 <= j < |practice| ==> practice[j] == Some(false)
    requires k < |main| && main[k].None?
    requires forall j :: 0 <= j < k ==> main[j] == Some(false)
    ensures RunSessionRaising(practice, main, breakPoints).end == Crashed
    ensures forall j: nat :: Ran(Main, j) in RunSessionRaising(practice, main, breakPoints).events <==> j <= k
    ensures forall j: nat :: BreakShown(j) in RunSessionRaising(practice, main, breakPoints).events <==>
      j < k && j in breakPoints
  {
    var ps := Stops(practice);
    var ms := Stops(main);
    assert true !in ps by {
      forall j | 0 <= j < |ps| ensures !ps[j] {
      }
    }
    FirstQuitAt(ms, k);
  }

  /** The first `true` of `quits` is at `k` when it is `true` there and
      nowhere before. */
  lemma FirstQuitAt(quits: seq<bool>, k: nat)
    requires k < |quits| && quits[k]
    requires forall j :: 0 <= j < k ==> !quits[j]
    ensures FirstQuit(quits) == k
  {
  }

  /** Python slicing `s[a:b]` (bounds clamped to the length). */
  function Slice<T>(s: seq<T>, a: nat, b: nat): (r: seq<T>)
    ensures |r| == if a <= b && a <= |s| then (if b <= |s| then b else |s|) - a else 0
    ensures forall k :: 0 <= k < |r| ==> r[k] == s[a + k]
  {
    var hi := if b <= |s| then b else |s|;
    if a <= hi then s[a..hi] else []
  }

  /** `practice = full[0:nPractice]`, `main = full[nPractice:nTotal]`. */
  function SplitPracticeMain<T>(full: seq<T>, nPractice: nat, nTotal: nat): (r: (seq<T>, seq<T>))
    requires nPractice <= nTotal
    ensures |full| == nTotal ==> |r.0| == nPractice && |r.1| == nTotal - nPractice && r.0 + r.1 == full
  {
    (Slice(full, 0, nPractice), Slice(full, nPractice, nTotal))
  }
}

=== FILE: signal_detection.dfy ===
/** The signal-detection summary of
    `experiment/control_experiment/data_detection/andet_mystik/personal_data/analyse.py`
    and `find_compression_rate/dprime_complete.py`: per compression level, the
    hit and false-alarm rates of the detection trials, the 0/1 edge
    correction, d', the 2x2 table handed to the chi-square test, and a
    significance marker. Rates are exact reals; `norm.ppf` and
    `chi2_contingency` are parameters the model does not look inside. */
module SignalDetection {
  import opened Wrappers
  import opened Seqs
  import Detection

  /** The `trial_outcome` texts the detection experiment writes. */
  const HitLabel: string := Detection.OutcomeLabel(Detection.Hit)
  const FalseAlarmLabel: string := Detection.OutcomeLabel(Detection.FalseAlarm)

  /** One recorded trial: its `compression_level` and `trial_outcome`. */
  datatype Row = Row(level: real, outcome: string)

  function LevelIs(l: real): Row -> bool
  {
    (r: Row) => r.level == l
  }

  function OutcomeIs(o: string): Row -> bool
  {
    (r: Row) => r.outcome == o
  }

  // ---------------------------------------------------------------------
  // Strata and rates.

  /** `df[df["compression_level"] == rate]`. */
  function Stratum(rows: seq<Row>, l: real): (r: seq<Row>)
    ensures |r| == Count(rows, LevelIs(l))
    ensures forall x :: x in r ==> x in rows && x.level == l
    ensures forall x :: x in rows && x.level == l ==> x in r
  {
    if |rows| == 0 then []
    else
      var rest := Stratum(rows[1..], l);
      assert forall x :: x in rows[1..] ==> x in rows;
      if rows[0].level == l then [rows[0]] + rest else rest
  }

  datatype Rates = Rates(hit: real, falseAlarm: real)

  /** `hit_rate` and `false_alarm_rate`: both counts are divided by the size
      of the whole stratum, present and absent trials together. */
  function StratumRates(stratum: seq<Row>): (r: Rates)
    requires |stratum| > 0
    ensures r.hit == Count(stratum, OutcomeIs(HitLabel)) as real / |stratum| as real
    ensures r.falseAlarm == Count(stratum, OutcomeIs(FalseAlarmLabel)) as real / |stratum| as real
    ensures 0.0 <= r.hit <= 1.0 && 0.0 <= r.falseAlarm <= 1.0
    ensures r.hit + r.falseAlarm <= 1.0
  {
    var n := |stratum| as real;
    var hits := Count(stratum, OutcomeIs(HitLabel));
    var fas := Count(stratum, OutcomeIs(FalseAlarmLabel));
    CountDisjoint(stratum, OutcomeIs(HitLabel), OutcomeIs(FalseAlarmLabel));
    RatioBounds(hits, fas, |stratum|);
    Rates(hits as real / n, fas as real / n)
  }

  lemma RatioBounds(a: nat, b: nat, n: nat)
    requires n > 0 && a + b <= n
    ensures 0.0 <= a as real / n as real <= 1.0
    ensures 0.0 <= b as real / n as real <= 1.0
    ensures a as real / n as real + b as real / n as real <= 1.0
  {
    var c := n as real;
    DivInUnit(a as real, c);
    DivInUnit(b as real, c);
    DivInUnit((a + b) as real, c);
    DivAdd(a as real, b as real, c);
  }

  lemma DivInUnit(a: real, c: real)
    requires c > 0.0 && 0.0 <= a <= c
    ensures 0.0 <= a / c <= 1.0
  {
    var q := a / c;
    assert q * c == a;
    assert c / c == 1.0;
    if a < c {
      DivStrict(a, c, c);
    }
  }

  lemma DivAdd(a: real, b: real, c: real)
    requires c > 0.0
    ensures a / c + b / c == (a + b) / c
  {
  }

  /** In a stratum whose trials are half present and half absent, a hit can
      only come from a present trial, so the hit rate as computed never
      exceeds 1/2 (the same holds for false alarms and absent trials). */
  lemma BalancedStratumHitRateAtMostHalf(stratum: seq<Row>, isPresent: Row -> bool)
    requires |stratum| > 0
    requires 2 * Count(stratum, isPresent) == |stratum|
    requires forall x :: x in stratum && x.outcome == HitLabel ==> isPresent(x)
    ensures StratumRates(stratum).hit <= 0.5
  {
    CountImplies(stratum, OutcomeIs(HitLabel), isPresent);
    var hits := Count(stratum, OutcomeIs(HitLabel));
    var n := |stratum| as real;
    assert StratumRates(stratum).hit == hits as real / n;
    DivAtMostHalf(hits as real, n);
  }

  lemma DivAtMostHalf(a: real, c: real)
    requires c > 0.0 && 2.0 * a <= c
    ensures a / c <= 0.5
  {
    assert (0.5 * c) / c == 0.5;
    if 2.0 * a < c {
      DivStrict(a, 0.5 * c, c);
    }
  }

  lemma {:induction false} CountImplies<T>(s: seq<T>, p: T -> bool, q: T -> bool)
    requires forall x :: x in s && p(x) ==> q(x)
    ensures Count(s, p) <= Count(s, q)
  {
    if |s| > 0 {
      assert s[0] in s;
      forall x | x in s[1..] && p(x) ensures q(x) {
        assert x in s;
      }
      CountImplies(s[1..], p, q);
    }
  }

  // ---------------------------------------------------------------------
  // Edge correction and d'.

  datatype ArithmeticError = ZeroDivision

  /** One `if rate == v: rate = w` step, where computing `w` divides by
      `2 * n`. */
  function ReplaceIf(rate: real, v: real, n: nat, atZero: bool): (r: Result<real, ArithmeticError>)
  {
    if rate != v then Success(rate)
    else if n == 0 then Failure(ZeroDivision)
    else if atZero then Success(1.0 / (2.0 * n as real))
    else Success(1.0 - 1.0 / (2.0 * n as real))
  }

  /** The correction for 0/1 in `dprime`: a rate of 1 becomes `1 - 1/(2n)`,
      then a rate of 0 becomes `1/(2n)`; with `n = 0` either replacement
      divides by zero. */
  function EdgeCorrect(rate: real, n: nat): (r: Result<real, ArithmeticError>)
    ensures r.Failure? <==> n == 0 && (rate == 1.0 || rate == 0.0)
    ensures rate != 0.0 && rate != 1.0 ==> r == Success(rate)
    ensures n >= 1 && rate == 1.0 ==> r == Success(1.0 - 1.0 / (2.0 * n as real))
    ensures n >= 1 && rate == 0.0 ==> r == Success(1.0 / (2.0 * n as real))
  {
    var first := ReplaceIf(rate, 1.0, n, false);
    if first.Failure? then Failure(first.error)
    else
      assert n >= 1 && rate == 1.0 ==> first.value >= 0.5;
      ReplaceIf(first.value, 0.0, n, true)
  }

  /** For a rate in [0, 1] and at least one trial, the corrected rate lies
      strictly between 0 and 1, where the probit is finite. */
  lemma EdgeCorrectInOpenUnit(rate: real, n: nat)
    requires n >= 1 && 0.0 <= rate <= 1.0
    ensures EdgeCorrect(rate, n).Success?
    ensures 0.0 < EdgeCorrect(rate, n).value < 1.0
  {
    assert 1.0 / (2.0 * n as real) <= 0.5;
  }

  /** Correction leaves a rate that needed none unchanged, and applying it
      twice changes nothing. */
  lemma EdgeCorrectIdempotent(rate: real, n: nat)
    requires n >= 1 && 0.0 <= rate <= 1.0
    ensures EdgeCorrect(EdgeCorrectInUnit(rate, n), n) == Success(EdgeCorrectInUnit(rate, n))
  {
    EdgeCorrectInOpenUnit(rate, n);
  }

  /** The corrected rate of a rate in [0, 1] with at least one trial. */
  function EdgeCorrectInUnit(rate: real, n: nat): (r: real)
    requires n >= 1 && 0.0 <= rate <= 1.0
    ensures 0.0 < r < 1.0
    ensures EdgeCorrect(rate, n) == Success(r)
  {
    EdgeCorrectInOpenUnit(rate, n);
    EdgeCorrect(rate, n).value
  }

  /** `a/c < b/c` for positive `c`. */
  lemma DivStrict(a: real, b: real, c: real)
    requires c > 0.0 && a < b
    ensures a / c < b / c
  {
    assert b / c - a / c == (b - a) / c;
  }

  /** The corrected rate of `k/n`, as a numerator over `n`: 0 becomes 1/2
      and `n` becomes `n - 1/2`. */
  function CorrectedCount(k: nat, n: nat): real
  {
    if k == 0 then 0.5 else if k == n then n as real - 0.5 else k as real
  }

  lemma EdgeCorrectOfCount(k: nat, n: nat)
    requires k <= n && n >= 1
    ensures 0.0 <= k as real / n as real <= 1.0
    ensures EdgeCorrectInUnit(k as real / n as real, n) == CorrectedCount(k, n) / n as real
  {
    var N := n as real;
    RatioBounds(k, 0, n);
    assert 1.0 / (2.0 * N) == 0.5 / N;
    if k == 0 {
      assert k as real / N == 0.0;
    } else if k == n {
      assert k as real / N == 1.0;
      assert 1.0 - 1.0 / (2.0 * N) == (N - 0.5) / N;
    } else {
      DivStrict(0.0, k as real, N);
      DivStrict(k as real, N, N);
    }
  }

  /** On rates that are counts over `n` trials, correction keeps the strict
      order when `n >= 2`. */
  lemma EdgeCorrectStrictlyMonotone(k1: nat, k2: nat, n: nat)
    requires k1 < k2 <= n && n >= 2
    ensures 0.0 <= k1 as real / n as real <= 1.0 && 0.0 <= k2 as real / n as real <= 1.0
    ensures EdgeCorrectInUnit(k1 as real / n as real, n) < EdgeCorrectInUnit(k2 as real / n as real, n)
  {
    EdgeCorrectOfCount(k1, n);
    EdgeCorrectOfCount(k2, n);
    DivStrict(CorrectedCount(k1, n), CorrectedCount(k2, n), n as real);
  }

  /** With a single trial the correction maps both 0 and 1 to 1/2, so a
      perfect and a totally wrong observer get the same d'. */
  lemma SingleTrialCorrectionCollapses()
    ensures EdgeCorrectInUnit(0.0, 1) == EdgeCorrectInUnit(1.0, 1) == 0.5
  {
  }

  /** `dprime`: the probit difference of the corrected rates, with the probit
      function `ppf` a parameter. */
  function DPrime(ppf: real -> real, hit: real, falseAlarm: real, n: nat): (r: Result<real, ArithmeticError>)
    ensures r.Success? <==> EdgeCorrect(hit, n).Success? && EdgeCorrect(falseAlarm, n).Success?
    ensures r.Success? ==> r.value == ppf(EdgeCorrect(hit, n).value) - ppf(EdgeCorrect(falseAlarm, n).value)
  {
    var h := EdgeCorrect(hit, n);
    var f := EdgeCorrect(falseAlarm, n);
    if h.Failure? then Failure(h.error)
    else if f.Failure? then Failure(f.error)
    else Success(ppf(h.value) - ppf(f.value))
  }

  /** For any strictly increasing probit and at least two trials, d' is
      positive exactly when there are more hits than false alarms, zero when
      they are equal. */
  lemma DPrimeSignFollowsCounts(ppf: real -> real, hits: nat, fas: nat, n: nat)
    requires forall x, y :: 0.0 < x < y < 1.0 ==> ppf(x) < ppf(y)
    requires hits <= n && fas <= n && n >= 2
    ensures var d := DPrime(ppf, hits as real / n as real, fas as real / n as real, n);
      d.Success? && (d.value > 0.0 <==> hits > fas) && (d.value == 0.0 <==> hits == fas)
  {
    EdgeCorrectOfCount(hits, n);
    EdgeCorrectOfCount(fas, n);
    if hits > fas {
      EdgeCorrectStrictlyMonotone(fas, hits, n);
    } else if hits < fas {
      EdgeCorrectStrictlyMonotone(hits, fas, n);
    }
  }

  // ---------------------------------------------------------------------
  // The contingency table.

  datatype Table = Table(signalYes: real, signalNo: real, noiseYes: real, noiseNo: real)

  /** `chi_square_from_rates`: `n_signal = n_noise = n / 2`, and each row
      splits its half by the rate. */
  function ContingencyTable(hit: real, falseAlarm: real, n: nat): (t: Table)
    ensures t.signalYes + t.signalNo == n as real / 2.0
    ensures t.noiseYes + t.noiseNo == n as real / 2.0
    ensures 0.0 <= hit <= 1.0 ==> t.signalYes >= 0.0 && t.signalNo >= 0.0
    ensures 0.0 <= falseAlarm <= 1.0 ==> t.noiseYes >= 0.0 && t.noiseNo >= 0.0
  {
    var half := n as real / 2.0;
    SplitByRate(hit, half);
    SplitByRate(falseAlarm, half);
    Table(hit * half, (1.0 - hit) * half, falseAlarm * half, (1.0 - falseAlarm) * half)
  }

  lemma SplitByRate(x: real, half: real)
    requires half >= 0.0
    ensures x * half + (1.0 - x) * half == half
    ensures 0.0 <= x <= 1.0 ==> x * half >= 0.0 && (1.0 - x) * half >= 0.0
  {
    assert (1.0 - x) * half == half - x * half;
    if 0.0 <= x <= 1.0 {
      MulNonNeg(x, half);
      MulNonNeg(1.0 - x, half);
    }
  }

  lemma MulNonNeg(a: real, b: real)
    requires a >= 0.0 && b >= 0.0
    ensures a * b >= 0.0
  {
  }

  /** Built from a stratum's rates, the table holds half the stratum's hits
      and half its false alarms: both rows are scaled by the whole stratum. */
  lemma TableFromStratum(stratum: seq<Row>)
    requires |stratum| > 0
    ensures var r := StratumRates(stratum);
      var t := ContingencyTable(r.hit, r.falseAlarm, |stratum|);
      t.signalYes == Count(stratum, OutcomeIs(HitLabel)) as real / 2.0 &&
      t.noiseYes == Count(stratum, OutcomeIs(FalseAlarmLabel)) as real / 2.0
  {
    var r := StratumRates(stratum);
    TableScales(r.hit, Count(stratum, OutcomeIs(HitLabel)), r.falseAlarm, Count(stratum, OutcomeIs(FalseAlarmLabel)), |stratum|);
  }

  lemma TableScales(hit: real, hits: nat, falseAlarm: real, fas: nat, n: nat)
    requires n > 0 && hit == hits as real / n as real && falseAlarm == fas as real / n as real
    ensures ContingencyTable(hit, falseAlarm, n).signalYes == hits as real / 2.0
    ensures ContingencyTable(hit, falseAlarm, n).noiseYes == fas as real / 2.0
  {
    HalfOfRatio(hits as real, n as real, hit);
    HalfOfRatio(fas as real, n as real, falseAlarm);
  }

  lemma HalfOfRatio(a: real, c: real, q: real)
    requires c > 0.0 && q == a / c
    ensures q * (c / 2.0) == a / 2.0
  {
    assert q * c == a;
  }

  // ---------------------------------------------------------------------
  // Significance markers.

  /** `signif_marker` of `analyse.py`: three tiers. */
  function MarkerThreeTier(p: real): (m: string)
    ensures m in {"***", "**", "*", ""}
    ensures m == "" <==> p >= 0.05
    ensures m == "***" <==> p < 0.001
  {
    if p < 0.001 then "***"
    else if p < 0.01 then "**"
    else if p < 0.05 then "*"
    else ""
  }

  /** `signif_marker` of `dprime_complete.py`: two tiers. */
  function MarkerTwoTier(p: real): (m: string)
    ensures m in {"**", "*", ""}
    ensures m == "" <==> p >= 0.05
    ensures m == "**" <==> p < 0.001
  {
    if p < 0.001 then "**"
    else if p < 0.05 then "*"
    else ""
  }

  /** A smaller p never earns fewer asterisks, in either variant. */
  lemma MarkersMonotone(p: real, q: real)
    requires p <= q
    ensures |MarkerThreeTier(p)| >= |MarkerThreeTier(q)|
    ensures |MarkerTwoTier(p)| >= |MarkerTwoTier(q)|
  {
  }

  /** The two variants agree exactly when p >= 0.01; below that the
      two-tier marker has one asterisk fewer. */
  lemma MarkersDisagreeBelowOnePercent(p: real)
    ensures MarkerThreeTier(p) == MarkerTwoTier(p) <==> p >= 0.01
    ensures p < 0.01 ==> |MarkerTwoTier(p)| + 1 == |MarkerThreeTier(p)|
  {
  }

  // ---------------------------------------------------------------------
  // One result row per level.

  datatype Variant = ThreeTier | TwoTier

  function Marker(v: Variant, p: real): string
  {
    match v
    case ThreeTier => MarkerThreeTier(p)
    case TwoTier => MarkerTwoTier(p)
  }

  datatype ResultRow = ResultRow(
    level: real,
    dPrime: real,
    marker: string,
    hitRate: real,
    faRate: real,
    chi2: real,
    p: real,
    nTrials: nat)

  /** The levels that occur in the rows. */
  function LevelSet(rows: seq<Row>): set<real>
  {
    set x | x in rows :: x.level
  }

  /** `df["compression_level"].unique()`: the distinct levels in order of
      first appearance. */
  function UniqueLevels(rows: seq<Row>): (r: seq<real>)
    ensures NoDups(r)
    ensures forall l :: l in r <==> l in LevelSet(rows)
  {
    if |rows| == 0 then []
    else
      var init := rows[..|rows| - 1];
      var last := rows[|rows| - 1];
      var u := UniqueLevels(init);
      assert rows == init + [last];
      assert LevelSet(rows) == LevelSet(init) + {last.level};
      if last.level in u then u
      else
        var r := u + [last.level];
        assert forall i :: 0 <= i < |u| ==> r[i] == u[i];
        r
  }

  /** A level that occurs in the rows has a non-empty stratum. */
  lemma PresentLevelCounted(rows: seq<Row>, l: real)
    requires l in LevelSet(rows)
    ensures Count(rows, LevelIs(l)) > 0
  {
    var x :| x in rows && x.level == l;
    assert x in Stratum(rows, l);
  }

  /** The 2x2 table `chi_square_from_rates` builds for one level. */
  function LevelTable(rows: seq<Row>, l: real): Table
    requires l in LevelSet(rows)
  {
    PresentLevelCounted(rows, l);
    var stratum := Stratum(rows, l);
    var rates := StratumRates(stratum);
    ContingencyTable(rates.hit, rates.falseAlarm, |stratum|)
  }

  /** `chi2_contingency` raises `ValueError` when an expected frequency is
      zero; an expected frequency is a row margin times a column margin over
      the total, so that happens exactly when some margin is zero. */
  predicate HasZeroMargin(t: Table)
  {
    || t.signalYes + t.signalNo == 0.0
    || t.noiseYes + t.noiseNo == 0.0
    || t.signalYes + t.noiseYes == 0.0
    || t.signalNo + t.noiseNo == 0.0
  }

  /** A level whose stratum holds neither a Hit nor a False Alarm, for
      instance one where every answer was 'z'. */
  predicate NoYesAnswers(rows: seq<Row>, l: real)
  {
    var stratum := Stratum(rows, l);
    Count(stratum, OutcomeIs(HitLabel)) == 0 && Count(stratum, OutcomeIs(FalseAlarmLabel)) == 0
  }

  /** The test of a level fails exactly when the level has no yes-answers:
      the row margins are `n/2 > 0`, the no-column holds at least `n/2`, and
      the yes-column is half the Hits plus half the False Alarms. */
  lemma ZeroMarginIffNoYesAnswers(rows: seq<Row>, l: real)
    requires l in LevelSet(rows)
    ensures HasZeroMargin(LevelTable(rows, l)) <==> NoYesAnswers(rows, l)
  {
    PresentLevelCounted(rows, l);
    var stratum := Stratum(rows, l);
    var n := |stratum|;
    var hits := Count(stratum, OutcomeIs(HitLabel));
    var fas := Count(stratum, OutcomeIs(FalseAlarmLabel));
    CountDisjoint(stratum, OutcomeIs(HitLabel), OutcomeIs(FalseAlarmLabel));
    TableFromStratum(stratum);
    var t := LevelTable(rows, l);
    assert t.signalYes == hits as real / 2.0 && t.noiseYes == fas as real / 2.0;
    assert t.signalNo + t.noiseNo == n as real - (hits + fas) as real / 2.0;
  }

    /** The row of one level: its stratum's rates, d', table test and marker. */
  function LevelResult(rows: seq<Row>, l: real, v: Variant, ppf: real -> real, chi2: Table -> (real, real)): (r: ResultRow)
    requires l in LevelSet(rows)
    ensures r.level == l && r.nTrials == Count(rows, LevelIs(l)) > 0
    ensures r.hitRate == Count(Stratum(rows, l), OutcomeIs(HitLabel)) as real / r.nTrials as real
    ensures r.faRate == Count(Stratum(rows, l), OutcomeIs(FalseAlarmLabel)) as real / r.nTrials as real
    ensures 0.0 <= r.hitRate && 0.0 <= r.faRate && r.hitRate + r.faRate <= 1.0
    ensures r.marker == Marker(v, r.p)
  {
    PresentLevelCounted(rows, l);
    var stratum := Stratum(rows, l);
    var n := |stratum|;
    var rates := StratumRates(stratum);
    EdgeCorrectInOpenUnit(rates.hit, n);
    EdgeCorrectInOpenUnit(rates.falseAlarm, n);
    var d := DPrime(ppf, rates.hit, rates.falseAlarm, n).value;
    var test := chi2(LevelTable(rows, l));
    ResultRow(l, d, Marker(v, test.1), rates.hit, rates.falseAlarm, test.0, test.1, n)
  }

  /** The loop `for rate in list_of_compression_rates`: one result row per
      level, in the order of `levels`. */
  function LevelResults(rows: seq<Row>, levels: seq<real>, v: Variant, ppf: real -> real, chi2: Table -> (real, real)): (r: seq<ResultRow>)
    requires forall l :: l in levels ==> l in LevelSet(rows)
    ensures |r| == |levels|
    ensures forall k :: 0 <= k < |r| ==> r[k].level == levels[k] && r[k].nTrials == Count(rows, LevelIs(levels[k])) > 0
  {
    seq(|levels|, k requires 0 <= k < |levels| => LevelResult(rows, levels[k], v, ppf, chi2))
  }

  // ---------------------------------------------------------------------
  // Sorting by level.

  predicate SortedByLevel(s: seq<ResultRow>)
  {
    forall i, j :: 0 <= i < j < |s| ==> s[i].level <= s[j].level
  }

  function InsertByLevel(x: ResultRow, s: seq<ResultRow>): (r: seq<ResultRow>)
    requires SortedByLevel(s)
    ensures SortedByLevel(r)
    ensures multiset(r) == multiset(s) + multiset{x}
  {
    if |s| == 0 then [x]
    else if x.level <= s[0].level then
      ConsSorted(x, s);
      [x] + s
    else
      var tail := s[1..];
      SortedTail(s);
      var rest := InsertByLevel(x, tail);
      assert multiset(s) == multiset{s[0]} + multiset(tail) by {
        assert s == [s[0]] + tail;
      }
      HeadIsLowest(s);
      LowerBoundKept(s[0].level, x, s[1..], rest);
      ConsSorted(s[0], rest);
      [s[0]] + rest
  }

  lemma SortedTail(s: seq<ResultRow>)
    requires SortedByLevel(s) && |s| > 0
    ensures SortedByLevel(s[1..])
  {
    forall i, j | 0 <= i < j < |s| - 1 ensures s[1..][i].level <= s[1..][j].level {
      assert s[1..][i] == s[i + 1] && s[1..][j] == s[j + 1];
    }
  }

  lemma HeadIsLowest(s: seq<ResultRow>)
    requires SortedByLevel(s) && |s| > 0
    ensures forall y :: y in s[1..] ==> s[0].level <= y.level
  {
    forall y | y in s[1..] ensures s[0].level <= y.level {
      var k :| 0 <= k < |s[1..]| && s[1..][k] == y;
      assert s[k + 1] == y;
    }
  }

  lemma LowerBoundKept(lo: real, x: ResultRow, s: seq<ResultRow>, r: seq<ResultRow>)
    requires multiset(r) == multiset(s) + multiset{x}
    requires lo <= x.level && forall y :: y in s ==> lo <= y.level
    ensures forall y :: y in r ==> lo <= y.level
  {
    forall y | y in r ensures lo <= y.level {
      assert y in multiset(r);
      if y != x {
        assert y in multiset(s);
      }
    }
  }

  /** A row no higher than every row of a sorted sequence can go in front. */
  lemma ConsSorted(h: ResultRow, rest: seq<ResultRow>)
    requires SortedByLevel(rest)
    requires forall y :: y in rest ==> h.level <= y.level
    ensures SortedByLevel([h] + rest)
  {
    var r := [h] + rest;
    forall i, j | 0 <= i < j < |r| ensures r[i].level <= r[j].level {
      assert r[j] == rest[j - 1] && rest[j - 1] in rest;
      if i > 0 {
        assert r[i] == rest[i - 1];
      }
    }
  }

  /** `sort_values("compression_rate")`: a permutation of the rows in
      ascending level order. */
  function SortByLevel(s: seq<ResultRow>): (r: seq<ResultRow>)
    ensures SortedByLevel(r)
    ensures multiset(r) == multiset(s)
  {
    if |s| == 0 then []
    else
      assert s == [s[0]] + s[1..];
      InsertByLevel(s[0], SortByLevel(s[1..]))
  }

  /** Sum of the `n_trials` column. */
  function TotalTrials(rs: seq<ResultRow>): nat
  {
    if |rs| == 0 then 0 else rs[0].nTrials + TotalTrials(rs[1..])
  }

  lemma {:induction false} TotalTrialsAppend(a: seq<ResultRow>, b: seq<ResultRow>)
    ensures TotalTrials(a + b) == TotalTrials(a) + TotalTrials(b)
  {
    if |a| == 0 {
      assert a + b == b;
    } else {
      assert (a + b)[1..] == a[1..] + b;
      TotalTrialsAppend(a[1..], b);
    }
  }

  /** Reordering the rows keeps the total. */
  lemma {:induction false} TotalTrialsPermutation(a: seq<ResultRow>, b: seq<ResultRow>)
    requires multiset(a) == multiset(b)
    ensures TotalTrials(a) == TotalTrials(b)
  {
    if |a| == 0 {
      assert |b| == |multiset(b)| == 0;
    } else {
      var k := PermutationHead(a, b);
      TotalTrialsPermutation(a[1..], b[..k] + b[k + 1..]);
      TotalTrialsAppend(b[..k] + [a[0]], b[k + 1..]);
      TotalTrialsAppend(b[..k], [a[0]]);
      TotalTrialsAppend(b[..k], b[k + 1..]);
    }
  }

  // ---------------------------------------------------------------------
  // `compute_rate_results`.

  /** The result frame, sorted by level: one row per distinct level, each
      counting its own level's rows. */
  function ComputeRateResults(rows: seq<Row>, v: Variant, ppf: real -> real, chi2: Table -> (real, real)): (r: seq<ResultRow>)
    ensures SortedByLevel(r)
    ensures |r| == |UniqueLevels(rows)|
    ensures forall y :: y in r ==> y.level in LevelSet(rows) && y.nTrials == Count(rows, LevelIs(y.level)) > 0
  {
    var levels := UniqueLevels(rows);
    var u := LevelResults(rows, levels, v, ppf, chi2);
    UnsortedResults(rows, v, ppf, chi2);
    PermutationLevels(u, SortByLevel(u));
    assert |SortByLevel(u)| == |multiset(SortByLevel(u))| == |multiset(u)| == |u|;
    forall y | y in u ensures y.level in LevelSet(rows) {
      assert y.level in ResultLevels(u);
    }
    SortByLevel(u)
  }

  datatype AnalysisError =
    | NoRows                              // `results["compression_rate"]` on an empty frame: KeyError
    | ZeroExpectedFrequency(level: real)  // `chi2_contingency` on a table with a zero margin: ValueError

  /** The position of the first level satisfying `p`, if any. */
  function FirstWhere(levels: seq<real>, p: real -> bool): (r: Option<nat>)
    ensures r.None? <==> forall k :: 0 <= k < |levels| ==> !p(levels[k])
    ensures r.Some? ==> r.value < |levels| && p(levels[r.value])
    ensures r.Some? ==> forall k :: 0 <= k < r.value ==> !p(levels[k])
  {
    if |levels| == 0 then None
    else if p(levels[0]) then Some(0)
    else
      var tail := levels[1..];
      assert forall k :: 1 <= k < |levels| ==> levels[k] == tail[k - 1];
      match FirstWhere(tail, p)
      case None => None
      case Some(k) => Some(k + 1)
  }

  /** The first level, in loop order, whose test raises. */
  function FirstNoYesLevel(rows: seq<Row>, levels: seq<real>): (r: Option<nat>)
    ensures r.None? <==> forall k :: 0 <= k < |levels| ==> !NoYesAnswers(rows, levels[k])
    ensures r.Some? ==> r.value < |levels| && NoYesAnswers(rows, levels[r.value])
    ensures r.Some? ==> forall k :: 0 <= k < r.value ==> !NoYesAnswers(rows, levels[k])
  {
    FirstWhere(levels, l => NoYesAnswers(rows, l))
  }

  /** Some level's test raises exactly when the loop meets a level without
      yes-answers. */
  lemma SomeTestRaises(rows: seq<Row>)
    ensures (exists l :: l in LevelSet(rows) && HasZeroMargin(LevelTable(rows, l)))
        <==> FirstNoYesLevel(rows, UniqueLevels(rows)).Some?
  {
    var levels := UniqueLevels(rows);
    if l :| l in LevelSet(rows) && HasZeroMargin(LevelTable(rows, l)) {
      ZeroMarginIffNoYesAnswers(rows, l);
      var k :| 0 <= k < |levels| && levels[k] == l;
    }
    if FirstNoYesLevel(rows, levels).Some? {
      var k := FirstNoYesLevel(rows, levels).value;
      assert levels[k] in levels;
      ZeroMarginIffNoYesAnswers(rows, levels[k]);
    }
  }

  /** `compute_rate_results` with its two ways of raising: an empty frame,
      and a level whose table makes `chi2_contingency` fail. Otherwise the
      sorted rows. */
  function AnalyseRates(rows: seq<Row>, v: Variant, ppf: real -> real, chi2: Table -> (real, real)): (r: Result<seq<ResultRow>, AnalysisError>)
    ensures r.Failure? <==> |rows| == 0 || exists l :: l in LevelSet(rows) && HasZeroMargin(LevelTable(rows, l))
    ensures r == Failure(NoRows) <==> |rows| == 0
    ensures r.Failure? && r.error.ZeroExpectedFrequency? ==>
      var levels := UniqueLevels(rows);
      exists k :: 0 <= k < |levels| && levels[k] == r.error.level && NoYesAnswers(rows, levels[k]) &&
        forall j :: 0 <= j < k ==> !NoYesAnswers(rows, levels[j])
    ensures r.Success? ==> r.value == ComputeRateResults(rows, v, ppf, chi2)
  {
    SomeTestRaises(rows);
    var levels := UniqueLevels(rows);
    if |rows| == 0 then Failure(NoRows)
    else
      match FirstNoYesLevel(rows, levels)
      case Some(k) => Failure(ZeroExpectedFrequency(levels[k]))
      case None => Success(ComputeRateResults(rows, v, ppf, chi2))
  }

  /** The levels of some result rows. */
  function ResultLevels(rs: seq<ResultRow>): set<real>
  {
    set y | y in rs :: y.level
  }

  /** No two result rows share a level. */
  predicate LevelsDistinct(rs: seq<ResultRow>)
  {
    forall i, j :: 0 <= i < j < |rs| ==> rs[i].level != rs[j].level
  }

  /** Before sorting there is one row per distinct level, and the rows'
      levels are the levels of the data. */
  lemma UnsortedResults(rows: seq<Row>, v: Variant, ppf: real -> real, chi2: Table -> (real, real))
    ensures var u := LevelResults(rows, UniqueLevels(rows), v, ppf, chi2);
      LevelsDistinct(u) && ResultLevels(u) == LevelSet(rows) &&
      forall y :: y in u ==> y.nTrials == Count(rows, LevelIs(y.level)) > 0
  {
    var levels := UniqueLevels(rows);
    var u := LevelResults(rows, levels, v, ppf, chi2);
    RowPerLevel(rows, levels, u);
  }

  /** Rows made level by level, in the order of `levels`, cover those levels
      and count each level's rows. */
  lemma RowPerLevel(rows: seq<Row>, levels: seq<real>, u: seq<ResultRow>)
    requires |u| == |levels|
    requires forall k :: 0 <= k < |u| ==> u[k].level == levels[k] && u[k].nTrials == Count(rows, LevelIs(levels[k])) > 0
    ensures forall l :: l in levels ==> l in ResultLevels(u)
    ensures forall y :: y in u ==> y.level in levels && y.nTrials == Count(rows, LevelIs(y.level)) > 0
  {
    forall l | l in levels ensures l in ResultLevels(u) {
      var k :| 0 <= k < |levels| && levels[k] == l;
      assert u[k] in u;
    }
    forall y | y in u ensures y.level in levels && y.nTrials == Count(rows, LevelIs(y.level)) > 0 {
      var k :| 0 <= k < |u| && u[k] == y;
    }
  }

  /** A sorted permutation of rows with distinct levels is strictly
      ascending. */
  lemma SortedDistinctAscending(u: seq<ResultRow>, r: seq<ResultRow>)
    requires LevelsDistinct(u) && multiset(u) == multiset(r) && SortedByLevel(r)
    ensures forall i, j :: 0 <= i < j < |r| ==> r[i].level < r[j].level
  {
    assert NoDups(u);
    NoDupsPermutation(u, r);
    forall i, j | 0 <= i < j < |r| ensures r[i].level < r[j].level {
      assert r[i] in multiset(u) && r[j] in multiset(u);
      var a :| 0 <= a < |u| && u[a] == r[i];
      var b :| 0 <= b < |u| && u[b] == r[j];
      assert a != b;
    }
  }

  /** Reordering keeps the set of levels. */
  lemma PermutationLevels(a: seq<ResultRow>, b: seq<ResultRow>)
    requires multiset(a) == multiset(b)
    ensures ResultLevels(a) == ResultLevels(b)
    ensures forall y :: y in a <==> y in b
  {
    forall y ensures y in a <==> y in b {
      assert y in a <==> y in multiset(a);
      assert y in b <==> y in multiset(b);
    }
  }

  /** The result rows come in strictly ascending level order, and their
      levels are exactly the levels present in the data. */
  lemma ResultsOnePerLevel(rows: seq<Row>, v: Variant, ppf: real -> real, chi2: Table -> (real, real))
    ensures var r := ComputeRateResults(rows, v, ppf, chi2);
      && (forall i, j :: 0 <= i < j < |r| ==> r[i].level < r[j].level)
      && ResultLevels(r) == LevelSet(rows)
  {
    var u := LevelResults(rows, UniqueLevels(rows), v, ppf, chi2);
    UnsortedResults(rows, v, ppf, chi2);
    SortedDistinctAscending(u, SortByLevel(u));
    PermutationLevels(u, SortByLevel(u));
  }

  /** Sorting moves rows but never changes them: every result row is the
      row its own level's stratum gives, with that stratum's rates, d′, test
      and marker. */
  lemma ResultsAreLevelResults(rows: seq<Row>, v: Variant, ppf: real -> real, chi2: Table -> (real, real))
    ensures forall y :: y in ComputeRateResults(rows, v, ppf, chi2) ==>
      y.level in LevelSet(rows) && y == LevelResult(rows, y.level, v, ppf, chi2)
  {
    var levels := UniqueLevels(rows);
    var u := LevelResults(rows, levels, v, ppf, chi2);
    PermutationLevels(u, SortByLevel(u));
    forall y | y in ComputeRateResults(rows, v, ppf, chi2)
      ensures y.level in LevelSet(rows) && y == LevelResult(rows, y.level, v, ppf, chi2)
    {
      var k :| 0 <= k < |u| && u[k] == y;
      assert levels[k] in levels;
    }
  }

  /** Each result row counts its level's trials, and the `n_trials` column
      adds up to the number of rows analysed. */
  lemma ResultsCountEveryRow(rows: seq<Row>, v: Variant, ppf: real -> real, chi2: Table -> (real, real))
    ensures forall y :: y in ComputeRateResults(rows, v, ppf, chi2) ==> y.nTrials == Count(rows, LevelIs(y.level)) > 0
    ensures TotalTrials(ComputeRateResults(rows, v, ppf, chi2)) == |rows|
  {
    var levels := UniqueLevels(rows);
    var u := LevelResults(rows, levels, v, ppf, chi2);
    UnsortedResults(rows, v, ppf, chi2);
    PermutationLevels(u, SortByLevel(u));
    TotalTrialsPermutation(u, SortByLevel(u));
    LevelTotals(rows, levels, u);
    forall x | x in rows ensures x.level in levels {
      assert x.level in LevelSet(rows);
    }
    SumOverLevels(rows, levels);
  }

  /** Rows that count the levels one by one total the sum of the level
      counts. */
  lemma {:induction false} LevelTotals(rows: seq<Row>, levels: seq<real>, rs: seq<ResultRow>)
    requires |rs| == |levels|
    requires forall k :: 0 <= k < |rs| ==> rs[k].nTrials == Count(rows, LevelIs(levels[k]))
    ensures TotalTrials(rs) == LevelCountSum(rows, levels)
  {
    if |levels| > 0 {
      assert forall k :: 1 <= k < |rs| ==> rs[1..][k - 1] == rs[k] && levels[1..][k - 1] == levels[k];
      LevelTotals(rows, levels[1..], rs[1..]);
    }
  }

  /** Sum over `levels` of the number of rows at each level. */
  function LevelCountSum(rows: seq<Row>, levels: seq<real>): nat
  {
    if |levels| == 0 then 0 else Count(rows, LevelIs(levels[0])) + LevelCountSum(rows, levels[1..])
  }

  function LevelEquals(x: real): real -> bool
  {
    (l: real) => l == x
  }

  lemma {:induction false} LevelCountSumCons(r0: Row, rest: seq<Row>, levels: seq<real>)
    ensures LevelCountSum([r0] + rest, levels) == Count(levels, LevelEquals(r0.level)) + LevelCountSum(rest, levels)
  {
    if |levels| > 0 {
      LevelCountSumCons(r0, rest, levels[1..]);
      assert ([r0] + rest)[1..] == rest;
    }
  }

  lemma {:induction false} CountOfDistinctMember(levels: seq<real>, x: real)
    requires NoDups(levels) && x in levels
    ensures Count(levels, LevelEquals(x)) == 1
  {
    assert NoDups(levels[1..]) by {
      forall i, j | 0 <= i < j < |levels[1..]| ensures levels[1..][i] != levels[1..][j] {
        assert levels[1..][i] == levels[i + 1] && levels[1..][j] == levels[j + 1];
      }
    }
    if levels[0] == x {
      forall y | y in levels[1..] ensures !LevelEquals(x)(y) {
        var k :| 0 <= k < |levels[1..]| && levels[1..][k] == y;
        assert levels[k + 1] == y;
      }
      CountNone(levels[1..], LevelEquals(x));
    } else {
      CountOfDistinctMember(levels[1..], x);
    }
  }

  /** Summing the level counts over distinct levels that cover every row
      counts every row once. */
  lemma {:induction false} SumOverLevels(rows: seq<Row>, levels: seq<real>)
    requires NoDups(levels)
    requires forall x :: x in rows ==> x.level in levels
    ensures LevelCountSum(rows, levels) == |rows|
  {
    if |rows| == 0 {
      LevelCountSumEmpty(levels);
    } else {
      assert rows == [rows[0]] + rows[1..];
      assert rows[0] in rows;
      LevelCountSumCons(rows[0], rows[1..], levels);
      CountOfDistinctMember(levels, rows[0].level);
      forall x | x in rows[1..] ensures x.level in levels {
        assert x in rows;
      }
      SumOverLevels(rows[1..], levels);
    }
  }

  lemma {:induction false} LevelCountSumEmpty(levels: seq<real>)
    ensures LevelCountSum([], levels) == 0
  {
    if |levels| > 0 {
      LevelCountSumEmpty(levels[1..]);
    }
  }
}

=== FILE: stratify.dfy ===
/** The per-level selection of `d-prime_detection.py` and
    `main_typing_experiment.py`: shuffle one level folder's listing, then take
    consecutive slices for practice and for main. */
module Stratify {
  import opened Seqs
  import opened RandomDraws

  /** `random.shuffle(files)`, then `files[0:nPractice]` and
      `files[nPractice:nPractice + nMain]`. */
  function SplitFolder(files: seq<string>, nPractice: nat, nMain: nat, draw: nat -> nat): (r: (seq<string>, seq<string>))
    requires |files| >= nPractice + nMain
    ensures |r.0| == nPractice && |r.1| == nMain
    ensures multiset(r.0 + r.1) <= multiset(files)
    ensures forall f :: f in r.0 ==> f in files
    ensures forall f :: f in r.1 ==> f in files
    ensures NoDups(files) ==> forall f :: f in r.0 ==> f !in r.1
  {
    var shuffled := Shuffle(files, draw);
    SliceFacts(files, shuffled, nPractice, nMain);
    (shuffled[..nPractice], shuffled[nPractice..nPractice + nMain])
  }

  lemma SliceFacts(files: seq<string>, shuffled: seq<string>, nPractice: nat, nMain: nat)
    requires multiset(shuffled) == multiset(files)
    requires |shuffled| >= nPractice + nMain
    ensures multiset(shuffled[..nPractice] + shuffled[nPractice..nPractice + nMain]) <= multiset(files)
    ensures forall f :: f in shuffled[..nPractice] ==> f in files
    ensures forall f :: f in shuffled[nPractice..nPractice + nMain] ==> f in files
    ensures NoDups(files) ==>
      forall f :: f in shuffled[..nPractice] ==> f !in shuffled[nPractice..nPractice + nMain]
  {
    var practice := shuffled[..nPractice];
    var main := shuffled[nPractice..nPractice + nMain];
    assert practice + main == shuffled[..nPractice + nMain];
    assert shuffled == shuffled[..nPractice + nMain] + shuffled[nPractice + nMain..];
    assert multiset(practice + main) <= multiset(shuffled);
    forall f | f in practice ensures f in files {
      assert f in multiset(shuffled);
    }
    forall f | f in main ensures f in files {
      assert f in multiset(shuffled);
    }
    if NoDups(files) {
      NoDupsPermutation(files, shuffled);
      NoDupsSlicesDisjoint(shuffled, 0, nPractice, nPractice + nMain);
    }
  }
}

=== FILE: text.dfy ===
/** The answer normalisation of `main_typing_experiment.py`:
    `s.strip().lower()`. Python's `str.strip()` removes the characters for
    which `str.isspace()` holds; `str.lower()` is modelled for ASCII and
    Latin-1 (which covers the Danish letters Æ, Ø and Å). */
module Text {

  /** The characters Python's `str.isspace()` accepts. */
  predicate IsSpace(c: char)
  {
    || ('\t' <= c <= '\r') || ('\U{1c}' <= c <= '\U{1f}') || c == ' '
    || c == '\U{85}' || c == '\U{a0}' || c == '\U{1680}'
    || ('\U{2000}' <= c <= '\U{200a}') || c == '\U{2028}' || c == '\U{2029}'
    || c == '\U{202f}' || c == '\U{205f}' || c == '\U{3000}'
  }

  predicate AllSpace(s: string)
  {
    forall i :: 0 <= i < |s| ==> IsSpace(s[i])
  }

  /** `s.lstrip()`: the longest suffix not starting with whitespace. */
  function StripLeft(s: string): (r: string)
    ensures |r| <= |s| && r == s[|s| - |r|..]
    ensures AllSpace(s[..|s| - |r|])
    ensures |r| > 0 ==> !IsSpace(r[0])
    decreases |s|
  {
    if |s| > 0 && IsSpace(s[0]) then
      var r := StripLeft(s[1..]);
      assert s[..|s| - |r|] == [s[0]] + s[1..][..|s[1..]| - |r|];
      r
    else s
  }

  /** `s.rstrip()`: the longest prefix not ending with whitespace. */
  function StripRight(s: string): (r: string)
    ensures r <= s
    ensures AllSpace(s[|r|..])
    ensures |r| > 0 ==> !IsSpace(r[|r| - 1])
    decreases |s|
  {
    if |s| > 0 && IsSpace(s[|s| - 1]) then
      var r := StripRight(s[..|s| - 1]);
      assert s[|r|..] == s[..|s| - 1][|r|..] + [s[|s| - 1]];
      r
    else s
  }

  /** `s.strip()`. */
  function Strip(s: string): (r: string)
    ensures |r| <= |s|
    ensures |r| > 0 ==> !IsSpace(r[0]) && !IsSpace(r[|r| - 1])
    ensures r == "" <==> AllSpace(s)
  {
    var l := StripLeft(s);
    assert s[..|s| - |l|] == s[..|s| - |l|];
    if l == "" then
      assert s[..|s|] == s;
      ""
    else
      var r := StripRight(l);
      assert !IsSpace(l[0]) && |r| > 0;
      assert !IsSpace(s[|s| - |l|]);
      r
  }

  /** `str.lower()` on one character. */
  function LowerChar(c: char): (d: char)
    ensures IsSpace(d) <==> IsSpace(c)
    ensures ('A' <= c <= 'Z') ==> d as int == c as int + 32
    ensures ('a' <= c <= 'z') ==> d == c
  {
    if 'A' <= c <= 'Z' then (c as int + 32) as char
    else if '\U{c0}' <= c <= '\U{de}' && c != '\U{d7}' then (c as int + 32) as char
    else c
  }

  function Lower(s: string): (r: string)
    ensures |r| == |s|
    ensures forall i :: 0 <= i < |s| ==> r[i] == LowerChar(s[i])
  {
    if |s| == 0 then "" else [LowerChar(s[0])] + Lower(s[1..])
  }

  /** `s.strip().lower()`. */
  function Normalize(s: string): (r: string)
    ensures |r| <= |s|
    ensures |r| > 0 ==> !IsSpace(r[0]) && !IsSpace(r[|r| - 1])
  {
    Lower(Strip(s))
  }

  lemma LowerCharIdempotent(c: char)
    ensures LowerChar(LowerChar(c)) == LowerChar(c)
  {
  }

  /** Stripping text with no surrounding whitespace changes nothing. */
  lemma StripTrimmed(s: string)
    requires |s| > 0 ==> !IsSpace(s[0]) && !IsSpace(s[|s| - 1])
    ensures Strip(s) == s
  {
  }

  /** Normalising twice is normalising once. */
  lemma NormalizeIdempotent(s: string)
    ensures Normalize(Normalize(s)) == Normalize(s)
  {
    var t := Strip(s);
    var n := Lower(t);
    assert n == Normalize(s);
    StripTrimmed(n);
    LowerFixed(t);
  }

  /** Lower-casing lower-cased text changes nothing. */
  lemma LowerFixed(t: string)
    ensures Lower(Lower(t)) == Lower(t)
  {
    var n := Lower(t);
    forall i | 0 <= i < |n| ensures Lower(n)[i] == n[i] {
      LowerCharIdempotent(t[i]);
    }
  }

  /** Whitespace typed around the answer does not change it. */
  lemma NormalizeIgnoresSurroundingSpace(pre: string, s: string, post: string)
    requires AllSpace(pre) && AllSpace(post)
    ensures Normalize(pre + s + post) == Normalize(s)
  {
    StripAround(pre, s, post);
  }

  lemma StripAround(pre: string, s: string, post: string)
    requires AllSpace(pre) && AllSpace(post)
    ensures Strip(pre + s + post) == Strip(s)
  {
    var t := pre + s + post;
    assert t == pre + (s + post);
    StripLeftSpacePrefix(pre, s + post);
    assert StripLeft(t) == StripLeft(s + post);
    if StripLeft(s) == "" {
      StripLeftEmptyIff(s);
      AllSpaceAppend(s, post);
      StripLeftEmptyIff(s + post);
    } else {
      StripLeftAppend(s, post);
      StripRightSpaceSuffix(StripLeft(s), post);
      assert StripLeft(t) == StripLeft(s) + post;
    }
  }

  lemma StripLeftEmptyIff(x: string)
    ensures StripLeft(x) == "" <==> AllSpace(x)
  {
    var r := StripLeft(x);
    assert |r| > 0 ==> r[0] == x[|x| - |r|];
    if r == "" {
      assert x[..|x|] == x;
    }
  }

  lemma AllSpaceAppend(a: string, b: string)
    requires AllSpace(a) && AllSpace(b)
    ensures AllSpace(a + b)
  {
    forall i | 0 <= i < |a + b| ensures IsSpace((a + b)[i]) {
      if i < |a| {
        assert (a + b)[i] == a[i];
      } else {
        assert (a + b)[i] == b[i - |a|];
      }
    }
  }

  lemma {:induction false} StripLeftSpacePrefix(pre: string, x: string)
    requires AllSpace(pre)
    ensures StripLeft(pre + x) == StripLeft(x)
  {
    if |pre| > 0 {
      assert (pre + x)[0] == pre[0];
      assert (pre + x)[1..] == pre[1..] + x;
      StripLeftSpacePrefix(pre[1..], x);
    } else {
      assert pre + x == x;
    }
  }

  lemma {:induction false} StripLeftAppend(a: string, b: string)
    requires StripLeft(a) != ""
    ensures StripLeft(a + b) == StripLeft(a) + b
  {
    assert (a + b)[0] == a[0];
    if IsSpace(a[0]) {
      assert (a + b)[1..] == a[1..] + b;
      StripLeftAppend(a[1..], b);
    }
  }

  lemma {:induction false} StripRightSpaceSuffix(x: string, post: string)
    requires AllSpace(post)
    ensures StripRight(x + post) == StripRight(x)
    decreases |post|
  {
    if |post| > 0 {
      var t := x + post;
      assert t[|t| - 1] == post[|post| - 1];
      assert t[..|t| - 1] == x + post[..|post| - 1];
      StripRightSpaceSuffix(x, post[..|post| - 1]);
    } else {
      assert x + post == x;
    }
  }
}

=== FILE: typing.dfy ===
/** `experiment/control_experiment/main_typing_experiment.py`: the word
    identification (typing) experiment. Per compression level one word file
    goes to practice and one, a different file, to the main block; the
    participant types the word heard and submits with Enter. */
module Typing {
  import opened Wrappers
  import opened Seqs
  import opened RandomDraws
  import opened Filenames
  import opened Stratify
  import opened Session
  import opened Text

  const CompressionLevels: seq<string> := ["0.1", "0.2", "0.3", "0.4", "0.5", "0.6", "0.7", "0.8"]
  const PracticeWordsPerFolder: nat := 1
  const MainWordsPerFolder: nat := 1
  const WordsNeededPerFolder: nat := PracticeWordsPerFolder + MainWordsPerFolder
  const PracticeTrialCount: nat := |CompressionLevels| * PracticeWordsPerFolder
  const MainTrialCount: nat := |CompressionLevels| * MainWordsPerFolder

  const QuitKey: string := "escape"
  const SubmitKey: string := "return"
  const BackspaceKey: string := "backspace"
  const SpaceKey: string := "space"
  const MainBreakPoints: seq<nat> := []

  datatype Trial = Trial(
    level: string,
    primeFile: string,
    correctWord: string,
    babblingFile: string,
    mask1File: string,
    mask2File: string)

  datatype GenerationError =
    | EmptyAssetPool
    | MissingLevelFolder(level: string)
    | NotEnoughFiles(level: string, found: nat, needed: nat)

  /** One `random.choice` call: phase, level index, file index and asset. */
  datatype Slot = Babbling | Mask1 | Mask2
  datatype Site = Site(phase: Phase, level: nat, file: nat, slot: Slot)

  datatype Draws = Draws(
    folderShuffle: nat -> (nat -> nat),
    choice: Site -> nat,
    practiceShuffle: nat -> nat,
    mainShuffle: nat -> nat)

  datatype Pools = Pools(babbling: seq<string>, masks: seq<string>)

  predicate PoolsReady(pools: Pools)
  {
    |pools.babbling| > 0 && |pools.masks| > 0
  }

  predicate WellFormed(t: Trial, pools: Pools)
  {
    && t.babblingFile in pools.babbling
    && t.mask1File in pools.masks
    && t.mask2File in pools.masks
    && t.correctWord == WordFromFilename(t.primeFile)
  }

  function AtLevel(level: string): Trial -> bool
  {
    (t: Trial) => t.level == level
  }

  /** One trial per selected file. */
  function TrialsForFiles(level: string, files: seq<string>, phase: Phase, li: nat, fi: nat, pools: Pools, draws: Draws): (r: seq<Trial>)
    requires PoolsReady(pools)
    ensures |r| == |files|
    ensures forall k :: 0 <= k < |r| ==> r[k].primeFile == files[k]
    ensures forall t :: t in r ==> t.level == level && WellFormed(t, pools)
    ensures Count(r, AtLevel(level)) == |files|
    decreases |files|
  {
    if |files| == 0 then []
    else
      var site := Site(phase, li, fi, Babbling);
      var t := Trial(level, files[0], WordFromFilename(files[0]),
        Choice(pools.babbling, draws.choice(site)),
        Choice(pools.masks, draws.choice(site.(slot := Mask1))),
        Choice(pools.masks, draws.choice(site.(slot := Mask2))));
      var rest := TrialsForFiles(level, files[1..], phase, li, fi + 1, pools, draws);
      assert ([t] + rest)[1..] == rest;
      [t] + rest
  }

  predicate LevelReady(audio: map<string, seq<string>>, level: string)
  {
    level in audio && |VisibleFiles(audio[level])| >= WordsNeededPerFolder
  }

  lemma LevelsDistinct()
    ensures NoDups(CompressionLevels)
  {
  }

  predicate TrialsWithin(ts: seq<Trial>, pools: Pools, levels: seq<string>)
  {
    forall t :: t in ts ==> WellFormed(t, pools) && t.level in levels
  }

  predicate PrimesFromFolders(ts: seq<Trial>, audio: map<string, seq<string>>)
  {
    forall t :: t in ts ==> t.level in audio && t.primeFile in VisibleFiles(audio[t.level])
  }

  /** Each level from index `li` on has exactly one practice and one main trial. */
  predicate CountsFrom(practice: seq<Trial>, main: seq<Trial>, li: nat)
  {
    forall j :: li <= j < |CompressionLevels| ==>
      && Count(practice, AtLevel(CompressionLevels[j])) == PracticeWordsPerFolder
      && Count(main, AtLevel(CompressionLevels[j])) == MainWordsPerFolder
  }

  predicate FoldersDuplicateFree(audio: map<string, seq<string>>)
  {
    forall lv :: lv in audio ==> NoDups(audio[lv])
  }

  /** No word file is used in both practice and main. */
  predicate PrimeFilesDisjoint(practice: seq<Trial>, main: seq<Trial>)
  {
    forall p, m :: p in practice && m in main && p.level == m.level ==> p.primeFile != m.primeFile
  }

  function BuildLevels(audio: map<string, seq<string>>, li: nat, pools: Pools, draws: Draws): (r: Result<(seq<Trial>, seq<Trial>), GenerationError>)
    requires li <= |CompressionLevels|
    requires PoolsReady(pools)
    ensures r.Success? <==> forall j :: li <= j < |CompressionLevels| ==> LevelReady(audio, CompressionLevels[j])
    ensures r.Failure? && r.error.NotEnoughFiles? ==> r.error.found < r.error.needed
    ensures r.Success? ==>
      && |r.value.0| == (|CompressionLevels| - li) * PracticeWordsPerFolder
      && |r.value.1| == (|CompressionLevels| - li) * MainWordsPerFolder
      && TrialsWithin(r.value.0, pools, CompressionLevels[li..])
      && TrialsWithin(r.value.1, pools, CompressionLevels[li..])
      && PrimesFromFolders(r.value.0, audio)
      && PrimesFromFolders(r.value.1, audio)
      && CountsFrom(r.value.0, r.value.1, li)
      && (FoldersDuplicateFree(audio) ==> PrimeFilesDisjoint(r.value.0, r.value.1))
    decreases |CompressionLevels| - li
  {
    if li == |CompressionLevels| then Success(([], []))
    else
      var level := CompressionLevels[li];
      if level !in audio then Failure(MissingLevelFolder(level))
      else
        var files := VisibleFiles(audio[level]);
        if |files| < WordsNeededPerFolder then Failure(NotEnoughFiles(level, |files|, WordsNeededPerFolder))
        else
          var split := SplitFolder(files, PracticeWordsPerFolder, MainWordsPerFolder, draws.folderShuffle(li));
          var rest :- BuildLevels(audio, li + 1, pools, draws);
          var practice := TrialsForFiles(level, split.0, Practice, li, 0, pools, draws);
          var main := TrialsForFiles(level, split.1, Main, li, 0, pools, draws);
          StepWithin(li, pools, practice, rest.0);
          StepWithin(li, pools, main, rest.1);
          StepCounts(li, practice, rest.0, PracticeWordsPerFolder);
          StepCounts(li, main, rest.1, MainWordsPerFolder);
          assert forall t :: t in practice ==> t.primeFile in split.0;
          assert forall t :: t in main ==> t.primeFile in split.1;
          StepDisjoint(audio, li, split.0, split.1, practice, main, rest.0, rest.1);
          Success((practice + rest.0, main + rest.1))
  }

  lemma StepWithin(li: nat, pools: Pools, here: seq<Trial>, rest: seq<Trial>)
    requires li < |CompressionLevels|
    requires forall t :: t in here ==> t.level == CompressionLevels[li] && WellFormed(t, pools)
    requires TrialsWithin(rest, pools, CompressionLevels[li + 1..])
    ensures TrialsWithin(here + rest, pools, CompressionLevels[li..])
  {
    assert CompressionLevels[li..] == [CompressionLevels[li]] + CompressionLevels[li + 1..];
  }

  /** Counting per level over one level's trials followed by later levels' trials. */
  lemma StepCounts(li: nat, here: seq<Trial>, rest: seq<Trial>, reps: nat)
    requires li < |CompressionLevels|
    requires forall t :: t in here ==> t.level == CompressionLevels[li]
    requires forall t :: t in rest ==> t.level in CompressionLevels[li + 1..]
    requires Count(here, AtLevel(CompressionLevels[li])) == reps
    requires forall j :: li + 1 <= j < |CompressionLevels| ==> Count(rest, AtLevel(CompressionLevels[j])) == reps
    ensures forall j :: li <= j < |CompressionLevels| ==> Count(here + rest, AtLevel(CompressionLevels[j])) == reps
  {
    LevelsDistinct();
    forall j | li <= j < |CompressionLevels| ensures Count(here + rest, AtLevel(CompressionLevels[j])) == reps {
      var lv := CompressionLevels[j];
      CountAppend(here, rest, AtLevel(lv));
      if j == li {
        forall t | t in rest ensures !AtLevel(lv)(t) {
          var k :| li + 1 <= k < |CompressionLevels| && t.level == CompressionLevels[k];
        }
        CountNone(rest, AtLevel(lv));
      } else {
        CountNone(here, AtLevel(lv));
      }
    }
  }

  lemma StepDisjoint(
    audio: map<string, seq<string>>, li: nat, pFiles: seq<string>, mFiles: seq<string>,
    practice: seq<Trial>, main: seq<Trial>, restP: seq<Trial>, restM: seq<Trial>)
    requires li < |CompressionLevels| && CompressionLevels[li] in audio
    requires NoDups(VisibleFiles(audio[CompressionLevels[li]])) ==> forall f :: f in pFiles ==> f !in mFiles
    requires forall t :: t in practice ==> t.level == CompressionLevels[li] && t.primeFile in pFiles
    requires forall t :: t in main ==> t.level == CompressionLevels[li] && t.primeFile in mFiles
    requires forall t :: t in restP ==> t.level in CompressionLevels[li + 1..]
    requires forall t :: t in restM ==> t.level in CompressionLevels[li + 1..]
    requires FoldersDuplicateFree(audio) ==> PrimeFilesDisjoint(restP, restM)
    ensures FoldersDuplicateFree(audio) ==> PrimeFilesDisjoint(practice + restP, main + restM)
  {
    LevelsDistinct();
    var level := CompressionLevels[li];
    if FoldersDuplicateFree(audio) {
      NoDupsSubMultiset(VisibleFiles(audio[level]), audio[level]);
      forall t | t in restP || t in restM ensures t.level != level {
        var k :| li + 1 <= k < |CompressionLevels| && t.level == CompressionLevels[k];
      }
    }
  }

  /** `generate_trial_lists`: 8 practice and 8 main trials, one of each per
      level, on different word files; or the fatal error. */
  function GenerateTrialLists(
    audio: map<string, seq<string>>, babblingListing: seq<string>, maskListing: seq<string>, draws: Draws)
    : (r: Result<(seq<Trial>, seq<Trial>), GenerationError>)
    ensures r.Success? <==>
      && |VisibleFiles(babblingListing)| > 0 && |VisibleFiles(maskListing)| > 0
      && forall lv :: lv in CompressionLevels ==> LevelReady(audio, lv)
    ensures r.Failure? && r.error.NotEnoughFiles? ==> r.error.found < r.error.needed
    ensures r.Success? ==>
      var pools := Pools(VisibleFiles(babblingListing), VisibleFiles(maskListing));
      && |r.value.0| == PracticeTrialCount
      && |r.value.1| == MainTrialCount
      && TrialsWithin(r.value.0, pools, CompressionLevels)
      && TrialsWithin(r.value.1, pools, CompressionLevels)
      && PrimesFromFolders(r.value.0, audio)
      && PrimesFromFolders(r.value.1, audio)
      && CountsFrom(r.value.0, r.value.1, 0)
      && (FoldersDuplicateFree(audio) ==> PrimeFilesDisjoint(r.value.0, r.value.1))
  {
    var pools := Pools(VisibleFiles(babblingListing), VisibleFiles(maskListing));
    if !PoolsReady(pools) then Failure(EmptyAssetPool)
    else
      var lists :- BuildLevels(audio, 0, pools, draws);
      var practice := Shuffle(lists.0, draws.practiceShuffle);
      var main := Shuffle(lists.1, draws.mainShuffle);
      assert CompressionLevels[0..] == CompressionLevels;
      ShuffledListsKeep(audio, pools, lists.0, lists.1, practice, main);
      Success((practice, main))
  }

  lemma ShuffledListsKeep(
    audio: map<string, seq<string>>, pools: Pools,
    p: seq<Trial>, m: seq<Trial>, p': seq<Trial>, m': seq<Trial>)
    requires multiset(p') == multiset(p) && multiset(m') == multiset(m)
    requires TrialsWithin(p, pools, CompressionLevels) && TrialsWithin(m, pools, CompressionLevels)
    requires PrimesFromFolders(p, audio) && PrimesFromFolders(m, audio)
    requires CountsFrom(p, m, 0)
    requires FoldersDuplicateFree(audio) ==> PrimeFilesDisjoint(p, m)
    ensures TrialsWithin(p', pools, CompressionLevels) && TrialsWithin(m', pools, CompressionLevels)
    ensures PrimesFromFolders(p', audio) && PrimesFromFolders(m', audio)
    ensures CountsFrom(p', m', 0)
    ensures FoldersDuplicateFree(audio) ==> PrimeFilesDisjoint(p', m')
  {
    forall t | t in p' ensures t in p {
      assert t in multiset(p');
    }
    forall t | t in m' ensures t in m {
      assert t in multiset(m');
    }
    forall j | 0 <= j < |CompressionLevels|
      ensures Count(p', AtLevel(CompressionLevels[j])) == PracticeWordsPerFolder
      ensures Count(m', AtLevel(CompressionLevels[j])) == MainWordsPerFolder
    {
      CountPermutation(p', p, AtLevel(CompressionLevels[j]));
      CountPermutation(m', m, AtLevel(CompressionLevels[j]));
    }
  }

  // ---------------------------------------------------------------------
  // The typing loop and scoring.

  /** One key press as `event.waitKeys(timeStamped=...)` reports it. */
  datatype KeyPress = KeyPress(name: string, time: real)

  /** How one key changes the typed text: backspace deletes the last
      character, "space" types a blank, a one-character key name types
      itself, and every other key (shift, arrows, ...) is ignored. */
  function ApplyKey(typed: string, key: string): (r: string)
    ensures key == BackspaceKey ==> r == if |typed| == 0 then "" else typed[..|typed| - 1]
    ensures key == SpaceKey ==> r == typed + " "
    ensures |key| == 1 ==> r == typed + key
    ensures key != BackspaceKey && key != SpaceKey && |key| != 1 ==> r == typed
  {
    if key == BackspaceKey then (if |typed| == 0 then "" else typed[..|typed| - 1])
    else if key == SpaceKey then typed + " "
    else if |key| == 1 then typed + key
    else typed
  }

  /** A one-character key followed by backspace leaves the text as it was. */
  lemma BackspaceUndoesKey(typed: string, key: string)
    requires |key| == 1 || key == SpaceKey
    ensures ApplyKey(ApplyKey(typed, key), BackspaceKey) == typed
  {
    var t := ApplyKey(typed, key);
    assert t[..|t| - 1] == typed;
  }

  /** The text after a sequence of editing keys, starting from nothing. */
  function Typed(keys: seq<KeyPress>): (r: string)
    ensures |r| <= |keys|
  {
    if |keys| == 0 then ""
    else ApplyKey(Typed(keys[..|keys| - 1]), keys[|keys| - 1].name)
  }

  predicate Ends(k: KeyPress)
  {
    k.name == QuitKey || k.name == SubmitKey
  }

  /** Index of the first quit or submit key, or the length. */
  function FirstEnd(keys: seq<KeyPress>): (e: nat)
    ensures e <= |keys|
    ensures e < |keys| ==> Ends(keys[e])
    ensures forall k :: 0 <= k < e ==> !Ends(keys[k])
  {
    if |keys| == 0 then 0
    else if Ends(keys[0]) then 0
    else
      var e := FirstEnd(keys[1..]);
      assert forall k :: 1 <= k < e + 1 ==> keys[k] == keys[1..][k - 1];
      e + 1
  }

  datatype TypingOutcome =
    | Quit
    | Submitted(typed: string, rtFirstPress: real)
    | AwaitingKeys(typed: string)

  /** The `while True` loop of `run_trial`: consumes key presses until
      escape (quit) or return (submit). The reaction time is that of the
      first key pressed, whichever it was. */
  method ReadTypedResponse(keys: seq<KeyPress>) returns (o: TypingOutcome)
    ensures o == Quit <==> FirstEnd(keys) < |keys| && keys[FirstEnd(keys)].name == QuitKey
    ensures o.Submitted? <==> FirstEnd(keys) < |keys| && keys[FirstEnd(keys)].name == SubmitKey
    ensures o.Submitted? ==> o.typed == Typed(keys[..FirstEnd(keys)]) && o.rtFirstPress == keys[0].time
    ensures o.AwaitingKeys? <==> FirstEnd(keys) == |keys|
    ensures o.AwaitingKeys? ==> o.typed == Typed(keys)
  {
    var typed := "";
    var i := 0;
    while i < |keys| && !Ends(keys[i])
      invariant 0 <= i <= FirstEnd(keys)
      invariant typed == Typed(keys[..i])
    {
      assert keys[..i + 1][..i] == keys[..i];
      typed := ApplyKey(typed, keys[i].name);
      i := i + 1;
    }
    if i == |keys| {
      assert keys[..i] == keys;
      o := AwaitingKeys(typed);
    } else if keys[i].name == QuitKey {
      o := Quit;
    } else {
      o := Submitted(typed, keys[0].time);
    }
  }

  /** One row written by a completed trial. */
  datatype TrialRecord = TrialRecord(
    responseWord: string, rtFirstPress: real, accuracy: nat,
    level: string, correctWord: string, primeFile: string)

  /** Scoring a submitted answer: both sides are stripped and lower-cased
      before comparison. */
  function ScoreSubmission(t: Trial, typed: string, rtFirstPress: real): (rec: TrialRecord)
    ensures rec.accuracy == 1 <==> Normalize(typed) == Normalize(t.correctWord)
    ensures rec.accuracy == 0 <==> Normalize(typed) != Normalize(t.correctWord)
    ensures rec.responseWord == Normalize(typed)
    ensures rec.level == t.level && rec.correctWord == t.correctWord && rec.primeFile == t.primeFile
  {
    var submitted := Normalize(typed);
    var correct := Normalize(t.correctWord);
    TrialRecord(submitted, rtFirstPress, if submitted == correct then 1 else 0, t.level, t.correctWord, t.primeFile)
  }

  /** Typing the correct word, with any whitespace around it, scores 1. */
  lemma TypedWordScoresOne(t: Trial, pre: string, post: string, rt: real)
    requires AllSpace(pre) && AllSpace(post)
    ensures ScoreSubmission(t, pre + t.correctWord + post, rt).accuracy == 1
  {
    NormalizeIgnoresSurroundingSpace(pre, t.correctWord, post);
  }

  /** The recorded response word is itself normalised. */
  lemma ResponseWordNormalised(t: Trial, typed: string, rt: real)
    ensures Normalize(ScoreSubmission(t, typed, rt).responseWord) == ScoreSubmission(t, typed, rt).responseWord
  {
    NormalizeIdempotent(typed);
  }

  /** `run_trial`: a sound-loading failure and the escape key quit; a
      submitted answer is scored. */
  method RunTrial(t: Trial, soundsLoaded: bool, keys: seq<KeyPress>) returns (rec: Option<TrialRecord>, quit: bool)
    ensures !soundsLoaded ==> rec == None && quit
    ensures soundsLoaded ==> (quit <==> FirstEnd(keys) < |keys| && keys[FirstEnd(keys)].name == QuitKey)
    ensures rec.Some? <==> soundsLoaded && FirstEnd(keys) < |keys| && keys[FirstEnd(keys)].name == SubmitKey
    ensures rec.Some? ==> rec.value == ScoreSubmission(t, Typed(keys[..FirstEnd(keys)]), keys[0].time)
  {
    if !soundsLoaded {
      return None, true;
    }
    var o := ReadTypedResponse(keys);
    match o
    case Quit =>
      rec, quit := None, true;
    case Submitted(typed, rt) =>
      rec, quit := Some(ScoreSubmission(t, typed, rt)), false;
    case AwaitingKeys(_) =>
      rec, quit := None, false;
  }

  /** The typing experiment shows no breaks. */
  lemma NoBreaks(practiceQuits: seq<bool>, mainQuits: seq<bool>)
    ensures forall j: nat :: BreakShown(j) !in RunSession(practiceQuits, mainQuits, MainBreakPoints).events
  {
  }
}

=== FILE: wrappers.dfy ===
/** Failure-carrying results: the scripts abort generation with a fatal message
    (`core.quit()`, `raise`) where this model returns `Failure`. */
module Wrappers {

  datatype Option<+T> = None | Some(value: T)

  datatype Result<+T, +E> = Success(value: T) | Failure(error: E) {

    predicate IsFailure() {
      Failure?
    }

    function PropagateFailure<U>(): Result<U, E>
      requires Failure?
    {
      Failure(error)
    }

    function Extract(): T
      requires Success?
    {
      value
    }
  }
}
